=== FILE: README.md ===
# Brocard search: a Dafny model

`brocard` searches for solutions of Brocard's problem: integers `n` with `n! + 1` a perfect square. A candidate `n` is ruled out as soon as `n! + 1` is a quadratic non-residue modulo some prime `p`. The search keeps `n! mod p` incrementally in Montgomery form, one Montgomery space per prime, and decides residuosity by Euler's criterion.

This project models that machinery with `R_EXP = 64`, so `R = 2^64`. It covers:

- the integer kernel: gcd, the 2^128-wrapping modular inverse, shift-and-add multiply and square-and-multiply;
- the Legendre symbols and their multiplication table;
- Montgomery spaces and elements;
- the two span solvers;
- the candidate and report types, including the report's text layout;
- the broker's chunk-size control loop, as a sequential state machine;
- the Miller-Rabin test and the segmented sieve;
- the uncompiled i128 prototype `src/mult.rs`.

The modules, leaves first:

| file | module | models |
|---|---|---|
| `wrappers.dfy`, `arith.dfy` | `Wrappers`, `Arith` | `Option`/`Result`, powers, factorials, divisibility, modular arithmetic facts |
| `math_kernel.dfy` | `MathKernel` | `src/math/mod.rs` |
| `legendre.dfy` | `Legendre` | `src/math/legendre.rs` |
| `montgomery_space.dfy` | `MontgomerySpace` | `src/montgomery/space.rs` (construction, `redc`, `enter`), `Elt::exit` |
| `montgomery_elt.dfy` | `MontgomeryElt` | the operators of `src/montgomery/elt.rs` |
| `montgomery_algorithms.dfy` | `MontgomeryAlgorithms` | `factorial`, `legendre`, and the unit cases of `src/montgomery/mod.rs` |
| `candidate.dfy` | `Candidate` | `src/brocard/candidate.rs` |
| `text.dfy` | `Text` | decimal numerals and newline-terminated lines |
| `report.dfy` | `Report` | `src/brocard/report.rs`, with `write_to_file` as a pure `Render` |
| `selection.dfy` | `Selection` | picking, in order, the positions of a flag sequence |
| `span.dfy` | `Span` | `BrocardSpan::solve` of `src/brocard/span.rs` |
| `span_partition.dfy` | `SpanPartition` | the older `BrocardSpan::solve` of `src/brocard/mod.rs` |
| `broker.dfy` | `Broker` | `src/brocard/broker.rs` |
| `prime.dfy` | `Prime` | `src/math/prime.rs` |
| `legacy_mult.dfy` | `LegacyMult` | `src/mult.rs` |

**Conventions.**

- **Integers.** All integers are unbounded.
- **Overflow.** A `u128` or `usize` bound that the code relies on becomes a precondition. Examples: `t < n*R` for `redc`, `n <= 2^127` for `mod_mult`, and `2n <= R` for a usable space.
  - Wrapping is modelled explicitly where it changes a result: the `wrapping_*` operations of `mod_inverse`, and the 128-bit sum inside `redc`.
- **Panics.** An explicit panic (`panic!`, `unwrap()` of `None`) is a `Result` error.
  - In the broker state machine, every debug-build arithmetic panic is an error value as well.
- **Rust's `%`.** On the signed `i128` values of `src/mult.rs`, `%` truncates toward zero. It is modelled by `LegacyMult.TRem`.
- **Debug or release arithmetic, per module.** `MontgomerySpace.NewSpace` follows a debug build: the `R - n` underflow of `Space::new` is the `ModulusAboveR` error. `MontgomerySpace.RedcAsWritten` follows a release build: the 128-bit sum of `redc` wraps, which is what the overflow finding exhibits; a debug build would panic there instead. The broker follows a debug build throughout.
- **Inputs instead of clocks.** Times and durations are `nat` nanosecond inputs.

**API mismatches in the source.** The source mixes API versions:

- `src/brocard/mod.rs` calls a two-argument `Space::new`.
- `src/brocard/span.rs` calls a `BrocardReport::empty()` that `report.rs` does not define.

Both solvers are modelled against the one-argument `Space::new` of `space.rs`. `empty()` is taken to be `BrocardReport::new(primes)`.

## Model

| member | source | states |
|---|---|---|
| MathKernel.Gcd | src/math/mod.rs:5-14 | the result divides both arguments, and it is 0 only when both arguments are 0 |
| MathKernel.GcdGreatest | src/math/mod.rs:5-14 | every common divisor divides the result, so it is the greatest common divisor |
| MathKernel.GcdOfZero | src/math/mod.rs:5-14 | `gcd(a, 0) == gcd(0, a) == a` |
| MathKernel.GcdWithR | src/math/mod.rs:5-14 | `gcd(2^64, n) == 1` exactly for odd `n` |
| MathKernel.InverseLoop | src/math/mod.rs:22-30 | the wrapping Euclid loop terminates, and its remainder column ends at `gcd(r, new_r)` |
| MathKernel.ModInverse | src/math/mod.rs:16-35 | `None` exactly when `gcd(n, r) > 1`; otherwise a value below 2^128 |
| MathKernel.InverseLoopBezout | src/math/mod.rs:22-30 | each row keeps `t*n ≡ r (mod m)` for every `m` dividing 2^128, despite the wrapping |
| MathKernel.ModInverseIsInverse | src/math/mod.rs:26-34 | for `r` dividing 2^128, the returned `t` satisfies `(t mod r)*n ≡ 1 (mod r)` |
| MathKernel.MultLoop | src/math/mod.rs:40-48 | the shift-and-add loop keeps `result + a*b` invariant modulo `n` |
| MathKernel.ModMult | src/math/mod.rs:37-49 | `mod_mult(a,b,n) == (a*b) % n`, below `n`, for `0 < n <= 2^127` |
| MathKernel.ExpLoop | src/math/mod.rs:59-69 | the square-and-multiply loop computes `result * a^k mod n` |
| MathKernel.ModExp | src/math/mod.rs:56-70 | `mod_exp(a,k,n) == a^k % n` for `k > 0`, and 1 for `k == 0` whatever `n` is, `n = 0` included |
| Legendre.Mul | src/math/legendre.rs:26-39 | the table is multiplication of the values 0, 1, -1; Divisor absorbs; Residue is the identity |
| Legendre.ValueInjective | src/math/legendre.rs:5-10 | distinct symbols have distinct values |
| Legendre.MulCommutesAndAssociates | src/math/legendre.rs:29-38 | `*` is commutative and associative on the three symbols |
| Legendre.NaiveLegendre | src/math/legendre.rs:13-23 | Divisor iff `a^((p-1)/2) ≡ 0`, Residue iff it is 1, and Residue for `p < 3` |
| Legendre.NaiveLegendreMod | src/math/legendre.rs:13-23 | the symbol depends only on `a mod p` |
| Legendre.NaiveLegendreOfMultiple | src/math/legendre.rs:13-23 | a multiple of `p` is classified Divisor |
| Legendre.NaiveLegendreExamples | src/montgomery/mod.rs:87-109 | `(21,7)` Divisor, `(21,11)` Nonresidue, `(21,5)` Residue |
| MontgomerySpace.SpaceConstants | src/montgomery/space.rs:105-121 | for odd `n < R`, both inverses exist, `n_inv*n ≡ 1` and `n*n_prime ≡ -1 (mod R)` |
| MontgomerySpace.NewSpace | src/montgomery/space.rs:105-137 | succeeds exactly for odd `n < R`; `n_prime`, `n_inv`, `r_squared == R^2 mod n` and `r_n_legendre == naive_legendre(R, n)` as documented |
| MontgomerySpace.NewSpaceValid | src/montgomery/space.rs:105-137 | every odd `n` with `2n <= R` yields a usable space |
| MontgomerySpace.Redc | src/montgomery/space.rs:81-93 | `redc(t) < n` and `redc(t)*R ≡ t (mod n)`, for `t < n*R` |
| MontgomerySpace.RedcAsWrittenAgrees | src/montgomery/space.rs:81-93 | in a usable space the wrapping 128-bit sum never wraps, so the code is exact |
| MontgomerySpace.RedcOverflowWitness | src/montgomery/space.rs:81-93 | with `n = 2^64-1`, the sum for `t = (n-1)^2` wraps to 0, and 0 is not `t*R^-1 mod n` |
| MontgomerySpace.NewSpaceOverflows | src/montgomery/space.rs:105-137 | `Space::new(2^64-1)` is accepted and its `redc` then returns a wrong value |
| MontgomerySpace.NewSpaceRInv | src/montgomery/space.rs:106 | `r_inv` is `mod_inverse(R, n)`, a 2^128-wrapped coefficient, reduced `% n` |
| MontgomerySpace.RInvIntended | src/montgomery/space.rs:99 | the documented `R^-1 mod n`: below `n` and `R*r ≡ 1 (mod n)` |
| MontgomerySpace.RInvIntendedMod7 | src/montgomery/space.rs:99 | for `n = 7` the true `R^-1` is 4 |
| MontgomerySpace.RInvAsWrittenIsWrong | src/montgomery/space.rs:106 | for `n = 7` the stored `r_inv` is 1, and `R*1 ≡ 2`, not 1 |
| MontgomerySpace.CancelR | src/montgomery/space.rs:81-93 | `R` cancels modulo an odd `n` |
| MontgomerySpace.Exit | src/montgomery/elt.rs:12-14 | `exit(x) < n` and `exit(x)*R ≡ x.val (mod n)` |
| MontgomerySpace.ExitOfRepresentative | src/montgomery/elt.rs:12-14 | an element whose value is `a*R mod n` exits to `a mod n` |
| MontgomerySpace.ExitInjective | src/montgomery/elt.rs:12-14 | distinct reduced values exit to distinct residues |
| MontgomerySpace.Enter | src/montgomery/space.rs:38-45 | `enter(a).val < n` and `exit(enter(a)) == a mod n` |
| MontgomerySpace.EnterRepresents | src/montgomery/space.rs:38-45 | `enter(a).val ≡ a*R (mod n)` |
| MontgomerySpace.ExitEnter | src/montgomery/space.rs:38-45 | for every `a < R`, `enter` is defined and `exit(enter(a)) == a mod n` |
| MontgomeryElt.RedcOfProduct | src/montgomery/elt.rs:78-87 | the reduced product of two elements represents the product of their residues |
| MontgomeryElt.Mul | src/montgomery/elt.rs:78-87 | `exit(x*y) == exit(x)*exit(y) mod n`, and the product is reduced |
| MontgomeryElt.MulU128 | src/montgomery/elt.rs:89-95 | `exit(x*b) == exit(x)*b mod n` |
| MontgomeryElt.MulU128AgreesWithMul | src/montgomery/elt.rs:47-56 | `x * b` and `x *= b` equal `x * enter(b)` |
| MontgomeryElt.Add | src/montgomery/elt.rs:58-67 | `+` does not reduce: the value is the 128-bit wrapping sum of the two values |
| MontgomeryElt.SumRepresents | src/montgomery/elt.rs:58-67 | the unreduced sum represents the sum of the residues |
| MontgomeryElt.AddExit | src/montgomery/elt.rs:58-67 | without wrap-around, `exit(x+y) == (exit(x)+exit(y)) mod n` |
| MontgomeryElt.AddU128 | src/montgomery/elt.rs:69-76 | `x + b` stays below `2n` and exits to `(exit(x)+b) mod n` |
| MontgomeryElt.AddU128AgreesWithAdd | src/montgomery/elt.rs:69-76 | `x + b` equals `x + enter(b)` |
| MontgomeryElt.AddAssign | src/montgomery/elt.rs:41-45 | after `+=`, the value is `(x.val + y.val) % n` |
| MontgomeryElt.AddAssignExit | src/montgomery/elt.rs:41-45 | `+=` exits to the sum of the residues |
| MontgomeryElt.Sub | src/montgomery/elt.rs:97-106 | `(x-y).val == (x.val - y.val) mod n`, computed without underflow as `(x.val + n - y.val) % n` |
| MontgomeryElt.SubExit | src/montgomery/elt.rs:97-106 | `exit(x-y) == (exit(x) - exit(y)) mod n`, even when `exit(x) < exit(y)` |
| MontgomeryElt.ExpLoop | src/montgomery/elt.rs:16-28 | the loop keeps `acc * base^e` equal to the answer, in residues |
| MontgomeryElt.Exp | src/montgomery/elt.rs:16-28 | `exit(x.exp(e)) == exit(x)^e mod n` |
| MontgomeryElt.EltEqIffSameResidue | src/montgomery/elt.rs:35-39 | equality of elements is equality of their residues |
| MontgomeryAlgorithms.Factorial | src/montgomery/space.rs:47-53 | `exit(factorial(k)) == k! mod n` |
| MontgomeryAlgorithms.NaiveFactorial | src/montgomery/mod.rs:141-149 | the `mod_mult` fold over `1..=k` is its unreduced seed 1 at `k = 0`, and `k! mod n` for `k > 0` |
| MontgomeryAlgorithms.FactorialIsNaiveFactorial | src/montgomery/mod.rs:141-149 | the Montgomery factorial agrees with the naive fold for `k > 0` or `n > 1` |
| MontgomeryAlgorithms.FactorialTestFailsAtOne | src/montgomery/mod.rs:141-149 | `Space::new(1)` is usable, and there `factorial(0).exit()` is 0 while the fold gives 1; `Space::new(2)` fails |
| MontgomeryAlgorithms.FactorialIsReducedNaiveFactorial | src/montgomery/mod.rs:141-149 | with the fold reduced modulo `n`, the two agree in every usable space and for every `k < R` |
| MontgomeryAlgorithms.SpaceLegendre | src/montgomery/space.rs:56-71 | the fast symbol is `naive_legendre(exit(a), n) * r_n_legendre` |
| MontgomeryAlgorithms.PowerClassification | src/montgomery/space.rs:56-71 | classifying the Montgomery power `a^((n-1)/2)` gives the naive symbol of `a` |
| MontgomeryAlgorithms.ClassifyPowerByResidue | src/montgomery/space.rs:60-70 | the `val == 0` test and the comparison with `enter(1)` classify the power by its residue: 0 is Divisor, 1 is Residue, anything else Nonresidue |
| MontgomeryAlgorithms.LegendreOfEntered | src/montgomery/space.rs:56-71 | `legendre(enter(a)) == naive_legendre(a, n) * r_n_legendre`, hence equal to the naive symbol when `R` is a residue |
| MontgomeryAlgorithms.CachedSymbolResidue | src/montgomery/space.rs:127 | a residue of `R mod p` raised to `(p-1)/2` that is 1 makes `R` a Residue |
| MontgomeryAlgorithms.CachedSymbolExamples | src/montgomery/mod.rs:48-81 | `R` is a residue modulo 5, 7 and 11 |
| MontgomeryAlgorithms.LegendreUnitTests | src/montgomery/mod.rs:48-81 | the fast symbol of `enter(21)` is Divisor modulo 7, Nonresidue modulo 11 and Residue modulo 5 |
| MontgomeryAlgorithms.WikipediaExample | src/montgomery/mod.rs:30-38 | modulo 17, `enter(7) * enter(15)` exits to 3 |
| MontgomeryAlgorithms.UnitTestSpacesValid | src/montgomery/mod.rs:30-81 | the test moduli 5, 7, 11 and 17 build usable spaces |
| Candidate.IsSolution | src/brocard/candidate.rs:16-21 | true exactly for `Solution` |
| Candidate.IsNonsolution | src/brocard/candidate.rs:23-26 | the negation of `is_solution` |
| Candidate.Passed | src/brocard/candidate.rs:28-33 | `Some(passed)` exactly for a `Nonsolution` |
| Candidate.SolutionXorPassed | src/brocard/candidate.rs:16-33 | exactly one of `is_solution()` and `passed().is_some()` holds |
| Text.Decimal | src/brocard/report.rs:41 | the `{}` numeral is canonical: digits only, no leading zero |
| Text.ParseDecimalOfDecimal | src/brocard/report.rs:41 | reading a written numeral gives the number back |
| Text.DecimalOfParseDecimal | src/brocard/report.rs:41 | writing a read canonical numeral gives the text back |
| Text.SplitJoin | src/brocard/report.rs:38-58 | newline-free lines, each terminated by `\n`, split back into the same lines |
| Text.JoinLinesAppend | src/brocard/report.rs:38-58 | writing line lists one after the other concatenates their texts |
| Report.New | src/brocard/report.rs:14-21 | no candidates, the primes as given, the start time, zero duration |
| Report.Push | src/brocard/report.rs:23-25 | appends exactly one candidate at the end and changes nothing else |
| Report.Finish | src/brocard/report.rs:27-30 | changes only the duration, which is the time since the start |
| Report.FinishLastWins | src/brocard/report.rs:27-30 | finishing twice is finishing once, at the later time |
| Report.Summarize | src/brocard/report.rs:34-50 | `max_passed` bounds every Nonsolution's `passed`, and `max` is 0 when `max_passed` is |
| Report.SummarizeAttained | src/brocard/report.rs:44-47 | a positive `max_passed` is attained, and `max` is the FIRST Nonsolution attaining it |
| Report.SummarizeNoNonsolutions | src/brocard/report.rs:34-35 | without Nonsolutions the summary is `(0, 0)` |
| Report.SolutionLines | src/brocard/report.rs:38-42 | one `S:<n>` line per Solution, in order |
| Report.SolutionTextIsLines | src/brocard/report.rs:38-50 | the text written by the loop is the `S:` lines of the Solutions, in list order |
| Report.PrimeTextHasNoNewline | src/brocard/report.rs:54-57 | the `P:` list is one line |
| Report.RenderIsJoinedLines | src/brocard/report.rs:38-58 | the file is the `S:` lines, an empty line, the `N:` line and the `P:` line, each newline-terminated |
| Report.RenderReadsBack | src/brocard/report.rs:38-58 | splitting the rendered text at newlines recovers exactly those lines |
| Report.SolutionLineReadsBack | src/brocard/report.rs:41 | an `S:` line reads back as the Solution's number |
| Report.SummaryWithoutNonsolutions | src/brocard/report.rs:53 | a report without Nonsolutions renders `N:<len>,M:0,0`, with `len` counting all candidates |
| Selection.SelectMembers | src/brocard/mod.rs:62-70 | a candidate is selected exactly when its flag is the wanted one |
| Selection.SelectAscending | src/brocard/mod.rs:62-70 | the selection is strictly ascending |
| Selection.SelectLengths | src/brocard/mod.rs:62-70 | the two selections together are as long as the flag sequence |
| Span.Spaces | src/brocard/span.rs:39 | one usable space per prime, in order |
| Span.Factorials | src/brocard/span.rs:44 | one element per space, aligned with the spaces |
| Span.FactorialsRepresent | src/brocard/span.rs:44 | each initial element represents `c! mod p_i` |
| Span.MulEach | src/brocard/span.rs:76-78 | `v_i *= candidate` multiplies each residue by the candidate |
| Span.MulEachAdvancesFactorials | src/brocard/span.rs:75-78 | multiplying the elements for `c!` by `c+1` gives the elements for `(c+1)!`, as recomputing from scratch would |
| Span.SumSquareFits | src/brocard/span.rs:54 | with `4n < R`, the unreduced `v_i + 1` (below `2n`) is safe to square in `legendre` |
| Span.PassesRepresents | src/brocard/span.rs:53-55 | a prime fails the filter exactly when `x + 1` is a non-residue modulo it |
| Span.PassesMeaning | src/brocard/span.rs:53-55 | the filter on `factorial(c)` fails exactly when the prime rules `c` out |
| Span.CountTrueExtremes | src/brocard/span.rs:53-57 | a count of 0 means no prime passed, and a full count means every prime passed |
| Span.PassCountIsSurvivors | src/brocard/span.rs:53-64 | `test.len()`, over all primes with no short-circuit, is the number of primes that do not rule `c` out |
| Span.Outcome | src/brocard/span.rs:57-65 | the outcome carries `c`; every Nonsolution has `1 <= passed <= primes.len()`; no primes gives a Solution |
| Span.OutcomeAsWritten | src/brocard/span.rs:57-65 | as written, `c` is a Solution exactly when EVERY prime rules it out, the reverse of the comments |
| Span.OutcomeIntended | src/brocard/span.rs:57-65 | the commented rule: a Nonsolution has fewer than all primes passing |
| Span.OutcomeIntendedMeaning | src/brocard/span.rs:57-65 | under the commented rule, `c` is a Solution exactly when NO prime rules it out |
| Span.ReversedClassificationWitness | src/brocard/span.rs:57-65 | with the prime 7, the true solution 4 (`4! + 1 = 25`) is recorded as a Nonsolution |
| Span.OutcomesAt | src/brocard/span.rs:41-73 | the k-th outcome is that of `start + k`, so the outcomes are in ascending candidate order |
| Span.OutcomesSnoc | src/brocard/span.rs:57-65 | the next candidate's outcome is appended at the end |
| Span.Advance | src/brocard/span.rs:75-78 | the in-place multiplication moves `v` from `(c-1)!` to `c!` |
| Span.TestCandidate | src/brocard/span.rs:53-65 | after pushing candidate `c`, the report holds the outcomes of `start..=c` |
| Span.SolveStep | src/brocard/span.rs:47-79 | one pass keeps the loop invariant; the loop breaks exactly when the candidate passes `start + span` |
| Span.Solve | src/brocard/span.rs:35-84 | the finished report holds exactly `span + 1` outcomes, those of `start..=start+span`, in order |
| SpanPartition.AllPassIsPotential | src/brocard/mod.rs:58-60 | the parallel `all` on the incremental factorials holds exactly when no prime rules `c` out |
| SpanPartition.PotentialIsIntendedSolution | src/brocard/mod.rs:62-70 | the older solver's potentials are the Solutions of the commented rule of span.rs |
| SpanPartition.Partition | src/brocard/mod.rs:42-82 | every candidate lands in exactly one list, by the test; both are ascending; together they hold `span+1` |
| SpanPartition.PartitionSnoc | src/brocard/mod.rs:62-70 | each candidate is pushed onto the end of the list its test picks |
| SpanPartition.TestAll | src/brocard/mod.rs:58-60 | the test is the potential predicate |
| SpanPartition.Record | src/brocard/mod.rs:62-70 | after the push, the lists hold the classification of `start..=candidate` |
| SpanPartition.PartitionStep | src/brocard/mod.rs:51-82 | one pass keeps the invariant; the loop breaks exactly after `start + span` |
| SpanPartition.SolvePartition | src/brocard/mod.rs:38-85 | the result is the potentials and the exclusions of `start..=start+span` |
| Broker.New | src/brocard/broker.rs:22-36 | rejects `chunk_size > span` first and a zero target second; otherwise stores the fields unchanged |
| Broker.Delta | src/brocard/broker.rs:111 | the absolute difference of duration and target |
| Broker.OffTargetMeaning | src/brocard/broker.rs:114 | `delta > target/50` is "more than 2% off": `50*delta > target` |
| Broker.AdjustAsWritten | src/brocard/broker.rs:111-140 | off target with the backoff run out: the size becomes exactly `chunk_size / 2` if slow and `3 * chunk_size` if fast (an error past `usize`), and the backoff is reset; every other report only decrements the backoff, which underflows at 0 |
| Broker.AdjustIntended | src/brocard/broker.rs:111-140 | agrees with the code wherever it does not panic, never underflows, and fails only when tripling overflows `usize` |
| Broker.BackoffUnderflowWitness | src/brocard/broker.rs:137-140 | an on-target report with the backoff at 0 panics, where the intended step keeps the state |
| Broker.HalvingReachesZero | src/brocard/broker.rs:130-131 | nothing keeps the chunk size positive: halving 1 gives 0 |
| Broker.Begin | src/brocard/broker.rs:50-55 | the initial state satisfies the invariant, with no active jobs and a full backoff |
| Broker.DispatchStep | src/brocard/broker.rs:161-184 | both counters grow by one; `next_start` uses the CURRENT chunk size; dispatch stops exactly at the first `next_start > start + span`; `active_jobs <= workload_max` is kept |
| Broker.ReceiveStep | src/brocard/broker.rs:69-150 | `started_jobs - workload_max` (the report file's index) cannot underflow, `total_checked` grows by the report's candidates, the tuning is `AdjustAsWritten`'s, one job is freed, and an underflowing backoff panics |
| Broker.Drive | src/brocard/broker.rs:57-185 | every run keeps the invariant, and stops only when finished or waiting for a report |
| Broker.DriveCountsEveryReport | src/brocard/broker.rs:108 | a run that ends waiting has counted exactly the candidates of every report |
| Broker.ResizedChunksOverlap | src/brocard/broker.rs:162 | after a resize the chunks are not contiguous: they are `0..=4`, `4..=8`, then `4..=6` |
| Broker.OnTargetRunPanics | src/brocard/broker.rs:114-140 | two on-target reports with one thread drive the broker into the backoff underflow |
| Broker.SolutionsSnoc | src/brocard/broker.rs:88-101 | the solution fold appends one number per Solution |
| Broker.ReceiptSummary | src/brocard/broker.rs:85-105 | the broker's fold computes the same `max`/`max_passed` as the report, and counts the Solutions |
| Prime.TwoAdic | src/math/prime.rs:18-23 | `n - 1 == d * 2^r` with `d` odd |
| Prime.TwoAdicUnique | src/math/prime.rs:18-23 | the decomposition is unique |
| Prime.Exponent | src/math/prime.rs:38-41 | the j-th exponent is `d * 2^j` |
| Prime.ChainStep | src/math/prime.rs:39 | squaring the (j-1)-th value with `mod_exp` gives the j-th value |
| Prime.SquaringsMeaning | src/math/prime.rs:38-43 | the squaring loop answers "composite" exactly when no later `a^(d*2^i)` is `n-1` |
| Prime.CheckCompositeMeaning | src/math/prime.rs:33-44 | false exactly when `a^d ≡ ±1` or `a^(d*2^j) ≡ -1` for some `1 <= j < s` |
| Prime.BasesFromMeaning | src/math/prime.rs:25-30 | bases tried in order: the first base equal to `n` accepts, and the first witness before it rejects |
| Prime.IsPrime | src/math/prime.rs:13-31 | false below 2, true at 2, false for even `n > 2` |
| Prime.IsPrimeMeaning | src/math/prime.rs:13-31 | an odd `n > 2` is accepted exactly when no base tried before reaching `n` witnesses compositeness |
| Prime.ThreeIsPrime | src/math/prime.rs:26 | 3 is accepted, at the base equal to it |
| Prime.TwoWitnessesFifteen | src/math/prime.rs:33-44 | 2 witnesses that 15 is composite |
| Prime.FifteenIsComposite | src/math/prime.rs:13-31 | 15 is rejected |
| Prime.CrossedMeansComposite | src/math/prime.rs:50-59 | below `p^2`, a number is crossed out by one of the rounds `q = 2..p-1` (every integer, not only primes) exactly when it is composite |
| Prime.CeilMultiple | src/math/prime.rs:53 | `(low + p - 1) / p * p` is the least multiple of `p` at or above `low` |
| Prime.CrossOutMultiples | src/math/prime.rs:53-58 | one round clears exactly the multiples of `p` from `max(p^2, ceil(low/p)*p)` to `high` |
| Prime.CrossOutComposites | src/math/prime.rs:50-59 | after all rounds, exactly the composites of `[low, high]` are cleared |
| Prime.Collect | src/math/prime.rs:61-65 | the collected numbers are ascending and are exactly the still-marked ones |
| Prime.SegmentedSieve | src/math/prime.rs:46-68 | strictly ascending, within `[low, high]`, exactly the primes there together with 0 and 1 when in range |
| Prime.SieveListsZeroAndOne | src/math/prime.rs:104-109 | `segmented_seive(0, 1000)` lists 0 and 1, which are not prime |
| Prime.SegmentedSieveIntended | src/math/prime.rs:46-68 | with 0 and 1 excluded: exactly the primes of `[low, high]`, in ascending order |
| LegacyMult.TRem | src/mult.rs:28 | Rust's truncated `%`: smaller than the divisor, congruent to the dividend, with the dividend's sign |
| LegacyMult.MultLoop | src/mult.rs:44-55 | the doubling loop's result is smaller than `p` |
| LegacyMult.MultLoopMeaning | src/mult.rs:44-55 | the loop computes `(ans + n*x) % p`, with the truncated `%` |
| LegacyMult.ModularMult | src/mult.rs:41-56 | `(n*x) % p` for `x > 0` and 1 (not 0) for `x <= 0` |
| LegacyMult.ModularMultExample | src/mult.rs:81-84 | `modular_mult(2,4,5) == 3` |
| LegacyMult.PowLoopMeaning | src/mult.rs:27-38 | the squaring loop computes `(ans * n^x) % p` |
| LegacyMult.ModularExponent | src/mult.rs:24-39 | `n^x % p` for `x > 0` and 1 for `x <= 0` |
| LegacyMult.ModularExponentExample | src/mult.rs:86-89 | `modular_exponent(2,4,5) == 1` |
| LegacyMult.ExtendedGcd | src/mult.rs:58-65 | `(g, x, y)` with `a*x + b*y == g == gcd(a, b)` |
| LegacyMult.ModInverse | src/mult.rs:67-75 | panics exactly when `gcd(m, r) != 1`; otherwise a value in `[0, r)` with `m*value ≡ 1 (mod r)` |
| LegacyMult.ModInverseExample | src/mult.rs:110-113 | `mod_inverse(3,5) == 2` |
| LegacyMult.OddCoprimeToR | src/mult.rs:5 | an odd modulus is coprime to 256, so its inverse exists |
| LegacyMult.EvenNotCoprimeToR | src/mult.rs:5 | an even modulus makes `mod_inverse(m, 256)` panic |
| LegacyMult.MontyMultAsWritten | src/mult.rs:1-22 | panics exactly for even `m` |
| LegacyMult.MontyMultCounterexample | src/mult.rs:115-130 | `monty_mult(2,2,3) == 2` while `modular_mult(2,2,3) == 1` |
| LegacyMult.Redc256 | src/mult.rs:13-21 | with `-m^-1 mod 256`, the shift-and-subtract step gives `t*256^-1 mod m` |
| LegacyMult.OddCancelPowerOfTwo | src/mult.rs:15 | powers of two cancel modulo an odd `m` |
| LegacyMult.MontyMultIntended | src/mult.rs:1-22 | with the negated inverse and a final exit from Montgomery form, the result is `(a*b) % m` |

## Left out

- Concurrency: the rayon pool, the crossbeam channel, `try_recv` and `tx.send`. The broker is a sequential state machine fed with the reports in arrival order. `par_iter().all` and `for_each` are sequential folds.
- Time: `Instant` and `Duration` are `nat` nanosecond inputs.
- I/O: `File::create`, `writeln!` and every `println!`. Only the text that `write_to_file` writes is modelled, as `Report.Render`.
- The f64 progress percentage of `src/brocard/broker.rs:144`.
- `primes_from` and `take_primes`: `primes_from` is called at `src/brocard/broker.rs:171` but defined in none of the modules `src/lib.rs` declares (the glob import `crate::math::prime::*` does not provide it), and `take_primes` is `todo!()`. The primes of a broker chunk are not modelled, and `BrocardSpan::solve` takes its primes as a parameter.
- `extended_gcd` and `mod_inv` of `src/math/mod.rs:51-54,72-97`: they compute signed Bezout coefficients in `u128`, which underflows, and nothing else calls them.
- Prime.IsPrime: that every prime is accepted is not proved, because it needs Fermat's little theorem. Consequently the list of primes below 1000 (`src/math/prime.rs:111-116`) is not checked. The 0 and 1 of the sieve are proved.
- MontgomeryAlgorithms.LegendreOfEntered: the symbol is related to `naive_legendre`, not to the true Legendre symbol, because Euler's criterion is not proved. `naive_legendre(R, n) == Residue` is shown for 5, 7 and 11 only. The property test with the prime `2^61 - 1` is not covered.
- MontgomerySpace.NewSpaceValid: the usable spaces are those with `2n <= R`, a stricter bound than `Space::new`'s `n < R`. The looser bound is exactly where `redc` overflows (see Findings). The test generator's moduli up to `2^126` are outside the model.
- MathKernel.ModMult: requires `0 < n`, because `a % n` panics on a zero modulus and that panic is left as a precondition rather than an error value. It also requires `n <= 2^127`, which is where `a << 1` cannot overflow.
- MathKernel.ModExp: requires `n <= 2^127` for the same reason, and `0 < n` whenever `k > 0`, since only then does the loop call `mod_mult`.
- LegacyMult.ModularMult: the i128 bounds (`|n| < 2^126`, `|p| <= 2^126`) are sufficient for the doubling not to overflow, not necessary.
- LegacyMult.ModularExponent: the i128 bounds (`|n| < 2^63`, `|p| <= 2^63`) are sufficient for the squaring not to overflow, not necessary.
- LegacyMult.MontyMultAsWritten: the result of an odd `m` is stated only through its counterexample, because the code computes no meaningful residue. Inputs are bounded so that `a'*b'` fits in i128.
- LegacyMult.ExtendedGcd: modelled for nonnegative arguments only, which is how `mod_inverse` and `monty_mult` call it.
- LegacyMult.ModInverse: modelled for nonnegative arguments only. The `r == 0` division panic is a separate error.
- Prime.SegmentedSieve: requires `low <= high`, because `high - low + 1` underflows in `usize` otherwise; every caller meets it. It also requires `high < 2^64 - 1`, so that the `usize` length and index casts are exact. `p * p` is assumed not to overflow `u128`.
- `src/mult.rs` is not compiled: `src/lib.rs` declares only `montgomery`, `math` and `brocard`. It is modelled as written nonetheless.
- The `Debug`/`Clone` derivations and `dbg!` calls.

## Findings

| source | as written | input that shows it | evidently intended | confidence | as-written member | corrected member |
|---|---|---|---|---|---|---|
| src/brocard/span.rs:57-65 | a candidate is a `Solution` when NO prime passes the filter, that is when every prime rules it out | the prime 7 and candidate 4: `4! + 1 = 25` is a square, yet it is recorded `Nonsolution(4, 1)` | per the comments, a `Solution` when every prime passes | high (not executed) | Span.OutcomeAsWritten, Span.ReversedClassificationWitness | Span.OutcomeIntended |
| src/mult.rs:1-22 | `monty_mult` adds `m_inv * t` with `m_inv = m^-1`, not `-m^-1`, and returns a Montgomery-form value | `monty_mult(2,2,3) == 2` while `modular_mult(2,2,3) == 1` | `(a*b) % m` | high (not executed) | LegacyMult.MontyMultCounterexample | LegacyMult.MontyMultIntended |
| src/brocard/broker.rs:137-140 | `backoff -= 1` also runs when `backoff == 0` and the report is within 2% of the target | chunk 4, target 100, one thread: two reports of 100 ns underflow the backoff | the backoff stays at 0 until an off-target report resets it | high (not executed) | Broker.BackoffUnderflowWitness, Broker.OnTargetRunPanics | Broker.AdjustIntended |
| src/montgomery/space.rs:106 | `r_inv = mod_inverse(R, n) % n`, where the coefficient has wrapped modulo 2^128 | `n = 7`: `r_inv == 1`, but `R * 1 ≡ 2 (mod 7)` and `R^-1 mod 7` is 4 | `R^-1 mod n`, as the field's documentation says | high (not executed) | MontgomerySpace.RInvAsWrittenIsWrong | MontgomerySpace.RInvIntended |
| src/montgomery/space.rs:81-93 | `t + m*n` is a `u128` sum; `Space::new` accepts every odd `n < R` | `n = 2^64 - 1`, `t = (n-1)^2`: the sum is exactly 2^128 and wraps to 0, giving 0 instead of 1 | `redc(t)*R ≡ t (mod n)` | medium (not executed; a release build wraps, a debug build panics) | MontgomerySpace.RedcOverflowWitness, MontgomerySpace.NewSpaceOverflows | MontgomerySpace.Redc |
| src/math/prime.rs:48-65 | the marks start all true, and no round crosses out 0 or 1 | `segmented_seive(0, 1000)` lists 0 and 1 | only the primes of `[low, high]` | high (not executed) | Prime.SieveListsZeroAndOne | Prime.SegmentedSieveIntended |
| src/montgomery/mod.rs:141-149 | the property test compares the reduced `factorial(k).exit()` with the fold `(1..=k).fold(1, ..)`, whose seed 1 is not reduced | `n = 1`, `k = 0`: `Space::new(1)` succeeds, the exit is 0 and the fold is 1; separately, every even `n` makes `Space::new` panic at the `unwrap` of `mod_inverse` | compare with the fold reduced modulo `n` | high (not executed) | MontgomeryAlgorithms.FactorialTestFailsAtOne | MontgomeryAlgorithms.FactorialIsReducedNaiveFactorial |

=== FILE: arith.dfy ===
/** Integer facts shared by the whole model: powers, divisibility and the
    Euclidean remainder (`%`) arithmetic that every modular algorithm relies on.
    Nothing here models a source function; it is the vocabulary the contracts
    of the other modules are written in. */
module Arith {

  /** 2^64, the Montgomery constant R of the `R_EXP = 64` spaces. */
  const R: nat := 0x1_0000_0000_0000_0000
  /** 2^128, one past the largest `u128`. */
  const U128: nat := 0x1_0000_0000_0000_0000_0000_0000_0000_0000
  /** 2^64, one past the largest `usize` on a 64-bit target. */
  const USIZE: nat := 0x1_0000_0000_0000_0000
  /** 2^127, one past the largest `i128`. */
  const I128: nat := 0x8000_0000_0000_0000_0000_0000_0000_0000

  /** `b^e`. */
  function Pow(b: int, e: nat): int
    decreases e
  {
    if e == 0 then 1 else b * Pow(b, e - 1)
  }

  /** `k!`, the reference the incremental factorials are compared with. */
  function Fact(k: nat): nat
  {
    if k == 0 then 1 else k * Fact(k - 1)
  }

  /** `d` divides `x`; zero divides only zero. */
  predicate Divides(d: nat, x: int)
  {
    if d == 0 then x == 0 else x % d == 0
  }

  lemma MulAtLeast(a: int, m: int)
    requires 1 <= a && 0 < m
    ensures m <= a * m
  {
    assert a * m == (a - 1) * m + m;
    MulNonneg(a - 1, m);
  }

  lemma MulNonneg(a: int, b: int)
    requires 0 <= a && 0 <= b
    ensures 0 <= a * b
  {
  }

  lemma MulStrict(a: int, b: int, c: int)
    requires 0 <= a < b && 0 < c
    ensures a * c < b * c
  {
    MulAtLeast(b - a, c);
    assert b * c - a * c == (b - a) * c;
  }

  lemma MulLe(a: int, b: int, c: int)
    requires 0 <= a <= b && 0 <= c
    ensures a * c <= b * c
  {
    MulNonneg(b - a, c);
    assert b * c - a * c == (b - a) * c;
  }

  /** Quotient and remainder are the unique pair with `0 <= r < m`. */
  lemma DivModUnique(x: int, m: int, q: int, r: int)
    requires 0 < m && 0 <= r < m && x == q * m + r
    ensures x / m == q && x % m == r
  {
    var q0 := x / m;
    var r0 := x % m;
    assert x == q0 * m + r0;
    if q0 > q {
      assert (q0 - q) * m == r - r0;
      MulAtLeast(q0 - q, m);
    } else if q0 < q {
      assert (q - q0) * m == r0 - r;
      MulAtLeast(q - q0, m);
    }
  }

  lemma ModAddMultiple(x: int, k: int, m: int)
    requires 0 < m
    ensures (x + k * m) % m == x % m
  {
    var q := x / m;
    assert x + k * m == (q + k) * m + x % m;
    DivModUnique(x + k * m, m, q + k, x % m);
  }

  lemma ModMultiple(k: int, m: int)
    requires 0 < m
    ensures (k * m) % m == 0
  {
    ModAddMultiple(0, k, m);
  }

  lemma ModOfMod(x: int, m: int)
    requires 0 < m
    ensures (x % m) % m == x % m
  {
    DivModUnique(x % m, m, 0, x % m);
  }

  lemma ModAdd(a: int, b: int, m: int)
    requires 0 < m
    ensures (a + b) % m == (a % m + b % m) % m
  {
    var qa, qb := a / m, b / m;
    assert a + b == (a % m + b % m) + (qa + qb) * m;
    ModAddMultiple(a % m + b % m, qa + qb, m);
  }

  /** Adding after reducing and reducing after adding agree. */
  lemma ModAddReduced(a: int, b: int, m: int)
    requires 0 < m
    ensures (a % m + b) % m == (a + b) % m
  {
    ModAddMultiple(a % m + b, a / m, m);
    assert a % m + b + (a / m) * m == a + b;
  }

  lemma ModSub(a: int, b: int, m: int)
    requires 0 < m
    ensures (a - b) % m == (a % m - b % m) % m
  {
    var qa, qb := a / m, b / m;
    assert a - b == (a % m - b % m) + (qa - qb) * m;
    ModAddMultiple(a % m - b % m, qa - qb, m);
  }

  lemma ModMulLeft(a: int, b: int, m: int)
    requires 0 < m
    ensures (a * b) % m == ((a % m) * b) % m
  {
    var q := a / m;
    assert a == q * m + a % m;
    assert a * b == (a % m) * b + (q * b) * m;
    ModAddMultiple((a % m) * b, q * b, m);
  }

  lemma ModMul(a: int, b: int, m: int)
    requires 0 < m
    ensures (a * b) % m == ((a % m) * (b % m)) % m
  {
    ModMulLeft(a, b, m);
    ModMulLeft(b, a % m, m);
    assert (a % m) * b == b * (a % m);
    assert (b % m) * (a % m) == (a % m) * (b % m);
  }

  /** Congruences may be multiplied by a common factor. */
  lemma ModMulCong(a: int, b: int, c: int, m: int)
    requires 0 < m && a % m == b % m
    ensures (a * c) % m == (b * c) % m
  {
    ModMulLeft(a, c, m);
    ModMulLeft(b, c, m);
  }

  lemma ModAddCong(a: int, b: int, c: int, m: int)
    requires 0 < m && a % m == b % m
    ensures (a + c) % m == (b + c) % m
  {
    ModAdd(a, c, m);
    ModAdd(b, c, m);
  }

  /** Two values in `[0, m)` that are congruent modulo `m` are equal. */
  lemma ModInjective(a: int, b: int, m: int)
    requires 0 < m && 0 <= a < m && 0 <= b < m && a % m == b % m
    ensures a == b
  {
    DivModUnique(a, m, 0, a);
    DivModUnique(b, m, 0, b);
  }

  /** A divisor of the modulus preserves congruence. */
  lemma ModDivisorCong(a: int, b: int, m: int, k: int)
    requires 0 < m && 0 < k && a % (m * k) == b % (m * k)
    ensures a % m == b % m
  {
    MulAtLeast(k, m);
    var mk := m * k;
    var qa, qb := a / mk, b / mk;
    assert a == (qa * k) * m + a % mk;
    assert b == (qb * k) * m + b % mk;
    ModAddMultiple(a % mk, qa * k, m);
    ModAddMultiple(b % mk, qb * k, m);
  }

  lemma PowNonneg(b: int, e: nat)
    requires 0 <= b
    ensures 0 <= Pow(b, e)
    decreases e
  {
    if e > 0 {
      PowNonneg(b, e - 1);
      MulNonneg(b, Pow(b, e - 1));
    }
  }

  lemma PowPositive(b: int, e: nat)
    requires 0 < b
    ensures 0 < Pow(b, e)
    decreases e
  {
    if e > 0 {
      PowPositive(b, e - 1);
      MulAtLeast(b, Pow(b, e - 1));
    }
  }

  lemma {:induction false} PowAdd(b: int, i: nat, j: nat)
    ensures Pow(b, i + j) == Pow(b, i) * Pow(b, j)
    decreases i
  {
    if i > 0 {
      PowAdd(b, i - 1, j);
      assert Pow(b, i + j) == b * Pow(b, (i - 1) + j);
    }
  }

  lemma {:induction false} PowProduct(a: int, b: int, e: nat)
    ensures Pow(a * b, e) == Pow(a, e) * Pow(b, e)
    decreases e
  {
    if e > 0 {
      PowProduct(a, b, e - 1);
      assert Pow(a * b, e) == (a * b) * (Pow(a, e - 1) * Pow(b, e - 1));
    }
  }

  lemma {:induction false} PowSquare(b: int, e: nat)
    ensures Pow(b * b, e) == Pow(b, 2 * e)
  {
    PowProduct(b, b, e);
    PowAdd(b, e, e);
  }

  lemma {:induction false} PowMul(b: int, i: nat, j: nat)
    ensures Pow(b, i * j) == Pow(Pow(b, i), j)
    decreases j
  {
    if j > 0 {
      PowMul(b, i, j - 1);
      assert i * j == i * (j - 1) + i;
      PowAdd(b, i * (j - 1), i);
    }
  }

  /** Powers respect congruence: only `b mod m` matters. */
  lemma {:induction false} PowMod(b: int, e: nat, m: int)
    requires 0 < m
    ensures Pow(b % m, e) % m == Pow(b, e) % m
    decreases e
  {
    if e > 0 {
      PowMod(b, e - 1, m);
      calc {
        Pow(b % m, e) % m;
        ((b % m) * Pow(b % m, e - 1)) % m;
        { ModMul(b % m, Pow(b % m, e - 1), m); ModOfMod(b, m); }
        ((b % m) * (Pow(b, e - 1) % m)) % m;
        { ModMul(b, Pow(b, e - 1), m); }
        (b * Pow(b, e - 1)) % m;
      }
    }
  }

  lemma PowOne(e: nat)
    ensures Pow(1, e) == 1
  {
  }

  lemma PowZeroBase(e: nat)
    requires 0 < e
    ensures Pow(0, e) == 0
  {
  }

  /** The only odd divisor of a power of two is 1. */
  lemma {:induction false} OddDivisorOfPowerOfTwo(g: int, k: nat)
    requires 0 < g && g % 2 == 1 && Pow(2, k) % g == 0
    ensures g == 1
    decreases k
  {
    if k == 0 {
      assert Pow(2, 0) == 1;
      if g > 1 {
        DivModUnique(1, g, 0, 1);
      }
    } else {
      var c := Pow(2, k) / g;
      assert Pow(2, k) == g * c;
      assert Pow(2, k) == 2 * Pow(2, k - 1);
      ModMul(g, c, 2);
      assert (g * c) % 2 == 0;
      assert c % 2 == 0;
      var c2 := c / 2;
      assert c == 2 * c2;
      assert 2 * Pow(2, k - 1) == 2 * (g * c2);
      assert Pow(2, k - 1) == c2 * g;
      ModMultiple(c2, g);
      OddDivisorOfPowerOfTwo(g, k - 1);
    }
  }

  lemma PowTwo64()
    ensures Pow(2, 64) == R
  {
    PowMul(2, 8, 8);
    assert Pow(2, 8) == 256;
    assert Pow(256, 8) == R;
  }

  lemma PowTwo128()
    ensures Pow(2, 128) == U128
  {
    PowTwo64();
    PowAdd(2, 64, 64);
  }

  lemma DividesSelf(d: nat)
    ensures Divides(d, d)
  {
    if d != 0 {
      ModMultiple(1, d);
    }
  }

  lemma DividesZero(d: nat)
    ensures Divides(d, 0)
  {
    if d != 0 {
      ModMultiple(0, d);
    }
  }

  /** Divisibility is preserved by `q * x + y`. */
  lemma DividesLinear(d: nat, x: int, y: int, q: int)
    requires Divides(d, x) && Divides(d, y)
    ensures Divides(d, q * x + y)
  {
    if d != 0 {
      var kx, ky := x / d, y / d;
      assert x == kx * d + x % d;
      assert y == ky * d + y % d;
      assert q * x + y == (q * kx + ky) * d;
      ModMultiple(q * kx + ky, d);
    }
  }

  lemma DividesMultiple(d: nat, k: int)
    ensures Divides(d, k * d)
  {
    if d != 0 {
      ModMultiple(k, d);
    }
  }

  /** Two nonnegative numbers that divide each other are equal. */
  lemma DividesAntisymmetric(a: int, b: int)
    requires 0 <= a && 0 <= b && Divides(a, b) && Divides(b, a)
    ensures a == b
  {
    if a != 0 && b != 0 {
      var ka, kb := b / a, a / b;
      assert b == ka * a;
      assert a == kb * b;
      if ka <= 0 {
        MulNonneg(-ka, a);
      }
      if kb <= 0 {
        MulNonneg(-kb, b);
      }
      MulAtLeast(ka, a);
      MulAtLeast(kb, b);
    }
  }

  /** Products of congruent factors are congruent. */
  lemma ModMulCong2(x: int, x': int, y: int, y': int, m: int)
    requires 0 < m && x % m == x' % m && y % m == y' % m
    ensures (x * y) % m == (x' * y') % m
  {
    ModMul(x, y, m);
    ModMul(x', y', m);
  }

  lemma MulRearrange(a: int, b: int, c: int)
    ensures (a * c) * (b * c) == ((a * b) * c) * c
  {
  }

  /** Representatives scaled by `c`: products of `a*c` and `b*c` stand for
      `a*b` scaled twice. */
  lemma ScaledProductCong(x: int, y: int, a: int, b: int, c: int, m: int)
    requires 0 < m && x % m == (a * c) % m && y % m == (b * c) % m
    ensures (x * y) % m == (((a * b) * c) * c) % m
  {
    ModMulCong2(x, a * c, y, b * c, m);
    MulRearrange(a, b, c);
  }

  /** Sums and differences of scaled representatives stand for the scaled sum
      and difference. */
  lemma ScaledSumCong(x: int, y: int, a: int, b: int, c: int, m: int)
    requires 0 < m && x % m == (a * c) % m && y % m == (b * c) % m
    ensures (x + y) % m == ((a + b) * c) % m
    ensures (x - y) % m == ((a - b) * c) % m
  {
    ModAdd(x, y, m);
    ModAdd(a * c, b * c, m);
    ModSub(x, y, m);
    ModSub(a * c, b * c, m);
    assert (a + b) * c == a * c + b * c;
    assert (a - b) * c == a * c - b * c;
  }

  /** The algebra behind Montgomery reduction for any modulus `rr` of the
      representation: with `n * np == -1 (mod rr)` and `t < n * rr`, adding
      `m * n` clears the low part of `t`, the quotient stays below `2n`, and it
      is `t / rr` modulo `n`. */
  lemma RedcIdentity(rr: nat, n: nat, np: nat, t: nat)
    requires 0 < rr && 0 < n && (n * np) % rr == rr - 1 && t < n * rr
    ensures (t + (((t % rr) * np) % rr) * n) % rr == 0
    ensures (t + (((t % rr) * np) % rr) * n) / rr < 2 * n
    ensures (((t + (((t % rr) * np) % rr) * n) / rr) * rr) % n == t % n
  {
    var m := ((t % rr) * np) % rr;
    RedcClearsLow(rr, n, np, t);
    RedcQuotient(rr, n, t, m);
  }

  /** Adding `m * n` makes `t` a multiple of `rr`. */
  lemma RedcClearsLow(rr: nat, n: nat, np: nat, t: nat)
    requires 0 < rr && (n * np) % rr == rr - 1
    ensures (t + (((t % rr) * np) % rr) * n) % rr == 0
  {
    var ti: int := t;
    var x := (t % rr) * np;
    var m := x % rr;
    ModMulLeft(x, n, rr);
    assert x * n == (t % rr) * (np * n);
    ModMul(t % rr, np * n, rr);
    ModOfMod(t, rr);
    assert (np * n) % rr == rr - 1;
    ModMulLeft(t, rr - 1, rr);
    assert t * (rr - 1) == -ti + t * rr;
    ModAddMultiple(-ti, t, rr);
    assert (m * n) % rr == (-ti) % rr;
    ModAddCong(m * n, -ti, t, rr);
  }

  /** The exact quotient of `t + m * n` by `rr` stays below `2n` and is
      `t / rr` modulo `n`. */
  lemma RedcQuotient(rr: nat, n: nat, t: nat, m: nat)
    requires 0 < rr && 0 < n && t < n * rr && m < rr && (t + m * n) % rr == 0
    ensures (t + m * n) / rr < 2 * n
    ensures (((t + m * n) / rr) * rr) % n == t % n
  {
    var u := (t + m * n) / rr;
    assert u * rr == t + m * n;
    MulStrict(m, rr, n);
    assert t + m * n < 2 * n * rr;
    if u >= 2 * n {
      MulLe(2 * n, u, rr);
    }
    ModAddMultiple(t, m, n);
  }
}

=== FILE: broker.dfy ===
/** `src/brocard/broker.rs`: the control logic of `BrocardBroker`. The
    run loop is a sequential state machine: while fewer than `workload_max`
    jobs are active it dispatches the next chunk, otherwise it waits for one
    report and retunes the chunk size from that report's duration. The
    thread pool, the channel and the primes of each chunk are not modelled;
    durations are nanosecond counts. Every arithmetic panic of a debug build
    is an `Err`. */
module Broker {
  import opened Arith
  import opened Wrappers
  import opened Candidate
  import opened Report

  /** Why the broker stops with a panic. */
  datatype Panic =
    | ChunkTooLarge       // `new`: the chunk size exceeds the span
    | ZeroTarget          // `new`: a zero target time
    | BackoffUnderflow    // `backoff -= 1` with `backoff == 0`
    | ChunkOverflow       // `chunk_size *= 3` beyond `usize`
    | RemainingUnderflow  // `self.span - total_checked` below zero
    | ZeroChunk           // the division by a zero `chunk_size`
    | Overflow            // any other `usize` or `u128` bound

  /** The fields of `BrocardBroker` the control logic reads. */
  datatype Broker = Broker(start: nat, span: nat, chunkSize: nat, targetTime: nat)

  /** `BrocardBroker::new`: the chunk size is checked first, then the target
      time; the fields are stored as given. */
  function New(start: nat, span: nat, chunkSize: nat, targetTime: nat): (r: Result<Broker, Panic>)
    ensures r.Ok? <==> chunkSize <= span && 0 < targetTime
    ensures chunkSize > span ==> r == Err(ChunkTooLarge)
    ensures chunkSize <= span && targetTime == 0 ==> r == Err(ZeroTarget)
    ensures r.Ok? ==> r.value.start == start && r.value.span == span
    ensures r.Ok? ==> r.value.chunkSize == chunkSize && r.value.targetTime == targetTime
  {
    if chunkSize > span then Err(ChunkTooLarge)
    else if targetTime == 0 then Err(ZeroTarget)
    else Ok(Broker(start, span, chunkSize, targetTime))
  }

  /** `Duration::abs_diff`. */
  function Delta(duration: nat, target: nat): (d: nat)
    ensures duration + d == target || target + d == duration
  {
    if duration >= target then duration - target else target - duration
  }

  /** The test `delta > target / 50` (with `Duration / u32` rounding down
      to whole nanoseconds) is exactly "more than 2% off the target". */
  lemma OffTargetMeaning(duration: nat, target: nat)
    ensures Delta(duration, target) > target / 50 <==> 50 * Delta(duration, target) > target
  {
    var d, q := Delta(duration, target), target / 50;
    assert target == 50 * q + target % 50;
  }

  /** The chunk size and backoff counter after one report. */
  datatype Tuning = Tuning(chunkSize: nat, backoff: nat)

  /** The adjustment step as written: only a report more than 2% off the
      target, arriving with the backoff run out, changes the size (halve if
      slow, triple if fast) and resets the backoff; every other report
      decrements the backoff, which underflows when it is already 0. */
  function AdjustAsWritten(chunkSize: nat, backoff: nat, workloadMax: nat, duration: nat, target: nat)
    : (r: Result<Tuning, Panic>)
    ensures r == Err(BackoffUnderflow) <==> backoff == 0 && 50 * Delta(duration, target) <= target
    ensures r == Err(ChunkOverflow) <==>
              backoff == 0 && 50 * Delta(duration, target) > target && duration <= target && 3 * chunkSize >= USIZE
    ensures r.Ok? && backoff == 0 ==>
              r.value.backoff == workloadMax && 50 * Delta(duration, target) > target
    ensures r.Ok? && backoff > 0 ==> r.value == Tuning(chunkSize, backoff - 1)
    ensures r.Ok? && r.value.chunkSize < chunkSize ==> duration > target && 2 * r.value.chunkSize <= chunkSize
    ensures r.Ok? && r.value.chunkSize > chunkSize ==> duration <= target && r.value.chunkSize == 3 * chunkSize
    ensures r.Ok? && backoff == 0 && duration > target ==> r.value.chunkSize == chunkSize / 2
    ensures r.Ok? && backoff == 0 && duration <= target ==> r.value.chunkSize == 3 * chunkSize
  {
    OffTargetMeaning(duration, target);
    if Delta(duration, target) > target / 50 && backoff == 0 then
      if duration > target then Ok(Tuning(chunkSize / 2, workloadMax))
      else if chunkSize * 3 >= USIZE then Err(ChunkOverflow)
      else Ok(Tuning(chunkSize * 3, workloadMax))
    else if backoff == 0 then Err(BackoffUnderflow)
    else Ok(Tuning(chunkSize, backoff - 1))
  }

  /** The adjustment as evidently intended: the backoff counts down to 0
      and stays there until an off-target report resets it. It never
      underflows, agrees with the code whenever the code does not panic,
      never raises the backoff above `workload_max` or its old value, and
      fails only by tripling past `usize`. */
  function AdjustIntended(chunkSize: nat, backoff: nat, workloadMax: nat, duration: nat, target: nat)
    : (r: Result<Tuning, Panic>)
    ensures AdjustAsWritten(chunkSize, backoff, workloadMax, duration, target).Ok? ==>
              r == AdjustAsWritten(chunkSize, backoff, workloadMax, duration, target)
    ensures AdjustAsWritten(chunkSize, backoff, workloadMax, duration, target) == Err(BackoffUnderflow) ==>
              r == Ok(Tuning(chunkSize, 0))
    ensures r.Err? ==> r == Err(ChunkOverflow) && 3 * chunkSize >= USIZE
    ensures r.Ok? ==> r.value.backoff <= backoff || r.value.backoff == workloadMax
  {
    if Delta(duration, target) > target / 50 && backoff == 0 then
      if duration > target then Ok(Tuning(chunkSize / 2, workloadMax))
      else if chunkSize * 3 >= USIZE then Err(ChunkOverflow)
      else Ok(Tuning(chunkSize * 3, workloadMax))
    else Ok(Tuning(chunkSize, if backoff == 0 then 0 else backoff - 1))
  }

  /** A report exactly on target after the backoff has run out makes the
      code panic, where the intended step leaves everything as it is. */
  lemma BackoffUnderflowWitness()
    ensures AdjustAsWritten(4, 0, 1, 100, 100) == Err(BackoffUnderflow)
    ensures AdjustIntended(4, 0, 1, 100, 100) == Ok(Tuning(4, 0))
  {
  }

  /** Nothing keeps the chunk size positive: a slow report halves 1 to 0. */
  lemma HalvingReachesZero(workloadMax: nat, target: nat)
    requires 0 < target
    ensures AdjustAsWritten(1, 0, workloadMax, 2 * target, target) == Ok(Tuning(0, workloadMax))
  {
    OffTargetMeaning(2 * target, target);
  }

  /** What `BrocardSpan::new(next_start, chunk_size, ..)` is handed: the
      candidates `first..=first+size`. */
  datatype Chunk = Chunk(first: nat, size: nat)

  /** The locals of `run_solver` and the broker's own fields. `spawned`
      lists the chunks handed to the pool, in order. */
  datatype State = State(
    broker: Broker,
    workloadMax: nat,
    activeJobs: nat,
    startedJobs: nat,
    totalChecked: nat,
    backoff: nat,
    spawned: seq<Chunk>,
    finished: bool)

  /** The state before the loop: no jobs, a full backoff. The pool has at
      least one thread. */
  function Begin(b: Broker, workloadMax: nat): (s: State)
    requires 1 <= workloadMax
    ensures Inv(s) && !s.finished && s.activeJobs == 0
  {
    State(b, workloadMax, 0, 0, 0, workloadMax, [], false)
  }

  /** What every reachable state satisfies. */
  predicate Inv(s: State)
  {
    && 1 <= s.workloadMax
    && s.activeJobs <= s.workloadMax
    && s.activeJobs <= s.startedJobs
    && s.backoff <= s.workloadMax
    && |s.spawned| + (if s.finished then 1 else 0) == s.startedJobs
    && (forall i :: 0 <= i < |s.spawned| ==> s.spawned[i].first <= s.broker.start + s.broker.span)
  }

  /** The loop waits for a report exactly when the pool is saturated. */
  predicate Saturated(s: State)
  {
    s.activeJobs >= s.workloadMax
  }

  /** Lines 161-184: compute `next_start` from the CURRENT chunk size,
      count the job as active and started, and either spawn the chunk or,
      when `next_start` is past `start + span`, stop. */
  function DispatchStep(s: State): (r: Result<State, Panic>)
    requires Inv(s) && !s.finished && !Saturated(s)
    ensures r.Ok? ==> Inv(r.value)
    ensures r.Ok? ==> r.value.activeJobs == s.activeJobs + 1 && r.value.startedJobs == s.startedJobs + 1
    ensures r.Ok? ==>
              (r.value.finished <==> s.broker.start + s.startedJobs * s.broker.chunkSize > s.broker.start + s.broker.span)
    ensures r.Ok? && !r.value.finished ==>
              r.value.spawned == s.spawned + [Chunk(s.broker.start + s.startedJobs * s.broker.chunkSize, s.broker.chunkSize)]
    ensures r.Ok? && r.value.finished ==> r.value.spawned == s.spawned
    ensures r.Ok? ==> r.value.broker == s.broker && r.value.backoff == s.backoff && r.value.totalChecked == s.totalChecked
  {
    var offset := s.startedJobs * s.broker.chunkSize;
    if offset >= USIZE then Err(Overflow)
    else
      var next := s.broker.start + offset;
      if next >= U128 || s.startedJobs + 1 >= USIZE then Err(Overflow)
      else if next + s.broker.chunkSize + 1 >= U128 then Err(Overflow)
      else if s.broker.start + s.broker.span >= U128 then Err(Overflow)
      else
        var s' := s.(activeJobs := s.activeJobs + 1, startedJobs := s.startedJobs + 1);
        if next > s.broker.start + s.broker.span then Ok(s'.(finished := true))
        else Ok(s'.(spawned := s.spawned + [Chunk(next, s.broker.chunkSize)]))
  }

  /** Lines 69-150 for one report of `candidates` taking `duration`: add
      its candidates to `total_checked`, retune, evaluate the remaining-chunks
      figure (which panics on a span overrun or a zero chunk size), and free
      one job. */
  function ReceiveStep(s: State, duration: nat, candidates: seq<BrocardCandidate>): (r: Result<State, Panic>)
    requires Inv(s) && !s.finished && Saturated(s)
    ensures s.workloadMax <= s.startedJobs
    ensures r.Ok? ==> Inv(r.value)
    ensures r.Ok? ==> r.value.totalChecked == s.totalChecked + |candidates|
    ensures r.Ok? ==> r.value.activeJobs + 1 == s.activeJobs && !Saturated(r.value)
    ensures r.Ok? ==> r.value.broker.chunkSize > 0 && r.value.totalChecked <= s.broker.span
    ensures r.Ok? ==> r.value.spawned == s.spawned && r.value.startedJobs == s.startedJobs
    ensures r.Ok? ==>
              AdjustAsWritten(s.broker.chunkSize, s.backoff, s.workloadMax, duration, s.broker.targetTime)
                == Ok(Tuning(r.value.broker.chunkSize, r.value.backoff))
    ensures (&& AdjustAsWritten(s.broker.chunkSize, s.backoff, s.workloadMax, duration, s.broker.targetTime)
                  == Err(BackoffUnderflow)
             && s.totalChecked + |candidates| < U128) ==> r == Err(BackoffUnderflow)
  {
    var total := s.totalChecked + |candidates|;
    if total >= U128 then Err(Overflow)
    else
      match AdjustAsWritten(s.broker.chunkSize, s.backoff, s.workloadMax, duration, s.broker.targetTime)
      case Err(e) => Err(e)
      case Ok(t) =>
        if total > s.broker.span then Err(RemainingUnderflow)
        else if t.chunkSize == 0 then Err(ZeroChunk)
        else Ok(s.(broker := s.broker.(chunkSize := t.chunkSize), backoff := t.backoff,
                   totalChecked := total, activeJobs := s.activeJobs - 1))
  }

  /** One report as the channel delivers it. */
  datatype Receipt = Receipt(duration: nat, candidates: seq<BrocardCandidate>)

  /** The candidates counted by a sequence of reports. */
  function Checked(rs: seq<Receipt>): nat
    decreases |rs|
  {
    if |rs| == 0 then 0 else |rs[0].candidates| + Checked(rs[1..])
  }

  /** The run loop fed with the reports `rs` in arrival order: dispatch
      while the pool has room, take the next report when it is saturated.
      It ends when the loop breaks, when it panics, or (waiting) when the
      pool is saturated and no report is left. */
  function Drive(s: State, rs: seq<Receipt>): (r: Result<State, Panic>)
    requires Inv(s)
    ensures r.Ok? ==> Inv(r.value)
    ensures r.Ok? ==> r.value.finished || Saturated(r.value)
    decreases |rs|, if s.finished then 0 else s.workloadMax - s.activeJobs
  {
    if s.finished then Ok(s)
    else if !Saturated(s) then
      match DispatchStep(s)
      case Err(e) => Err(e)
      case Ok(s') => Drive(s', rs)
    else if |rs| == 0 then Ok(s)
    else
      match ReceiveStep(s, rs[0].duration, rs[0].candidates)
      case Err(e) => Err(e)
      case Ok(s') => Drive(s', rs[1..])
  }

  /** A run that ends waiting has consumed every report, and
      `total_checked` has grown by exactly their candidates. */
  lemma {:induction false} DriveCountsEveryReport(s: State, rs: seq<Receipt>)
    requires Inv(s) && Drive(s, rs).Ok? && !Drive(s, rs).value.finished
    ensures Drive(s, rs).value.totalChecked == s.totalChecked + Checked(rs)
    decreases |rs|, if s.finished then 0 else s.workloadMax - s.activeJobs
  {
    if !Saturated(s) {
      var s' := DispatchStep(s).value;
      assert Drive(s, rs) == Drive(s', rs);
      DriveCountsEveryReport(s', rs);
    } else if |rs| > 0 {
      var s' := ReceiveStep(s, rs[0].duration, rs[0].candidates).value;
      assert Drive(s, rs) == Drive(s', rs[1..]);
      DriveCountsEveryReport(s', rs[1..]);
    }
  }

  /** Chunks are contiguous only while the size stays put: with `workload_max
      = 1`, chunk size 4 and target 100, an on-target report and then a slow
      one spawn `0..=4`, `4..=8` and then, at `2 * 2`, `4..=6`. Consecutive
      chunks also share their boundary candidate. */
  lemma ResizedChunksOverlap()
    ensures New(0, 100, 4, 100) == Ok(Broker(0, 100, 4, 100))
    ensures Drive(Begin(Broker(0, 100, 4, 100), 1), [Receipt(100, []), Receipt(200, [])]).Ok?
    ensures Drive(Begin(Broker(0, 100, 4, 100), 1), [Receipt(100, []), Receipt(200, [])]).value.spawned
              == [Chunk(0, 4), Chunk(4, 4), Chunk(4, 2)]
  {
    var s0 := Begin(Broker(0, 100, 4, 100), 1);
    var s1 := DispatchStep(s0).value;
    assert s1.spawned == [Chunk(0, 4)];
    OffTargetMeaning(100, 100);
    var s2 := ReceiveStep(s1, 100, []).value;
    assert s2.backoff == 0 && s2.broker.chunkSize == 4;
    var s3 := DispatchStep(s2).value;
    assert s3.spawned == [Chunk(0, 4), Chunk(4, 4)];
    OffTargetMeaning(200, 100);
    var s4 := ReceiveStep(s3, 200, []).value;
    assert s4.broker.chunkSize == 2 && s4.backoff == 1;
    var s5 := DispatchStep(s4).value;
    assert s5.spawned == [Chunk(0, 4), Chunk(4, 4), Chunk(4, 2)];
    assert Drive(s4, []) == Ok(s5);
    assert [Receipt(200, [])][1..] == [];
    assert [Receipt(100, []), Receipt(200, [])][1..] == [Receipt(200, [])];
    assert Drive(s3, [Receipt(200, [])]) == Drive(s4, []);
    assert Drive(s2, [Receipt(200, [])]) == Drive(s3, [Receipt(200, [])]);
    assert Drive(s1, [Receipt(100, []), Receipt(200, [])]) == Drive(s2, [Receipt(200, [])]);
  }

  /** The same broker with two on-target reports panics: the first report
      spends the backoff, the second underflows it. */
  lemma OnTargetRunPanics()
    ensures Drive(Begin(Broker(0, 100, 4, 100), 1), [Receipt(100, []), Receipt(100, [])]) == Err(BackoffUnderflow)
  {
    var s0 := Begin(Broker(0, 100, 4, 100), 1);
    var s1 := DispatchStep(s0).value;
    OffTargetMeaning(100, 100);
    var s2 := ReceiveStep(s1, 100, []).value;
    assert s2.backoff == 0;
    var s3 := DispatchStep(s2).value;
    assert ReceiveStep(s3, 100, []) == Err(BackoffUnderflow);
    assert Drive(s2, [Receipt(100, [])]) == Drive(s3, [Receipt(100, [])]);
    assert [Receipt(100, []), Receipt(100, [])][1..] == [Receipt(100, [])];
    assert Drive(s1, [Receipt(100, []), Receipt(100, [])]) == Drive(s2, [Receipt(100, [])]);
  }

  /** Appending a candidate appends its number when it is a `Solution`. */
  lemma {:induction false} SolutionsSnoc(cs: seq<BrocardCandidate>, c: BrocardCandidate)
    ensures Solutions(cs + [c]) == Solutions(cs) + (if c.Solution? then [c.n] else [])
    decreases |cs|
  {
    if |cs| == 0 {
      assert [c][1..] == [];
    } else {
      var d := cs + [c];
      var head := if cs[0].Solution? then [cs[0].n] else [];
      var tail := if c.Solution? then [c.n] else [];
      assert d[0] == cs[0] && d[1..] == cs[1..] + [c];
      SolutionsSnoc(cs[1..], c);
      assert Solutions(d) == head + (Solutions(cs[1..]) + tail);
      assert Solutions(cs) == head + Solutions(cs[1..]);
      assert head + (Solutions(cs[1..]) + tail) == (head + Solutions(cs[1..])) + tail;
    }
  }

  /** The loop of lines 85-101 over one report: the `(max, max_passed)`
      pair is the report file's summary, and `sols` counts the solutions
      (so `candidates.len() - sols` cannot underflow). */
  method ReceiptSummary(candidates: seq<BrocardCandidate>) returns (max: nat, maxPassed: nat, sols: nat)
    ensures Summary(max, maxPassed) == Summarize(candidates)
    ensures sols == |Solutions(candidates)| && sols <= |candidates|
  {
    max, maxPassed, sols := 0, 0, 0;
    var i := 0;
    while i < |candidates|
      invariant i <= |candidates|
      invariant Summary(max, maxPassed) == Summarize(candidates[..i])
      invariant sols == |Solutions(candidates[..i])| && sols <= i
    {
      var c := candidates[i];
      assert candidates[..i + 1] == candidates[..i] + [c];
      assert candidates[..i + 1][..i] == candidates[..i];
      SolutionsSnoc(candidates[..i], c);
      match c {
        case Solution(_) =>
          sols := sols + 1;
        case Nonsolution(candidate, passed) =>
          if passed > maxPassed {
            max, maxPassed := candidate, passed;
          }
      }
      i := i + 1;
    }
    assert candidates[..i] == candidates;
  }
}

=== FILE: candidate.dfy ===
/** `src/brocard/candidate.rs`: the outcome recorded for one candidate `n`
    (is `n! + 1` ruled out, and by how many primes it was not). */
module Candidate {
  import opened Wrappers

  /** `BrocardCandidate`; the `u128`/`usize` payloads as naturals. */
  datatype BrocardCandidate =
    | Nonsolution(candidate: nat, passed: nat)
    | Solution(n: nat)

  /** `is_solution`. */
  function IsSolution(c: BrocardCandidate): (b: bool)
    ensures b <==> !c.Nonsolution?
  {
    match c
    case Solution(_) => true
    case _ => false
  }

  /** `is_nonsolution`: the negation of `is_solution`. */
  function IsNonsolution(c: BrocardCandidate): (b: bool)
    ensures b <==> c.Nonsolution?
  {
    !IsSolution(c)
  }

  /** `passed`: the count carried by a `Nonsolution`, none for a `Solution`. */
  function Passed(c: BrocardCandidate): (r: Option<nat>)
    ensures r.Some? <==> c.Nonsolution?
    ensures r.Some? ==> r.value == c.passed
  {
    match c
    case Nonsolution(_, passed) => Some(passed)
    case _ => None
  }

  /** Exactly one of `is_solution()` and `passed().is_some()` holds, and
      `is_nonsolution()` is the latter. */
  lemma SolutionXorPassed(c: BrocardCandidate)
    ensures IsSolution(c) != Passed(c).Some?
    ensures IsNonsolution(c) == Passed(c).Some?
  {
  }
}

=== FILE: legacy_mult.dfy ===
/** `src/mult.rs`: an early signed-integer prototype of Montgomery
    multiplication with an 8-bit `R`, together with its shift-and-add
    multiply, square-and-multiply power, extended Euclid and inverse. The
    crate root does not declare this file, so nothing else uses it.

    The values are `i128`; Rust's `%` on them truncates toward zero, which
    `TRem` writes out. Each `requires` that bounds a magnitude is a simple
    condition under which no intermediate value leaves the `i128` range. */
module LegacyMult {
  import opened Arith
  import opened Wrappers
  import MathKernel

  /** 2^126: sums of two values below it stay below 2^127. */
  const Bound126: nat := 0x4000_0000_0000_0000_0000_0000_0000_0000
  /** 2^63: products of two values below it stay below 2^126. */
  const Bound63: nat := 0x8000_0000_0000_0000
  /** `r = 1 << r_exp` with `r_exp = 8`. */
  const LegacyR: nat := 256

  function Abs(v: int): (r: nat)
  {
    if v < 0 then -v else v
  }

  /** Both at least zero or both at most zero. */
  predicate SameSign(u: int, v: int)
  {
    (0 <= u && 0 <= v) || (u <= 0 && v <= 0)
  }

  /** Rust's `a % b` on signed integers: the remainder is smaller than the
      divisor in magnitude, congruent to `a`, and has the sign of `a`. */
  function TRem(a: int, b: int): (r: int)
    requires b != 0
    ensures Abs(r) < Abs(b)
    ensures r % Abs(b) == a % Abs(b)
    ensures 0 <= a ==> 0 <= r
    ensures a <= 0 ==> r <= 0
  {
    if a >= 0 then a % Abs(b)
    else
      var c := (-a) % Abs(b);
      assert a + ((-a) / Abs(b)) * Abs(b) == -c;
      ModAddMultiple(a, (-a) / Abs(b), Abs(b));
      -c
  }

  /** Two congruent values of the same sign have the same truncated
      remainder. */
  lemma TRemCong(u: int, v: int, b: int)
    requires b != 0 && u % Abs(b) == v % Abs(b) && SameSign(u, v)
    ensures TRem(u, b) == TRem(v, b)
  {
    var q := Abs(b);
    if !(0 <= u && 0 <= v) {
      ModSub(0, u, q);
      ModSub(0, v, q);
    }
  }

  /** Scaling two values of the same sign by one factor keeps them so. */
  lemma SameSignScaled(u: int, v: int, c: int)
    requires SameSign(u, v)
    ensures SameSign(u * c, v * c)
  {
    if 0 <= c {
      if 0 <= u && 0 <= v {
        MulNonneg(u, c);
        MulNonneg(v, c);
      } else {
        MulNonneg(-u, c);
        MulNonneg(-v, c);
      }
    } else {
      if 0 <= u && 0 <= v {
        MulNonneg(u, -c);
        MulNonneg(v, -c);
      } else {
        MulNonneg(-u, -c);
        MulNonneg(-v, -c);
      }
    }
  }

  // ---------------------------------------------------------------------
  // modular_mult
  // ---------------------------------------------------------------------

  /** The `loop` of `modular_mult` from the state `(ans, n, x)`, `x > 0`:
      at `x == 1` return `(ans + n) % p`; for even `x` double `n` (mod `p`)
      and halve `x`; otherwise add `n` into `ans` and step `x` down. */
  function MultLoop(ans: int, n: int, x: int, p: int): (r: int)
    requires 0 < x && p != 0
    requires Abs(ans) < Bound126 && Abs(n) < Bound126 && Abs(p) <= Bound126
    ensures Abs(r) < Abs(p)
    decreases x
  {
    if x == 1 then TRem(ans + n, p)
    else if x % 2 == 0 then MultLoop(ans, TRem(n + n, p), x / 2, p)
    else MultLoop(TRem(ans + n, p), n, x - 1, p)
  }

  /** The loop computes `(ans + n * x) % p`, as long as `ans` and `n` do
      not differ in sign (which the loop keeps once it holds). */
  lemma {:induction false} MultLoopMeaning(ans: int, n: int, x: int, p: int)
    requires 0 < x && p != 0
    requires Abs(ans) < Bound126 && Abs(n) < Bound126 && Abs(p) <= Bound126
    requires SameSign(ans, n)
    ensures MultLoop(ans, n, x, p) == TRem(ans + n * x, p)
    decreases x
  {
    if x == 1 {
      assert n * x == n;
    } else if x % 2 == 0 {
      var h := x / 2;
      DoublingStep(ans, n, h, p);
      MultLoopMeaning(ans, TRem(n + n, p), h, p);
    } else {
      AddingStep(ans, n, x - 1, p);
      MultLoopMeaning(TRem(ans + n, p), n, x - 1, p);
    }
  }

  /** Doubling `n` and halving an even `x` keeps `(ans + n * x) % p`. */
  lemma DoublingStep(ans: int, n: int, h: nat, p: int)
    requires p != 0 && SameSign(ans, n)
    ensures SameSign(ans, TRem(n + n, p))
    ensures TRem(ans + TRem(n + n, p) * h, p) == TRem(ans + n * (2 * h), p)
  {
    var q := Abs(p);
    var n' := TRem(n + n, p);
    var u, v := n' * h, (n + n) * h;
    assert v == n * (2 * h);
    ModMulCong(n', n + n, h, q);
    ModAddCong(u, v, ans, q);
    assert u + ans == ans + u && v + ans == ans + v;
    OneSign(ans, ans, n', n + n, h);
    TRemCong(ans + u, ans + v, p);
  }

  /** Values all of one sign, scaled and added as `a + c * h` and
      `b + d * h` with `h >= 0`, stay of one sign. */
  lemma OneSign(a: int, b: int, c: int, d: int, h: nat)
    requires (0 <= a && 0 <= b && 0 <= c && 0 <= d) || (a <= 0 && b <= 0 && c <= 0 && d <= 0)
    ensures SameSign(a + c * h, b + d * h)
  {
    if 0 <= a && 0 <= b && 0 <= c && 0 <= d {
      MulNonneg(c, h);
      MulNonneg(d, h);
    } else {
      MulNonneg(-c, h);
      MulNonneg(-d, h);
    }
  }

  /** Adding `n` into `ans` and stepping `x` down keeps
      `(ans + n * x) % p`. */
  lemma AddingStep(ans: int, n: int, y: nat, p: int)
    requires p != 0 && SameSign(ans, n)
    ensures SameSign(TRem(ans + n, p), n)
    ensures TRem(TRem(ans + n, p) + n * y, p) == TRem(ans + n * (y + 1), p)
  {
    var q := Abs(p);
    var ans' := TRem(ans + n, p);
    var u := n * y;
    assert ans + n * (y + 1) == (ans + n) + u;
    ModAddCong(ans', ans + n, u, q);
    OneSign(ans', ans + n, n, n, y);
    TRemCong(ans' + u, (ans + n) + u, p);
  }

  /** `modular_mult(n, x, p)`: `(n * x) % p` with the truncating `%` for
      `x > 0`, and 1 (not 0) for `x <= 0`. */
  function ModularMult(n: int, x: int, p: int): (r: int)
    requires 0 < x ==> p != 0 && Abs(n) < Bound126 && Abs(p) <= Bound126
    ensures x <= 0 ==> r == 1
    ensures 0 < x ==> r == TRem(n * x, p)
  {
    if x <= 0 then 1
    else
      MultLoopMeaning(0, n, x, p);
      MultLoop(0, n, x, p)
  }

  /** `test_modular_mult`. */
  lemma ModularMultExample()
    ensures ModularMult(2, 4, 5) == 3
  {
  }

  // ---------------------------------------------------------------------
  // modular_exponent
  // ---------------------------------------------------------------------

  /** The `loop` of `modular_exponent` from `(ans, n, x)`, `x > 0`: at
      `x == 1` return `(ans * n) % p`; for even `x` square `n` (mod `p`) and
      halve `x`; otherwise multiply `n` into `ans` and step `x` down. */
  function PowLoop(ans: int, n: int, x: int, p: int): (r: int)
    requires 0 < x && p != 0
    requires Abs(ans) < Bound63 && Abs(n) < Bound63 && Abs(p) <= Bound63
    ensures Abs(r) < Abs(p)
    decreases x
  {
    if x == 1 then TRem(ans * n, p)
    else if x % 2 == 0 then PowLoop(ans, TRem(n * n, p), x / 2, p)
    else PowLoop(TRem(ans * n, p), n, x - 1, p)
  }

  /** Congruent bases give congruent powers. */
  lemma PowCong(u: int, v: int, e: nat, m: int)
    requires 0 < m && u % m == v % m
    ensures Pow(u, e) % m == Pow(v, e) % m
  {
    PowMod(u, e, m);
    PowMod(v, e, m);
  }

  /** `ans * P` and `ans * Q` have one sign when `P` and `Q` are both
      nonnegative. */
  lemma SameSignFactor(ans: int, a: int, b: int)
    requires 0 <= a && 0 <= b
    ensures SameSign(ans * a, ans * b)
  {
    if 0 <= ans {
      MulNonneg(ans, a);
      MulNonneg(ans, b);
    } else {
      MulNonneg(-ans, a);
      MulNonneg(-ans, b);
    }
  }

  /** The loop computes `(ans * n^x) % p`. */
  lemma {:induction false} PowLoopMeaning(ans: int, n: int, x: int, p: int)
    requires 0 < x && p != 0
    requires Abs(ans) < Bound63 && Abs(n) < Bound63 && Abs(p) <= Bound63
    ensures PowLoop(ans, n, x, p) == TRem(ans * Pow(n, x), p)
    decreases x
  {
    if x == 1 {
      assert Pow(n, 1) == n;
    } else if x % 2 == 0 {
      var h := x / 2;
      SquaringStep(ans, n, h, p);
      PowLoopMeaning(ans, TRem(n * n, p), h, p);
    } else {
      MultiplyingStep(ans, n, x - 1, p);
      PowLoopMeaning(TRem(ans * n, p), n, x - 1, p);
    }
  }

  /** Squaring `n` and halving an even `x` keeps `(ans * n^x) % p`. */
  lemma SquaringStep(ans: int, n: int, h: nat, p: int)
    requires p != 0
    ensures TRem(ans * Pow(TRem(n * n, p), h), p) == TRem(ans * Pow(n, 2 * h), p)
  {
    var q := Abs(p);
    var sq := n * n;
    var n' := TRem(sq, p);
    if n < 0 {
      MulNonneg(-n, -n);
    } else {
      MulNonneg(n, n);
    }
    PowSquare(n, h);
    PowCong(n', sq, h, q);
    ModMulCong(Pow(n', h), Pow(sq, h), ans, q);
    assert Pow(n', h) * ans == ans * Pow(n', h);
    assert Pow(sq, h) * ans == ans * Pow(sq, h);
    PowNonneg(n', h);
    PowNonneg(sq, h);
    SameSignFactor(ans, Pow(n', h), Pow(sq, h));
    TRemCong(ans * Pow(n', h), ans * Pow(sq, h), p);
  }

  /** Multiplying `n` into `ans` and stepping `x` down keeps
      `(ans * n^x) % p`. */
  lemma MultiplyingStep(ans: int, n: int, y: nat, p: int)
    requires p != 0
    ensures TRem(TRem(ans * n, p) * Pow(n, y), p) == TRem(ans * Pow(n, y + 1), p)
  {
    var q := Abs(p);
    var an := ans * n;
    var ans' := TRem(an, p);
    var rest := Pow(n, y);
    assert ans * Pow(n, y + 1) == an * rest;
    ModMulCong(ans', an, rest, q);
    SameSignScaled(ans', an, rest);
    TRemCong(ans' * rest, an * rest, p);
  }

  /** `modular_exponent(n, x, p)`: `n^x % p` with the truncating `%` for
      `x > 0`, and 1 for `x <= 0`. */
  function ModularExponent(n: int, x: int, p: int): (r: int)
    requires 0 < x ==> p != 0 && Abs(n) < Bound63 && Abs(p) <= Bound63
    ensures x <= 0 ==> r == 1
    ensures 0 < x ==> r == TRem(Pow(n, x), p)
  {
    if x <= 0 then 1
    else
      PowLoopMeaning(1, n, x, p);
      assert 1 * Pow(n, x) == Pow(n, x);
      PowLoop(1, n, x, p)
  }

  /** `test_exponent`. */
  lemma ModularExponentExample()
    ensures ModularExponent(2, 4, 5) == 1
  {
    assert Pow(2, 4) == 16;
  }

  // ---------------------------------------------------------------------
  // extended_gcd and mod_inverse
  // ---------------------------------------------------------------------

  /** `extended_gcd(a, b)` on nonnegative arguments: the gcd with Bezout
      coefficients, `a * x + b * y == g`. */
  function ExtendedGcd(a: nat, b: nat): (res: (nat, int, int))
    ensures res.0 == MathKernel.Gcd(a, b)
    ensures a * res.1 + b * res.2 == res.0
    decreases a
  {
    if a == 0 then
      MathKernel.GcdCommutes(0, b);
      (b, 0, 1)
    else
      var (g, x, y) := ExtendedGcd(b % a, a);
      MathKernel.GcdCommutes(a, b);
      MathKernel.GcdCommutes(b % a, a);
      BezoutStep(a, b, x, y);
      (g, y - (b / a) * x, x)
  }

  /** One level of the recursion: the coefficients for `(b % a, a)` turn
      into coefficients for `(a, b)`. */
  lemma BezoutStep(a: nat, b: nat, x: int, y: int)
    requires 0 < a
    ensures a * (y - (b / a) * x) + b * x == (b % a) * x + a * y
  {
    var k := b / a;
    assert b == k * a + b % a;
    assert a * (y - k * x) == a * y - (k * a) * x;
    assert b * x == (k * a) * x + (b % a) * x;
  }

  datatype InverseError = NoInverse | DivisionByZero

  /** `mod_inverse(m, r)` on nonnegative arguments: panics with "Inverse
      does not exist!" unless the gcd is 1, and divides by zero when `r` is
      0; otherwise the Bezout coefficient of `m`, normalised into
      `[0, r)`. */
  function ModInverse(m: nat, r: nat): (res: Result<nat, InverseError>)
    ensures res == Err(NoInverse) <==> MathKernel.Gcd(m, r) != 1
    ensures res == Err(DivisionByZero) <==> MathKernel.Gcd(m, r) == 1 && r == 0
    ensures res.Ok? ==> res.value < r && (m * res.value) % r == 1 % r
  {
    var (g, x, _) := ExtendedGcd(m, r);
    if g != 1 then Err(NoInverse)
    else if r == 0 then Err(DivisionByZero)
    else
      BezoutInverse(m, r);
      InverseNormalised(m, r, x);
      Ok(TRem(TRem(x, r) + r, r))
  }

  /** `(x % r + r) % r` is `x` reduced into `[0, r)`, and it inverts `m`
      when `m * x` is 1 plus a multiple of `r`. */
  lemma InverseNormalised(m: nat, r: nat, x: int)
    requires 0 < r && (m * x) % r == 1 % r
    ensures 0 <= TRem(TRem(x, r) + r, r) < r
    ensures (m * TRem(TRem(x, r) + r, r)) % r == 1 % r
  {
    var v := TRem(TRem(x, r) + r, r);
    ModAddMultiple(TRem(x, r), 1, r);
    assert v % r == x % r;
    ModMulCong(v, x, m, r);
    assert v * m == m * v && x * m == m * x;
  }

  /** The Bezout identity makes `m * x` one more than a multiple of `r`. */
  lemma BezoutInverse(m: nat, r: nat)
    requires 0 < r && ExtendedGcd(m, r).0 == 1
    ensures (m * ExtendedGcd(m, r).1) % r == 1 % r
  {
    var (g, x, y) := ExtendedGcd(m, r);
    assert m * x == 1 + (-y) * r;
    ModAddMultiple(1, -y, r);
  }

  /** `modular_inverse_works`. */
  lemma ModInverseExample()
    ensures ModInverse(3, 5) == Ok(2)
  {
    assert ExtendedGcd(3, 5) == (1, 2, -1);
  }

  // ---------------------------------------------------------------------
  // monty_mult
  // ---------------------------------------------------------------------

  /** An odd `m` is coprime to 256. */
  lemma OddCoprimeToR(m: nat)
    requires m % 2 == 1
    ensures MathKernel.Gcd(m, LegacyR) == 1
  {
    var g := MathKernel.Gcd(m, LegacyR);
    assert g != 0 && m % g == 0 && LegacyR % g == 0;
    OddDivisorOdd(m, g);
    PowTwoEight();
    OddDivisorOfPowerOfTwo(g, 8);
  }

  lemma PowTwoEight()
    ensures Pow(2, 8) == LegacyR
  {
  }

  /** A divisor of an odd number is odd. */
  lemma OddDivisorOdd(m: nat, g: nat)
    requires m % 2 == 1 && 0 < g && m % g == 0
    ensures g % 2 == 1
  {
    var k := m / g;
    assert m == g * k;
    ModMulLeft(g, k, 2);
  }

  /** An even `m` shares the factor 2 with 256. */
  lemma EvenNotCoprimeToR(m: nat)
    requires m % 2 == 0
    ensures MathKernel.Gcd(m, LegacyR) != 1
  {
    MathKernel.GcdGreatest(m, LegacyR, 2);
  }

  /** `monty_mult(a, b, m)` as written: the inverse `m_inv` of `m` where
      Montgomery reduction needs `-m_inv`, a single reduction of the
      product of the two Montgomery forms, and no conversion back. Panics
      (`NoInverse`) exactly when `m` is even. */
  function MontyMultAsWritten(a: int, b: int, m: nat): (res: Result<int, InverseError>)
    requires Abs(a) < Bound126 && Abs(b) < Bound126 && m <= Bound63
    ensures res.Err? <==> m % 2 == 0
    ensures res.Err? ==> res.error == NoInverse
  {
    if m % 2 == 0 then EvenNotCoprimeToR(m); ModInverse(m, LegacyR)
    else
      OddCoprimeToR(m);
      var mInv := ModInverse(m, LegacyR).value;
      var a' := ModularMult(a, LegacyR, m);
      var b' := ModularMult(b, LegacyR, m);
      ProductBound(a', b', m);
      var t := a' * b';
      var littleM := ModularMult(t, mInv, LegacyR);
      var t' := (t + littleM * m) / LegacyR;
      Ok(if t' >= m then t' - m else t')
  }

  /** Two values below `m <= 2^63` in magnitude multiply to below 2^126. */
  lemma ProductBound(x: int, y: int, m: nat)
    requires Abs(x) < m && Abs(y) < m && m <= Bound63
    ensures Abs(x * y) < Bound126
  {
    MulLe(Abs(x), m, Abs(y));
    MulLe(Abs(y), m, m);
    MulStrict(Abs(y), m, m);
    MulLe(m, Bound63, m);
    MulLe(m, Bound63, Bound63);
    assert Abs(x * y) == Abs(x) * Abs(y);
  }

  /** For `m = 3`, `a = b = 2`: the prototype gives 2 where
      `modular_mult(2, 2, 3)` gives 1, against the claim of
      `monty_mult_is_modular_mult`. */
  lemma MontyMultCounterexample()
    ensures MontyMultAsWritten(2, 2, 3) == Ok(2)
    ensures ModularMult(2, 2, 3) == 1
  {
    assert ExtendedGcd(3, 256) == (1, -85, 1);
    assert ModInverse(3, LegacyR) == Ok(171);
    assert ModularMult(2, LegacyR, 3) == 2;
    assert ModularMult(4, 171, LegacyR) == 172;
  }

  /** Montgomery reduction with `R = 256`: for `m * mNeg ≡ -1 (mod 256)`
      and `t < m * 256`, a value below `m` that times 256 is `t` modulo
      `m`. */
  function Redc256(m: nat, mNeg: nat, t: nat): (r: nat)
    requires 0 < m && (m * mNeg) % LegacyR == LegacyR - 1 && t < m * LegacyR
    ensures r < m && (r * LegacyR) % m == t % m
  {
    var u := ((t % LegacyR) * mNeg) % LegacyR;
    var q := (t + u * m) / LegacyR;
    RedcIdentity(LegacyR, m, mNeg, t);
    if q >= m then
      ModAddMultiple(q * LegacyR, -(LegacyR as int), m);
      assert (q - m) * LegacyR == q * LegacyR + (-(LegacyR as int)) * m;
      q - m
    else q
  }

  /** An odd modulus cancels a factor 2. */
  lemma OddCancelTwo(x: int, y: int, m: nat)
    requires m % 2 == 1 && (2 * x) % m == (2 * y) % m
    ensures x % m == y % m
  {
    var d := x - y;
    ModSub(2 * x, 2 * y, m);
    assert (2 * d) % m == 0;
    var k := (2 * d) / m;
    assert 2 * d == k * m;
    ModMul(k, m, 2);
    ModMultiple(d, 2);
    assert 2 * d == d * 2;
    assert k % 2 == 0;
    var h := k / 2;
    assert k == 2 * h;
    assert d == h * m;
    ModAddMultiple(y, h, m);
  }

  /** An odd modulus cancels a factor `2^k`. */
  lemma {:induction false} OddCancelPowerOfTwo(x: int, y: int, m: nat, k: nat)
    requires m % 2 == 1 && (x * Pow(2, k)) % m == (y * Pow(2, k)) % m
    ensures x % m == y % m
    decreases k
  {
    if k > 0 {
      var p := Pow(2, k - 1);
      assert x * Pow(2, k) == 2 * (x * p);
      assert y * Pow(2, k) == 2 * (y * p);
      OddCancelTwo(x * p, y * p, m);
      OddCancelPowerOfTwo(x, y, m, k - 1);
    }
  }

  /** The corrected prototype: with `-m_inv` modulo 256, reduce the product
      of the Montgomery forms and then reduce once more to leave
      Montgomery form. For odd `m` below 256 it equals `a * b mod m`. */
  function MontyMultIntended(a: nat, b: nat, m: nat): (r: nat)
    requires 1 < m < LegacyR && m % 2 == 1 && a < Bound126 && b < Bound126
    ensures r == (a * b) % m
  {
    OddCoprimeToR(m);
    var inv := ModInverse(m, LegacyR).value;
    var mNeg := (LegacyR - inv) % LegacyR;
    var a' := ModularMult(a, LegacyR, m);
    var b' := ModularMult(b, LegacyR, m);
    FormsFit(m, inv, a', b');
    var prod := Redc256(m, mNeg, a' * b');
    MulStrict(prod, m, LegacyR);
    var r := Redc256(m, mNeg, prod);
    MontyMultIntendedValue(a, b, m, a', b', prod, r);
    r
  }

  /** The preconditions of the first reduction: `-m_inv` is a negated
      inverse and the product of two forms is below `m * 256`. */
  lemma FormsFit(m: nat, inv: nat, a': int, b': int)
    requires 1 < m < LegacyR && inv < LegacyR && (m * inv) % LegacyR == 1 % LegacyR
    requires 0 <= a' < m && 0 <= b' < m
    ensures (m * ((LegacyR - inv) % LegacyR)) % LegacyR == LegacyR - 1
    ensures 0 <= a' * b' < m * LegacyR
  {
    NegatedInverse(m, inv);
    MulNonneg(a', b');
    MulLe(b', m, a');
    MulStrict(a', m, m);
    MulStrict(m, LegacyR, m);
    assert a' * b' <= m * a';
  }

  /** `(256 - inv) % 256` negates the inverse of `m` modulo 256. */
  lemma NegatedInverse(m: nat, inv: nat)
    requires 0 < inv < LegacyR && (m * inv) % LegacyR == 1
    ensures (m * ((LegacyR - inv) % LegacyR)) % LegacyR == LegacyR - 1
  {
    DivModUnique(LegacyR - inv, LegacyR, 0, LegacyR - inv);
    assert m * (LegacyR - inv) == m * LegacyR - m * inv;
    ModSub(m * LegacyR, m * inv, LegacyR);
    ModMultiple(m, LegacyR);
    DivModUnique(-1, LegacyR, -1, LegacyR - 1);
  }

  /** The two reductions undo the two factors 256 of the Montgomery
      forms. */
  lemma MontyMultIntendedValue(a: nat, b: nat, m: nat, a': int, b': int, prod: nat, r: nat)
    requires 1 < m && m % 2 == 1 && r < m
    requires a' % m == (a * LegacyR) % m && b' % m == (b * LegacyR) % m
    requires (prod * LegacyR) % m == (a' * b') % m
    requires (r * LegacyR) % m == prod % m
    ensures r == (a * b) % m
  {
    var w := LegacyR * LegacyR;
    ModMulCong(r * LegacyR, prod, LegacyR, m);
    assert (r * LegacyR) * LegacyR == r * w;
    ModMulCong2(a', a * LegacyR, b', b * LegacyR, m);
    assert (a * LegacyR) * (b * LegacyR) == (a * b) * w;
    PowAdd(2, 8, 8);
    PowTwoEight();
    OddCancelPowerOfTwo(r, a * b, m, 16);
    DivModUnique(r, m, 0, r);
  }
}

=== FILE: legendre.dfy ===
/** `src/math/legendre.rs`: the three-valued quadratic-residue symbol, its
    multiplication table and the reference ("naive") classification by
    Euler's criterion, `a^((p-1)/2) mod p`. */
module Legendre {
  import opened Arith
  import opened MathKernel

  datatype Symbol = Divisor | Residue | Nonresidue

  /** The integer each symbol stands for: 0, +1 or -1. */
  function Value(s: Symbol): int
  {
    match s
    case Divisor => 0
    case Residue => 1
    case Nonresidue => -1
  }

  /** `impl Mul for LegendreSymbol`: `Divisor` absorbs, then signs multiply.
      The table is integer multiplication of the values above. */
  function Mul(a: Symbol, b: Symbol): (r: Symbol)
    ensures Value(r) == Value(a) * Value(b)
    ensures r == Divisor <==> a == Divisor || b == Divisor
    ensures a == Residue ==> r == b
    ensures b == Residue ==> r == a
  {
    match (a, b)
    case (Divisor, _) => Divisor
    case (_, Divisor) => Divisor
    case (Residue, Residue) => Residue
    case (Residue, Nonresidue) => Nonresidue
    case (Nonresidue, Residue) => Nonresidue
    case (Nonresidue, Nonresidue) => Residue
  }

  lemma ValueInjective(a: Symbol, b: Symbol)
    requires Value(a) == Value(b)
    ensures a == b
  {
  }

  /** `*` is commutative and associative, because integer multiplication is. */
  lemma MulCommutesAndAssociates(a: Symbol, b: Symbol, c: Symbol)
    ensures Mul(a, b) == Mul(b, a)
    ensures Mul(Mul(a, b), c) == Mul(a, Mul(b, c))
  {
    ValueInjective(Mul(a, b), Mul(b, a));
    assert Value(a) * Value(b) * Value(c) == Value(a) * (Value(b) * Value(c));
    ValueInjective(Mul(Mul(a, b), c), Mul(a, Mul(b, c)));
  }

  /** The three-way switch on the output of the exponentiation. */
  function Classify(v: nat): Symbol
  {
    if v == 0 then Divisor else if v == 1 then Residue else Nonresidue
  }

  /** `naive_legendre(a, p)`: `p - 1` must not underflow and `mod_mult` needs
      `p <= 2^127`. Below 3 the exponent is 0 and `mod_exp` answers 1. */
  function NaiveLegendre(a: nat, p: nat): (r: Symbol)
    requires 1 <= p <= I128
    ensures p < 3 ==> r == Residue
    ensures 3 <= p ==> (r == Divisor <==> Pow(a, (p - 1) / 2) % p == 0)
    ensures 3 <= p ==> (r == Residue <==> Pow(a, (p - 1) / 2) % p == 1)
  {
    Classify(ModExp(a, (p - 1) / 2, p))
  }

  /** The classification depends only on `a mod p`. */
  lemma NaiveLegendreMod(a: nat, p: nat)
    requires 1 <= p <= I128
    ensures NaiveLegendre(a % p, p) == NaiveLegendre(a, p)
  {
    if 3 <= p {
      PowMod(a, (p - 1) / 2, p);
    }
  }

  /** A multiple of `p` is classified `Divisor` (for `p >= 3`). */
  lemma NaiveLegendreOfMultiple(a: nat, p: nat)
    requires 3 <= p <= I128 && a % p == 0
    ensures NaiveLegendre(a, p) == Divisor
  {
    NaiveLegendreMod(a, p);
    PowZeroBase((p - 1) / 2);
  }

  /** The direct-test cases `(21, 7)`, `(21, 11)` and `(21, 5)`. */
  lemma NaiveLegendreExamples()
    ensures NaiveLegendre(21, 7) == Divisor
    ensures NaiveLegendre(21, 11) == Nonresidue
    ensures NaiveLegendre(21, 5) == Residue
  {
    assert Pow(21, 3) == 9261;
    assert Pow(21, 5) == 4084101;
    assert Pow(21, 2) == 441;
  }
}

=== FILE: math_kernel.dfy ===
/** The integer kernel of `src/math/mod.rs`: Euclid's gcd, the wrapping
    extended-Euclid modular inverse, shift-and-add modular multiplication and
    square-and-multiply modular exponentiation. Every `while` loop of the
    source is a recursive function over the loop state, one call per
    iteration, so the loop's meaning can be stated as that function's
    contract. */
module MathKernel {
  import opened Arith
  import opened Wrappers

  /** `gcd`: Euclid's loop `(a, b) := (b, a % b)` until `b == 0`. */
  function Gcd(a: nat, b: nat): (g: nat)
    ensures Divides(g, a) && Divides(g, b)
    ensures g == 0 <==> a == 0 && b == 0
    decreases b
  {
    if b == 0 then
      DividesSelf(a); DividesZero(a);
      a
    else
      var g := Gcd(b, a % b);
      assert a == (a / b) * b + a % b;
      DividesLinear(g, b, a % b, a / b);
      g
  }

  /** Every common divisor divides the gcd, so `Gcd` is the greatest one. */
  lemma {:induction false} GcdGreatest(a: nat, b: nat, d: nat)
    requires Divides(d, a) && Divides(d, b)
    ensures Divides(d, Gcd(a, b))
    decreases b
  {
    if b != 0 {
      assert a % b == (-(a / b)) * b + a;
      DividesLinear(d, b, a, -(a / b));
      GcdGreatest(b, a % b, d);
    }
  }

  lemma GcdCommutes(a: nat, b: nat)
    ensures Gcd(a, b) == Gcd(b, a)
  {
    GcdGreatest(a, b, Gcd(b, a));
    GcdGreatest(b, a, Gcd(a, b));
    DividesAntisymmetric(Gcd(a, b), Gcd(b, a));
  }

  /** Zero is the identity of `gcd` on either side. */
  lemma GcdOfZero(a: nat)
    ensures Gcd(a, 0) == a && Gcd(0, a) == a
  {
    GcdCommutes(0, a);
  }

  /** The gcd of the Montgomery constant `R = 2^64` and `n` is 1 exactly when
      `n` is odd. */
  lemma GcdWithR(n: nat)
    ensures Gcd(R, n) == 1 <==> n % 2 == 1
    ensures n % 2 == 0 ==> Gcd(R, n) > 1
  {
    var g := Gcd(R, n);
    assert g != 0;
    if n % 2 == 1 {
      if g % 2 == 0 {
        assert n == (n / g) * g;
        ModMulLeft(g, n / g, 2);
      }
      PowTwo64();
      OddDivisorOfPowerOfTwo(g, 64);
    } else {
      assert R % 2 == 0;
      GcdGreatest(R, n, 2);
    }
  }

  /** The `mod_inverse` loop from the state `(t, new_t, r, new_r)` until
      `new_r == 0`, returning the final `(t, r)`. The `t` column is kept modulo
      2^128, which is what `wrapping_sub(wrapping_mul(..))` computes; the `r`
      column never wraps, because `quotient * new_r <= r`, so
      `r.wrapping_sub(quotient.wrapping_mul(new_r))` is `r % new_r`. */
  function InverseLoop(t: nat, newT: nat, r: nat, newR: nat): (res: (nat, nat))
    requires t < U128 && newT < U128
    ensures res.0 < U128
    ensures res.1 == Gcd(r, newR)
    decreases newR
  {
    if newR == 0 then (t, r)
    else
      var q := r / newR;
      InverseLoop(newT, (t - q * newT) % U128, newR, r % newR)
  }

  /** `mod_inverse(n, r)`: `None` when the gcd left in `r` exceeds 1. */
  function ModInverse(n: nat, r: nat): (inv: Option<nat>)
    ensures inv.None? <==> Gcd(n, r) > 1
    ensures inv.Some? ==> inv.value < U128
  {
    GcdCommutes(n, r);
    var (t, g) := InverseLoop(0, 1, r, n);
    if g > 1 then None else Some(t)
  }

  /** Bezout's identity survives the wrap-around modulo any `m` dividing
      2^128: every row of the loop keeps `t * n0 == r (mod m)`. */
  lemma {:induction false} InverseLoopBezout(t: nat, newT: nat, r: nat, newR: nat, n0: nat, m: nat)
    requires 0 < m && U128 % m == 0
    requires t < U128 && newT < U128
    requires (t * n0 - r) % m == 0 && (newT * n0 - newR) % m == 0
    ensures (InverseLoop(t, newT, r, newR).0 * n0 - InverseLoop(t, newT, r, newR).1) % m == 0
    decreases newR
  {
    if newR != 0 {
      var t' := (t - (r / newR) * newT) % U128;
      BezoutRowKept(t, newT, r, newR, n0, m);
      InverseLoopBezout(newT, t', newR, r % newR, n0, m);
    }
  }

  /** One row of the loop keeps `t * n0 == r (mod m)`. */
  lemma BezoutRowKept(t: nat, newT: nat, r: nat, newR: nat, n0: nat, m: nat)
    requires 0 < m && U128 % m == 0 && 0 < newR
    requires (t * n0 - r) % m == 0 && (newT * n0 - newR) % m == 0
    ensures (((t - (r / newR) * newT) % U128) * n0 - r % newR) % m == 0
  {
    var q := r / newR;
    var x := t - q * newT;
    var t' := x % U128;
    var k := x / U128;
    assert t' == x - k * U128;
    assert r % newR == r - q * newR;
    BezoutRowStep(t, newT, r, newR, n0, q, k, t', r % newR);
    BezoutCombine(t * n0 - r, newT * n0 - newR, q, k * n0, m);
  }

  lemma BezoutRowStep(t: int, newT: int, r: int, newR: int, n0: int, q: int, k: int, t': int, r': int)
    requires t' == t - q * newT - k * U128 && r' == r - q * newR
    ensures t' * n0 - r' == (t * n0 - r) - q * (newT * n0 - newR) - (k * n0) * U128
  {
  }

  lemma BezoutCombine(d1: int, d2: int, q: int, j: int, m: int)
    requires 0 < m && U128 % m == 0 && d1 % m == 0 && d2 % m == 0
    ensures (d1 - q * d2 - j * U128) % m == 0
  {
    var a, b, c := d1 / m, d2 / m, U128 / m;
    assert d1 == a * m;
    assert d2 == b * m;
    assert U128 == c * m;
    assert d1 - q * d2 - j * U128 == (a - q * b - j * c) * m;
    ModMultiple(a - q * b - j * c, m);
  }

  /** When the modulus divides 2^128 (the Montgomery constant does), a `Some`
      from `mod_inverse` is a true inverse once reduced. */
  lemma ModInverseIsInverse(n: nat, r: nat)
    requires 0 < r && U128 % r == 0
    requires ModInverse(n, r).Some?
    ensures ((ModInverse(n, r).value % r) * n) % r == 1 % r
  {
    GcdCommutes(n, r);
    var res := InverseLoop(0, 1, r, n);
    assert res.1 == 1;
    BezoutStart(n, r);
    InverseLoopBezout(0, 1, r, n, n, r);
    InverseFromRow(res.0, n, res.1, r);
  }

  /** The loop's first two rows, `(0, r)` and `(1, n)`, satisfy
      `t * n == r (mod r)`. */
  lemma BezoutStart(n: nat, r: nat)
    requires 0 < r
    ensures (0 * n - r) % r == 0 && (1 * n - n) % r == 0
  {
    ModMultiple(-1, r);
  }

  /** A final row `t * n == 1 (mod r)` makes `t mod r` an inverse of `n`. */
  lemma InverseFromRow(t: nat, n: nat, g: nat, r: nat)
    requires 0 < r && g == 1 && (t * n - g) % r == 0
    ensures ((t % r) * n) % r == 1 % r
  {
    ModAddCong(t * n - 1, 0, 1, r);
    ModMulLeft(t, n, r);
  }

  /** The shift-and-add loop of `mod_mult` from the state `(result, a, b)`:
      `a << 1` cannot overflow because `a < n <= 2^127`. */
  function MultLoop(result: nat, a: nat, b: nat, n: nat): (r: nat)
    requires 0 < n <= I128 && result < n && a < n
    ensures r < n
    ensures r == (result + a * b) % n
    decreases b
  {
    if b == 0 then
      DivModUnique(result, n, 0, result);
      result
    else
      var result' := if b % 2 == 1 then (result + a) % n else result;
      var r := MultLoop(result', (2 * a) % n, b / 2, n);
      MultLoopStep(result, a, b, n);
      r
  }

  lemma MultLoopStep(result: nat, a: nat, b: nat, n: nat)
    requires 0 < n && 0 < b
    ensures var result' := if b % 2 == 1 then (result + a) % n else result;
            (result' + ((2 * a) % n) * (b / 2)) % n == (result + a * b) % n
  {
    var e, h := b % 2, b / 2;
    var result' := if e == 1 then (result + a) % n else result;
    assert result' % n == (result + a * e) % n by {
      if e == 1 { ModOfMod(result + a, n); }
    }
    ModMulLeft(2 * a, h, n);
    ModAdd(result', ((2 * a) % n) * h, n);
    ModAdd(result + a * e, (2 * a) * h, n);
    MulSplit(a, h, e);
    assert b == 2 * h + e;
  }

  lemma MulSplit(a: int, h: int, e: int)
    ensures a * (2 * h + e) == (2 * a) * h + a * e
  {
  }

  /** `mod_mult(a, b, n)`. */
  function ModMult(a: nat, b: nat, n: nat): (r: nat)
    requires 0 < n <= I128
    ensures r < n
    ensures r == (a * b) % n
  {
    var r := MultLoop(0, a % n, b % n, n);
    ModMul(a, b, n);
    r
  }

  /** The square-and-multiply loop of `mod_exp` from the state
      `(result, a, k)`. `result` is returned untouched when `k == 0`, which is
      why `mod_exp(a, 0, 1)` is 1 and not 0. */
  function ExpLoop(result: nat, a: nat, k: nat, n: nat): (r: nat)
    requires (0 < n || k == 0) && n <= I128
    ensures k == 0 ==> r == result
    ensures 0 < k ==> r == (result * Pow(a, k)) % n
    decreases k
  {
    if k == 0 then result
    else
      var result' := if k % 2 == 1 then ModMult(result, a, n) else result;
      var r := ExpLoop(result', ModMult(a, a, n), k / 2, n);
      ExpLoopStep(result, a, k, n);
      r
  }

  lemma ExpLoopStep(result: nat, a: nat, k: nat, n: nat)
    requires 0 < n && 0 < k
    ensures var result' := if k % 2 == 1 then (result * a) % n else result;
            (if k / 2 == 0 then result' else (result' * Pow((a * a) % n, k / 2)) % n)
              == (result * Pow(a, k)) % n
  {
    var h, b := k / 2, k % 2;
    var result' := if b == 1 then (result * a) % n else result;
    var p, q := Pow(a, b), Pow(a * a, h);
    assert k == 2 * h + b;
    assert result' % n == (result * p) % n by {
      if b == 1 { ModOfMod(result * a, n); }
    }
    PowAdd(a, 2 * h, b);
    PowSquare(a, h);
    assert q * p == Pow(a, k);
    if h == 0 {
      assert p == a;
    } else {
      PowMod(a * a, h, n);
      ModMulCong2(result', result * p, Pow((a * a) % n, h), q, n);
      assert (result * p) * q == result * Pow(a, k);
    }
  }

  /** `mod_exp(a, k, n)`. With `k == 0` the loop never runs, so even
      `n == 0` gives 1; otherwise `mod_mult` needs `0 < n`. */
  function ModExp(a: nat, k: nat, n: nat): (r: nat)
    requires (0 < n || k == 0) && n <= I128
    ensures k == 0 ==> r == 1
    ensures 0 < k ==> r == Pow(a, k) % n
  {
    ExpLoop(1, a, k, n)
  }
}

=== FILE: montgomery_algorithms.dfy ===
/** The two algorithms of `src/montgomery/space.rs` built from element
    arithmetic: the incremental factorial and the fast Legendre test (which
    `Elt::legendre` in `src/montgomery/elt.rs` delegates to). */
module MontgomeryAlgorithms {
  import opened Arith
  import opened MathKernel
  import opened MontgomerySpace
  import opened MontgomeryElt
  import Legendre

  /** `Space::factorial(k)`: start from `enter(1)` and multiply by `enter(i)`
      for `i` in `1..=k`, in that order. */
  function Factorial(sp: Space, k: nat): (r: Elt)
    requires Valid(sp) && k < R
    ensures r.space == sp && r.val < sp.n
    ensures r.val < sp.n * R && Exit(r) == Fact(k) % sp.n
  {
    RedcInputFits(sp);
    if k == 0 then
      EnterBound(sp, 1);
      Enter(sp, 1)
    else
      var prev := Factorial(sp, k - 1);
      EnterBound(sp, k);
      var next := Enter(sp, k);
      ReducedProductFits(sp, prev.val, next.val);
      var r := Mul(prev, next);
      ModMul(Fact(k - 1), k, sp.n);
      r
  }

  /** The test oracle for `factorial`: fold `1..=k` with `mod_mult`. */
  function NaiveFactorial(k: nat, n: nat): (r: nat)
    requires 0 < n <= I128
    ensures k == 0 ==> r == 1
    ensures 0 < k ==> r == Fact(k) % n
  {
    if k == 0 then 1
    else
      var prev := NaiveFactorial(k - 1, n);
      ModMul(Fact(k - 1), k, n);
      ModOfMod(Fact(k - 1), n);
      ModMult(prev, k, n)
  }

  /** The incremental factorial exits to the oracle's value, except for the
      degenerate `k == 0` in the space of `n == 1`, where `1 % 1 == 0`. */
  lemma FactorialIsNaiveFactorial(sp: Space, k: nat)
    requires Valid(sp) && k < R && (0 < k || 1 < sp.n)
    ensures Factorial(sp, k).val < sp.n * R
    ensures Exit(Factorial(sp, k)) == NaiveFactorial(k, sp.n)
  {
    if k == 0 {
      DivModUnique(1, sp.n, 0, 1);
    }
  }

  /** The property test compares `factorial(0).exit()`, which is reduced, with
      the fold's unreduced seed 1: in the space of `n == 1` the two differ.
      An even `n`, which the test may also draw, has no space at all. */
  lemma FactorialTestFailsAtOne()
    ensures NewSpace(1).Ok? && Valid(NewSpace(1).value)
    ensures Exit(Factorial(NewSpace(1).value, 0)) == 0 && NaiveFactorial(0, 1) == 1
    ensures NewSpace(2).Err?
  {
    NewSpaceValid(1);
  }

  /** The test as evidently intended, with the fold reduced modulo `n`: the
      incremental factorial agrees with it in every space and for every `k`. */
  lemma FactorialIsReducedNaiveFactorial(sp: Space, k: nat)
    requires Valid(sp) && k < R
    ensures Factorial(sp, k).val < sp.n * R
    ensures Exit(Factorial(sp, k)) == NaiveFactorial(k, sp.n) % sp.n
  {
    if 0 < k {
      ModOfMod(Fact(k), sp.n);
    }
  }

  /** The three-way switch `legendre` applies to the power: zero, equal to
      `enter(1)`, or anything else. */
  function ClassifyPower(result: Elt): Legendre.Symbol
    requires Valid(result.space)
  {
    RedcInputFits(result.space);
    MulLe(result.space.rSquared, result.space.n, 1);
    if result.val == 0 then Legendre.Divisor
    else if EltEq(result, Enter(result.space, 1)) then Legendre.Residue
    else Legendre.Nonresidue
  }

  /** `Space::legendre(a)` (and `Elt::legendre`): raise `a` to `(n-1)/2` in
      Montgomery form, classify the power, and multiply by the cached
      `naive_legendre(R, n)`. The result is Euler's criterion for the residue
      `a` represents, times that cached symbol. For `n == 1` the exponent is 0
      and the power is `enter(1)`, whose value is 0, so the answer is
      `Divisor`. */
  function SpaceLegendre(sp: Space, a: Elt): (r: Legendre.Symbol)
    requires Valid(sp) && a.space == sp && a.val < R
    requires 3 <= sp.n ==> a.val * a.val < sp.n * R
    ensures a.val < sp.n * R
    ensures 3 <= sp.n ==> r == Legendre.Mul(Legendre.NaiveLegendre(Exit(a), sp.n), sp.rNLegendre)
    ensures sp.n == 1 ==> r == Legendre.Divisor
  {
    RedcInputFits(sp);
    var result := Exp(a, (sp.n - 1) / 2);
    var sym := ClassifyPower(result);
    if 3 <= sp.n then
      PowerClassification(sp, a, result);
      Legendre.Mul(sym, sp.rNLegendre)
    else
      Legendre.Mul(sym, sp.rNLegendre)
  }

  /** The classification of the Montgomery power agrees with the naive
      symbol of the residue. */
  lemma PowerClassification(sp: Space, a: Elt, result: Elt)
    requires Valid(sp) && a.space == sp && 3 <= sp.n && a.val < sp.n * R
    requires result.space == sp && result.val < sp.n
    requires result.val < sp.n * R && Exit(result) == Pow(Exit(a), (sp.n - 1) / 2) % sp.n
    ensures ClassifyPower(result) == Legendre.NaiveLegendre(Exit(a), sp.n)
  {
    ClassifyPowerByResidue(result);
  }

  /** On a reduced element the switch reads off the residue: `Divisor` for
      0, `Residue` for 1, `Nonresidue` otherwise. */
  lemma ClassifyPowerByResidue(x: Elt)
    requires Valid(x.space) && 3 <= x.space.n && x.val < x.space.n
    ensures x.val < x.space.n * R
    ensures ClassifyPower(x) == Legendre.Classify(Exit(x))
  {
    var sp := x.space;
    RedcInputFits(sp);
    MulLe(sp.rSquared, sp.n, 1);
    var one := Enter(sp, 1);
    DivModUnique(1, sp.n, 0, 1);
    EltEqIffSameResidue(x, one);
    if x.val == 0 {
      ExitOfRepresentative(x, 0);
    } else {
      DivModUnique(x.val, sp.n, 0, x.val);
      DivModUnique(0, sp.n, 0, 0);
      assert (Exit(x) * R) % sp.n == x.val;
    }
  }

  /** `legendre(enter(a))` is Euler's criterion for `a` times the cached
      symbol; when that symbol is `Residue` it is exactly
      `naive_legendre(a, n)`. */
  lemma LegendreOfEntered(sp: Space, a: nat)
    requires Valid(sp) && 3 <= sp.n && a < R
    ensures a * sp.rSquared < sp.n * R
    ensures Enter(sp, a).val * Enter(sp, a).val < sp.n * R
    ensures SpaceLegendre(sp, Enter(sp, a)) ==
              Legendre.Mul(Legendre.NaiveLegendre(a, sp.n), sp.rNLegendre)
    ensures sp.rNLegendre == Legendre.Residue ==>
              SpaceLegendre(sp, Enter(sp, a)) == Legendre.NaiveLegendre(a, sp.n)
  {
    EnterBound(sp, a);
    var e := Enter(sp, a);
    ReducedProductFits(sp, e.val, e.val);
    Legendre.NaiveLegendreMod(a, sp.n);
  }

  /** The cached symbol is `Residue` when `R mod p` raised to `(p-1)/2` is 1
      modulo `p`. */
  lemma CachedSymbolResidue(p: nat, rem: nat)
    requires 3 <= p <= I128 && R % p == rem && Pow(rem, (p - 1) / 2) % p == 1
    ensures Legendre.NaiveLegendre(R, p) == Legendre.Residue
  {
    PowMod(R, (p - 1) / 2, p);
  }

  /** `R` is `2 (mod 7)`, `5 (mod 11)` and `1 (mod 5)`, a square each time
      (as `R = (2^32)^2` is), so the cached symbol of the unit-test spaces is
      `Residue`. */
  lemma CachedSymbolExamples()
    ensures Legendre.NaiveLegendre(R, 7) == Legendre.Residue
    ensures Legendre.NaiveLegendre(R, 11) == Legendre.Residue
    ensures Legendre.NaiveLegendre(R, 5) == Legendre.Residue
  {
    DivModUnique(R, 7, 2635249153387078802, 2);
    assert Pow(2, 3) == 8;
    CachedSymbolResidue(7, 2);
    DivModUnique(R, 11, 1676976733973595601, 5);
    assert Pow(5, 5) == 3125;
    CachedSymbolResidue(11, 5);
    DivModUnique(R, 5, 3689348814741910323, 1);
    assert Pow(1, 2) == 1;
    CachedSymbolResidue(5, 1);
  }

  /** `legendre(enter(21))` in a space with modulus 7, 11 or 5 (whose cached
      symbol is `Residue`) gives `naive_legendre(21, n)`, the Montgomery
      Legendre unit tests. */
  lemma LegendreUnitTests(sp: Space)
    requires Valid(sp) && sp.rNLegendre == Legendre.NaiveLegendre(R, sp.n)
    requires sp.n == 7 || sp.n == 11 || sp.n == 5
    ensures 21 * sp.rSquared < sp.n * R && Enter(sp, 21).val * Enter(sp, 21).val < sp.n * R
    ensures sp.n == 7 ==> SpaceLegendre(sp, Enter(sp, 21)) == Legendre.Divisor
    ensures sp.n == 11 ==> SpaceLegendre(sp, Enter(sp, 21)) == Legendre.Nonresidue
    ensures sp.n == 5 ==> SpaceLegendre(sp, Enter(sp, 21)) == Legendre.Residue
  {
    CachedSymbolExamples();
    Legendre.NaiveLegendreExamples();
    LegendreOfEntered(sp, 21);
  }

  /** The worked example: in a space with modulus 17, `enter(7) * enter(15)`
      exits to 3. */
  lemma WikipediaExample(sp: Space)
    requires Valid(sp) && sp.n == 17
    ensures 7 * sp.rSquared < sp.n * R && 15 * sp.rSquared < sp.n * R
    ensures var a, b := Enter(sp, 7), Enter(sp, 15);
            a.val * b.val < sp.n * R && Exit(Mul(a, b)) == 3
  {
    EnterBound(sp, 7);
    EnterBound(sp, 15);
    var a, b := Enter(sp, 7), Enter(sp, 15);
    ReducedProductFits(sp, a.val, b.val);
    assert Exit(a) == 7 && Exit(b) == 15;
    assert Exit(Mul(a, b)) == 105 % 17;
  }

  /** `Space::new` builds a valid space for each of these moduli. */
  lemma UnitTestSpacesValid()
    ensures NewSpace(5).Ok? && Valid(NewSpace(5).value)
    ensures NewSpace(7).Ok? && Valid(NewSpace(7).value)
    ensures NewSpace(11).Ok? && Valid(NewSpace(11).value)
    ensures NewSpace(17).Ok? && Valid(NewSpace(17).value)
  {
    NewSpaceValid(5);
    NewSpaceValid(7);
    NewSpaceValid(11);
    NewSpaceValid(17);
  }
}

=== FILE: montgomery_elt.dfy ===
/** The arithmetic of `src/montgomery/elt.rs`. Every operation works in the
    space of its left operand; the model asks both operands to share that
    space, which is how the crate uses them. The meaning of each operation
    is stated through `Exit`: what the result represents, given what the
    operands represent. */
module MontgomeryElt {
  import opened Arith
  import opened MathKernel
  import opened MontgomerySpace

  /** A valid space has room for `n * R` below 2^128, so REDC inputs that are
      below `n * R` are never wrapped by `wrapping_mul`. */
  lemma RedcInputFits(sp: Space)
    requires Valid(sp)
    ensures 0 < sp.n && R <= sp.n * R && 2 * (sp.n * R) <= U128
  {
    MulAtLeast(sp.n, R);
    MulLe(2 * sp.n, R, R);
  }

  /** A reduced value squared is a valid REDC input. */
  lemma ReducedProductFits(sp: Space, a: nat, b: nat)
    requires Valid(sp) && a < sp.n && b < R
    ensures a * b < sp.n * R
  {
    MulLe(a, sp.n, b);
    MulStrict(b, R, sp.n);
  }

  /** If the operands represent `a` and `b`, their integer product represents
      `a * b` with one extra factor of `R`, which REDC removes. */
  lemma ProductRepresents(x: Elt, y: Elt, v: nat)
    requires Valid(x.space) && y.space == x.space
    requires x.val < x.space.n * R && y.val < x.space.n * R
    requires (v * R) % x.space.n == (x.val * y.val) % x.space.n
    ensures v % x.space.n == ((Exit(x) * Exit(y)) * R) % x.space.n
  {
    var n, a, b := x.space.n, Exit(x), Exit(y);
    ScaledProductCong(x.val, y.val, a, b, R, n);
    CancelR(x.space, v, (a * b) * R);
  }

  /** A product below `n * R` is not wrapped, and its reduction represents
      the product of the residues. */
  lemma RedcOfProduct(x: Elt, y: Elt)
    requires Valid(x.space) && y.space == x.space
    requires x.val < x.space.n * R && y.val < x.space.n * R
    requires x.val * y.val < x.space.n * R
    ensures (x.val * y.val) % U128 == x.val * y.val
    ensures var z := Elt(Redc(x.space, x.val * y.val), x.space);
            Exit(z) == (Exit(x) * Exit(y)) % x.space.n
  {
    var sp := x.space;
    var t := x.val * y.val;
    RedcInputFits(sp);
    assert t < U128;
    DivModUnique(t, U128, 0, t);
    var v := Redc(sp, t);
    assert (v * R) % sp.n == t % sp.n;
    var z := Elt(v, sp);
    ProductRepresents(x, y, v);
    assert v % sp.n == ((Exit(x) * Exit(y)) * R) % sp.n;
    assert v < sp.n * R;
    ExitOfRepresentative(z, Exit(x) * Exit(y));
  }

  /** `impl Mul for Elt`: `redc(x.val.wrapping_mul(y.val))`. `MulAssign`
      stores the same value in place. The result is reduced and represents
      the product of what the operands represent. */
  function Mul(x: Elt, y: Elt): (z: Elt)
    requires Valid(x.space) && y.space == x.space
    requires x.val < x.space.n * R && y.val < x.space.n * R
    requires x.val * y.val < x.space.n * R
    ensures z.space == x.space && z.val < x.space.n
    ensures Exit(z) == (Exit(x) * Exit(y)) % x.space.n
  {
    RedcOfProduct(x, y);
    Elt(Redc(x.space, (x.val * y.val) % U128), x.space)
  }

  /** `impl Mul<u128> for Elt` and `MulAssign<u128>`: multiply by the entered
      integer. For a reduced `x` the result represents `Exit(x) * b`. */
  function MulU128(x: Elt, b: nat): (z: Elt)
    requires Valid(x.space) && x.val < x.space.n && b < R
    ensures z.space == x.space && z.val < x.space.n
    ensures Exit(z) == (Exit(x) * b) % x.space.n
  {
    var sp := x.space;
    EnterBound(sp, b);
    var y := Enter(sp, b);
    RedcInputFits(sp);
    ReducedProductFits(sp, x.val, y.val);
    var z := Mul(x, y);
    ModMul(Exit(x), b, sp.n);
    ModMul(Exit(x), y.val, sp.n);
    DivModUnique(Exit(x), sp.n, 0, Exit(x));
    z
  }

  /** `x * b` equals `x * y` for every reduced `y` of the space that
      represents `b`, in particular for `y = enter(b)`. */
  lemma MulU128AgreesWithMul(x: Elt, y: Elt, b: nat)
    requires Valid(x.space) && y.space == x.space
    requires x.val < x.space.n && y.val < x.space.n && b < R
    requires y.val < x.space.n * R && Exit(y) == b % x.space.n
    ensures x.val * y.val < x.space.n * R
    ensures EltEq(Mul(x, y), MulU128(x, b)) && Mul(x, y) == MulU128(x, b)
  {
    var sp := x.space;
    RedcInputFits(sp);
    ReducedProductFits(sp, x.val, y.val);
    var z, w := Mul(x, y), MulU128(x, b);
    ModMul(Exit(x), b, sp.n);
    ModMul(Exit(x), Exit(y), sp.n);
    DivModUnique(Exit(x), sp.n, 0, Exit(x));
    ExitInjective(z, w);
  }

  /** `impl Add for Elt`: `wrapping_add` with no reduction, so the sum may
      reach `n` or more. */
  function Add(x: Elt, y: Elt): (z: Elt)
    requires x.val < U128 && y.val < U128
    ensures z.space == x.space
    ensures x.val + y.val < U128 ==> z.val == x.val + y.val
    ensures x.val + y.val >= U128 ==> z.val == x.val + y.val - U128
  {
    var z := Elt((x.val + y.val) % U128, x.space);
    if x.val + y.val < U128 then
      DivModUnique(x.val + y.val, U128, 0, x.val + y.val);
      z
    else
      DivModUnique(x.val + y.val, U128, 1, x.val + y.val - U128);
      z
  }

  /** Sums of representatives represent sums. */
  lemma SumRepresents(x: Elt, y: Elt)
    requires Valid(x.space) && y.space == x.space
    requires x.val < x.space.n * R && y.val < x.space.n * R
    ensures (x.val + y.val) % x.space.n == ((Exit(x) + Exit(y)) * R) % x.space.n
  {
    ScaledSumCong(x.val, y.val, Exit(x), Exit(y), R, x.space.n);
  }

  /** Although `+` does not reduce, the unreduced sum still represents the sum
      of what the operands represent, as long as it is a valid REDC input. */
  lemma AddExit(x: Elt, y: Elt)
    requires Valid(x.space) && y.space == x.space
    requires x.val + y.val < x.space.n * R
    ensures x.val + y.val < U128 && Add(x, y).val == x.val + y.val
    ensures Exit(Add(x, y)) == (Exit(x) + Exit(y)) % x.space.n
  {
    RedcInputFits(x.space);
    SumRepresents(x, y);
    ExitOfRepresentative(Add(x, y), Exit(x) + Exit(y));
  }

  /** `impl Add<u128> for Elt`: add the entered integer. For a reduced `x` the
      sum stays below `2n` and represents `Exit(x) + b`. */
  function AddU128(x: Elt, b: nat): (z: Elt)
    requires Valid(x.space) && x.val < x.space.n && b < R
    ensures z.space == x.space && z.val < 2 * x.space.n
    ensures z.val < x.space.n * R && Exit(z) == (Exit(x) + b) % x.space.n
  {
    var sp := x.space;
    EnterBound(sp, b);
    var y := Enter(sp, b);
    RedcInputFits(sp);
    MulAtLeast(sp.n, 2);
    MulLe(2, R, sp.n);
    var z := Add(x, y);
    AddExit(x, y);
    ModAdd(Exit(x), b, sp.n);
    ModAdd(Exit(x), y.val, sp.n);
    DivModUnique(Exit(x), sp.n, 0, Exit(x));
    z
  }

  /** `x + b` equals `x + y` for every reduced `y` of the space that
      represents `b`, in particular for `y = enter(b)`. */
  lemma AddU128AgreesWithAdd(x: Elt, y: Elt, b: nat)
    requires Valid(x.space) && y.space == x.space
    requires x.val < x.space.n && y.val < x.space.n && b < R
    requires y.val < x.space.n * R && Exit(y) == b % x.space.n
    ensures EltEq(Add(x, y), AddU128(x, b)) && Add(x, y) == AddU128(x, b)
  {
    var sp := x.space;
    EnterBound(sp, b);
    var e := Enter(sp, b);
    ExitInjective(y, e);
  }

  /** `impl AddAssign for Elt`: the sum reduced modulo `n` (a plain `+`, which
      must not overflow). It stores what `+` would, reduced. */
  function AddAssign(x: Elt, y: Elt): (z: Elt)
    requires 0 < x.space.n && x.val + y.val < U128
    ensures z.space == x.space && z.val < x.space.n
    ensures z.val == Add(x, y).val % x.space.n
  {
    Elt((x.val + y.val) % x.space.n, x.space)
  }

  lemma AddAssignExit(x: Elt, y: Elt)
    requires Valid(x.space) && y.space == x.space
    requires x.val < x.space.n * R && y.val < x.space.n * R
    ensures x.val + y.val < U128
    ensures Exit(AddAssign(x, y)) == (Exit(x) + Exit(y)) % x.space.n
  {
    RedcInputFits(x.space);
    var z := AddAssign(x, y);
    SumRepresents(x, y);
    ModOfMod(x.val + y.val, x.space.n);
    ExitOfRepresentative(z, Exit(x) + Exit(y));
  }

  /** `impl Sub for Elt`: `(x.val + (n - y.val)) % n`; `n - y.val` must not
      underflow and the sum must not overflow. */
  function Sub(x: Elt, y: Elt): (z: Elt)
    requires 0 < x.space.n && y.val <= x.space.n
    requires x.val + (x.space.n - y.val) < U128
    ensures z.space == x.space && z.val < x.space.n
    ensures z.val == (x.val - y.val) % x.space.n
  {
    ModAddMultiple(x.val - y.val, 1, x.space.n);
    Elt((x.val + (x.space.n - y.val)) % x.space.n, x.space)
  }

  /** The difference represents the difference, reduced into `[0, n)`: there
      is no underflow when `Exit(x) < Exit(y)`. */
  lemma SubExit(x: Elt, y: Elt)
    requires Valid(x.space) && y.space == x.space
    requires y.val <= x.space.n && x.val < x.space.n
    ensures x.val + (x.space.n - y.val) < U128
    ensures Exit(Sub(x, y)) == (Exit(x) - Exit(y)) % x.space.n
  {
    var sp := x.space;
    RedcInputFits(sp);
    assert x.val + (sp.n - y.val) < U128;
    var z := Sub(x, y);
    var a: int, b: int := Exit(x), Exit(y);
    assert z.val % sp.n == (x.val - y.val) % sp.n by {
      ModOfMod(x.val - y.val, sp.n);
    }
    ScaledSumCong(x.val, y.val, a, b, R, sp.n);
    assert z.val < sp.n * R;
    ExitOfRepresentative(z, a - b);
  }

  /** The square-and-multiply loop of `exp` from the state `(val, base, exp)`:
      `val = val * base` on a set low bit, then `base = base * base` and a
      shift. `base` may start unreduced (below `R`) but is reduced after the
      first squaring. */
  function ExpLoop(acc: Elt, base: Elt, e: nat): (r: Elt)
    requires Valid(acc.space) && base.space == acc.space
    requires acc.val < acc.space.n && base.val < R
    requires 0 < e ==> base.val * base.val < acc.space.n * R
    ensures r.space == acc.space && r.val < acc.space.n
    ensures base.val < acc.space.n * R
    ensures Exit(r) == (Exit(acc) * Pow(Exit(base), e)) % acc.space.n
    decreases e
  {
    var sp := acc.space;
    RedcInputFits(sp);
    if e == 0 then
      DivModUnique(Exit(acc), sp.n, 0, Exit(acc));
      acc
    else
      ReducedProductFits(sp, acc.val, base.val);
      var acc' := if e % 2 == 1 then Mul(acc, base) else acc;
      var base' := Mul(base, base);
      MulStrict(base'.val, R, 1);
      ReducedProductFits(sp, base'.val, base'.val);
      var r := ExpLoop(acc', base', e / 2);
      ExpLoopStep(Exit(acc), Exit(base), e, sp.n);
      DivModUnique(Exit(acc'), sp.n, 0, Exit(acc'));
      r
  }

  /** `Elt::exp(e)`: the loop started from `enter(1)`. The result represents
      `Exit(x)^e`. */
  function Exp(x: Elt, e: nat): (r: Elt)
    requires Valid(x.space) && x.val < R
    requires 0 < e ==> x.val * x.val < x.space.n * R
    ensures r.space == x.space && r.val < x.space.n
    ensures x.val < x.space.n * R && Exit(r) == Pow(Exit(x), e) % x.space.n
  {
    var sp := x.space;
    RedcInputFits(sp);
    MulLe(sp.rSquared, sp.n, 1);
    var one := Enter(sp, 1);
    var r := ExpLoop(one, x, e);
    ModMulLeft(1, Pow(Exit(x), e), sp.n);
    r
  }

  /** `impl PartialEq for Elt`: equal values in spaces with equal moduli. */
  predicate EltEq(x: Elt, y: Elt)
  {
    x.val == y.val && SameSpace(x.space, y.space)
  }

  /** For reduced elements of one space, `==` is equality of the residues
      they represent. */
  lemma EltEqIffSameResidue(x: Elt, y: Elt)
    requires Valid(x.space) && y.space == x.space
    requires x.val < x.space.n && y.val < x.space.n
    ensures x.val < x.space.n * R && y.val < x.space.n * R
    ensures EltEq(x, y) <==> Exit(x) == Exit(y)
  {
    RedcInputFits(x.space);
    if Exit(x) == Exit(y) {
      ExitInjective(x, y);
    }
  }
}

=== FILE: montgomery_space.dfy ===
/** `src/montgomery/space.rs` (construction, `redc`, `enter`) and the
    `exit` of `src/montgomery/elt.rs`, for the `R_EXP = 64` spaces used
    throughout the crate: `R = 2^64`, and `x & MOD_R` is `x % R`.

    An element `x` of a space with modulus `n` stands for the plain residue
    `Exit(x)`; `x.val` is that residue times `R`, modulo `n`. */
module MontgomerySpace {
  import opened Arith
  import opened Wrappers
  import opened MathKernel
  import Legendre

  datatype Space = Space(
    n: nat,
    rInv: nat,
    rSquared: nat,
    nInv: nat,
    nPrime: nat,
    rNLegendre: Legendre.Symbol)

  /** `Elt`: a Montgomery-form value and (a copy of) the space it borrows. */
  datatype Elt = Elt(val: nat, space: Space)

  /** Why `Space::new` panics: an `unwrap()` of a `None` inverse, or the
      subtraction `R - n` underflowing. */
  datatype SpaceError = NoInverse | ModulusAboveR

  /** `impl PartialEq for Space`: only the moduli are compared. */
  predicate SameSpace(a: Space, b: Space)
  {
    a.n == b.n
  }

  lemma NegatedInverse(x: nat, n: nat)
    requires n <= R && (x * (R - n)) % R == 1
    ensures (n * x) % R == R - 1
  {
    var y: int := n * x;
    assert x * (R - n) == -y + x * R;
    ModAddMultiple(-y, x, R);
    var q := (-y) / R;
    assert -y == q * R + 1;
    DivModUnique(y, R, -q - 1, R - 1);
  }

  lemma RDividesU128()
    ensures U128 % R == 0
  {
    ModMultiple(R, R);
  }

  /** The three inverses `Space::new` unwraps exist exactly for odd `n`
      (the last one needs `n <= R`, or `R - n` underflows). */
  lemma InversesExist(n: nat)
    ensures ModInverse(R, n).Some? <==> n % 2 == 1
    ensures ModInverse(n, R).Some? <==> n % 2 == 1
    ensures n <= R ==> (ModInverse(R - n, R).Some? <==> n % 2 == 1)
  {
    GcdWithR(n);
    GcdCommutes(n, R);
    InverseIffCoprime(R, n, n % 2 == 1);
    InverseIffCoprime(n, R, n % 2 == 1);
    if n <= R {
      EvenMinusParity(R, n);
      GcdWithR(R - n);
      GcdCommutes(R - n, R);
      InverseIffCoprime(R - n, R, n % 2 == 1);
    }
  }

  /** Subtracting from an even number keeps the parity. */
  lemma EvenMinusParity(a: nat, b: nat)
    requires a % 2 == 0 && b <= a
    ensures (a - b) % 2 == b % 2
  {
    ModAddMultiple(a - b, -(a / 2), 2);
    ModAddMultiple(b, -(a / 2), 2);
  }

  /** `mod_inverse(a, b)` exists exactly when `gcd(a, b) == 1`. */
  lemma InverseIffCoprime(a: nat, b: nat, coprime: bool)
    requires Gcd(a, b) == 1 <==> coprime
    requires !coprime ==> Gcd(a, b) > 1
    ensures ModInverse(a, b).Some? <==> coprime
  {
  }

  /** What the unwrapped inverses mean once masked to 64 bits. */
  lemma SpaceConstants(n: nat)
    requires n % 2 == 1 && n < R
    ensures ModInverse(n, R).Some? && ModInverse(R - n, R).Some?
    ensures ((ModInverse(n, R).value % R) * n) % R == 1
    ensures (n * (ModInverse(R - n, R).value % R)) % R == R - 1
  {
    InversesExist(n);
    RDividesU128();
    ModInverseIsInverse(n, R);
    ModInverseIsInverse(R - n, R);
    NegatedInverse(ModInverse(R - n, R).value % R, n);
  }

  /** `Space::new(n)`: it succeeds exactly for odd `n < R`, and then `n_prime`
      is `-n^-1 mod R`, `n_inv` is `n^-1 mod R`, `r_squared` is `R^2 mod n`
      and the cached symbol is `naive_legendre(R, n)`. `r_inv` is computed as
      written (`mod_inverse(R, n) % n`); see `RInvAsWrittenIsWrong`. The
      `R - n` underflow is tested before `r_squared` is computed; the source
      computes `r_squared` first, which cannot panic, so the outcome is the
      same. */
  function NewSpace(n: nat): (r: Result<Space, SpaceError>)
    ensures r.Ok? <==> n % 2 == 1 && n < R
    ensures r.Ok? ==> r.value.n == n
    ensures r.Ok? ==> r.value.nPrime < R && (n * r.value.nPrime) % R == R - 1
    ensures r.Ok? ==> r.value.nInv < R && (r.value.nInv * n) % R == 1
    ensures r.Ok? ==> r.value.rSquared == (R * R) % n
    ensures r.Ok? ==> r.value.rNLegendre == Legendre.NaiveLegendre(R, n)
  {
    InversesExist(n);
    if ModInverse(R, n).None? || ModInverse(n, R).None? then Err(NoInverse)
    else if n > R then Err(ModulusAboveR)
    else if ModInverse(R - n, R).None? then Err(NoInverse)
    else
      SpaceConstants(n);
      var rInv := ModInverse(R, n).value % n;
      var nInv := ModInverse(n, R).value % R;
      var nPrime := ModInverse(R - n, R).value % R;
      Ok(Space(n, rInv, ModMult(R, R, n), nInv, nPrime, Legendre.NaiveLegendre(R, n)))
  }

  /** A space whose constants are those `Space::new` computes and whose
      modulus is at most 2^63, so that `redc`'s `t + m * n` fits in 128 bits. */
  predicate Valid(sp: Space)
  {
    && sp.n % 2 == 1
    && 2 * sp.n <= R
    && sp.nPrime < R
    && (sp.n * sp.nPrime) % R == R - 1
    && sp.rSquared == (R * R) % sp.n
  }

  lemma NewSpaceValid(n: nat)
    requires n % 2 == 1 && 2 * n <= R
    ensures NewSpace(n).Ok? && Valid(NewSpace(n).value)
  {
  }

  /** `redc(t)`: the masked multiply, add, shift and one conditional
      subtraction. */
  function Redc(sp: Space, t: nat): (r: nat)
    requires Valid(sp) && t < sp.n * R
    ensures r < sp.n
    ensures (r * R) % sp.n == t % sp.n
  {
    var m := ((t % R) * sp.nPrime) % R;
    var u := (t + m * sp.n) / R;
    RedcIdentity(R, sp.n, sp.nPrime, t);
    assert u * R == t + m * sp.n;
    if u >= sp.n then
      ModAddMultiple((u - sp.n) * R, R, sp.n);
      assert u * R == (u - sp.n) * R + R * sp.n;
      u - sp.n
    else
      u
  }

  /** `redc(t)` exactly as written, with the 128-bit `+` wrapping. */
  function RedcAsWritten(sp: Space, t: nat): (r: nat)
    requires 0 < sp.n
  {
    var m := ((t % R) * sp.nPrime) % R;
    var u := ((t + m * sp.n) % U128) / R;
    if u >= sp.n then u - sp.n else u
  }

  /** For a valid space (`n <= 2^63`) the sum never wraps, so the code as
      written is the exact reduction. */
  lemma RedcAsWrittenAgrees(sp: Space, t: nat)
    requires Valid(sp) && t < sp.n * R
    ensures RedcAsWritten(sp, t) == Redc(sp, t)
  {
    var m := ((t % R) * sp.nPrime) % R;
    MulStrict(m, R, sp.n);
    MulLe(2 * sp.n, R, R);
    DivModUnique(t + m * sp.n, U128, 0, t + m * sp.n);
  }

  /** With `n = 2^64 - 1` (which `Space::new` accepts), `n_prime` is 1 and
      squaring the reduced value `n - 1` overflows `redc`'s 128-bit sum: it
      wraps to exactly 2^128 and yields 0, while `(n-1)^2 * R^-1 == 1 (mod n)`. */
  lemma RedcOverflowWitness(sp: Space)
    requires sp.n == R - 1 && sp.nPrime < R && (sp.n * sp.nPrime) % R == R - 1
    ensures var t := (R - 2) * (R - 2);
            t < sp.n * R && RedcAsWritten(sp, t) == 0
            && (1 * R) % sp.n == t % sp.n && (0 * R) % sp.n != t % sp.n
  {
    var n := R - 1;
    var x := sp.nPrime;
    assert x == 1 by {
      assert x != 0;
      assert n * x == (x - 1) * R + (R - x);
      DivModUnique(n * x, R, x - 1, R - x);
    }
    var t := (R - 2) * (R - 2);
    assert t == (R - 4) * R + 4;
    DivModUnique(t, R, R - 4, 4);
    assert t + 4 * n == U128;
    DivModUnique(U128, U128, 1, 0);
    assert t == (R - 3) * n + 1;
    DivModUnique(t, n, R - 3, 1);
    DivModUnique(R, n, 1, 1);
  }

  lemma NewSpaceOverflows()
    ensures NewSpace(R - 1).Ok?
    ensures var sp := NewSpace(R - 1).value;
            var t := (R - 2) * (R - 2);
            t < sp.n * R && RedcAsWritten(sp, t) == 0 && (0 * R) % sp.n != t % sp.n
  {
    RedcOverflowWitness(NewSpace(R - 1).value);
  }

  /** The intended `r_inv = R^-1 mod n`, recovered from `n_prime` without any
      wrapping: `R * k - n * n_prime == 1`. */
  function RInvIntended(sp: Space): (r: nat)
    requires Valid(sp)
    ensures r < sp.n
    ensures (R * r) % sp.n == 1 % sp.n
  {
    var k := (1 + sp.n * sp.nPrime) / R;
    RInvQuotient(sp.n, sp.nPrime, k);
    k % sp.n
  }

  /** `k = (1 + n * n_prime) / R` is exact, and its residue inverts `R`. */
  lemma RInvQuotient(n: nat, nPrime: nat, k: nat)
    requires 0 < n && (n * nPrime) % R == R - 1 && k == (1 + n * nPrime) / R
    ensures (R * (k % n)) % n == 1 % n
  {
    assert R * k == 1 + n * nPrime by {
      ModAddCong(n * nPrime, R - 1, 1, R);
      ModMultiple(1, R);
    }
    ModAddMultiple(1, nPrime, n);
    ModMulLeft(k, R, n);
  }

  /** One round of the extended Euclidean loop, with its quotient and
      remainder given. */
  lemma InverseLoopRound(t: nat, newT: nat, r: nat, newR: nat, q: nat, rem: nat, t': nat)
    requires t < U128 && newT < U128 && 0 < newR
    requires r == q * newR + rem && rem < newR && t' == (t - q * newT) % U128
    ensures InverseLoop(t, newT, r, newR) == InverseLoop(newT, t', newR, rem)
  {
    DivModUnique(r, newR, q, rem);
  }

  /** The rounds of `mod_inverse(R, 7)`: the remainders run
      `(7, R), (R, 7), (7, 2), (2, 1), (1, 0)`, and the `t` column wraps below
      zero to `2^128 - 3` in the third round. */
  lemma InverseRounds()
    ensures InverseLoop(0, 1, 7, R) == (U128 - 3, 1)
  {
    var q := 2635249153387078802;
    InverseLoopRound(0, 1, 7, R, 0, 7, 0);
    assert R == q * 7 + 2;
    DivModUnique(1 - q * 0, U128, 0, 1);
    InverseLoopRound(1, 0, R, 7, q, 2, 1);
    DivModUnique(0 - 3 * 1, U128, -1, U128 - 3);
    InverseLoopRound(0, 1, 7, 2, 3, 1, U128 - 3);
    DivModUnique(1 - 2 * (U128 - 3), U128, -2, 7);
    InverseLoopRound(1, U128 - 3, 2, 1, 2, 0, 7);
  }

  /** `mod_inverse(R, 7)` is `2^128 - 3`. */
  lemma ModInverseOfRMod7()
    ensures ModInverse(R, 7) == Some(U128 - 3)
  {
    InverseRounds();
  }

  /** The `r_inv` field is `mod_inverse(R, n) % n`, wrapping included. */
  lemma NewSpaceRInv(n: nat)
    requires NewSpace(n).Ok?
    ensures ModInverse(R, n).Some? && NewSpace(n).value.rInv == ModInverse(R, n).value % n
  {
    InversesExist(n);
  }

  /** Modulo 7 the intended inverse of `R` is 4, since `R == 2 (mod 7)`. */
  lemma RInvIntendedMod7(sp: Space)
    requires Valid(sp) && sp.n == 7
    ensures R % 7 == 2 && RInvIntended(sp) == 4
  {
    DivModUnique(R, 7, 2635249153387078802, 2);
    var k := RInvIntended(sp);
    assert (R * k) % 7 == 1;
    ModMulLeft(R, k, 7);
    assert (2 * k) % 7 == 1;
    assert k == 4 by {
      if k == 0 { } else if k == 1 { } else if k == 2 { } else if k == 3 { }
      else if k == 5 { } else if k == 6 { }
    }
  }

  /** `Space::new(7).r_inv` is 1, yet `R * 1 == 2 (mod 7)`; the intended
      inverse is 4. `(2^128 - 3) % 7` is not `-3 mod 7`, because 7 does not
      divide 2^128. */
  lemma RInvAsWrittenIsWrong()
    ensures NewSpace(7).Ok?
    ensures NewSpace(7).value.rInv == 1
    ensures (R * NewSpace(7).value.rInv) % 7 == 2
    ensures Valid(NewSpace(7).value) && RInvIntended(NewSpace(7).value) == 4
  {
    ModInverseOfRMod7();
    NewSpaceRInv(7);
    var sp := NewSpace(7).value;
    DivModUnique(U128 - 3, 7, 48611766702991209066196372490252601636, 1);
    assert sp.rInv == 1;
    RInvIntendedMod7(sp);
  }

  /** Multiplication by `R` can be undone modulo `n`. */
  lemma CancelR(sp: Space, x: int, y: int)
    requires Valid(sp) && (x * R) % sp.n == (y * R) % sp.n
    ensures x % sp.n == y % sp.n
  {
    var k := RInvIntended(sp);
    ModMulCong(x * R, y * R, k, sp.n);
    assert x * R * k == x * (R * k);
    assert y * R * k == y * (R * k);
    ModMul(x, R * k, sp.n);
    ModMul(y, R * k, sp.n);
    ModMul(x, 1, sp.n);
    ModMul(y, 1, sp.n);
  }

  /** `exit()`: `redc(val) % n`. */
  function Exit(x: Elt): (r: nat)
    requires Valid(x.space) && x.val < x.space.n * R
    ensures r < x.space.n
    ensures (r * R) % x.space.n == x.val % x.space.n
  {
    var r := Redc(x.space, x.val);
    DivModUnique(r, x.space.n, 0, r);
    r % x.space.n
  }

  /** A value congruent to `a * R` exits as `a mod n`: this is what it means
      for `x` to represent `a`. */
  lemma ExitOfRepresentative(x: Elt, a: int)
    requires Valid(x.space) && x.val < x.space.n * R
    requires x.val % x.space.n == (a * R) % x.space.n
    ensures Exit(x) == a % x.space.n
  {
    var e := Exit(x);
    CancelR(x.space, e, a);
    DivModUnique(e, x.space.n, 0, e);
    ModOfMod(a, x.space.n);
    ModInjective(e, a % x.space.n, x.space.n);
  }

  /** Reduced values are determined by what they exit to. */
  lemma ExitInjective(x: Elt, y: Elt)
    requires Valid(x.space) && y.space.n == x.space.n && Valid(y.space)
    requires x.val < x.space.n && y.val < y.space.n
    requires Exit(x) == Exit(y)
    ensures x.val == y.val
  {
    DivModUnique(x.val, x.space.n, 0, x.val);
    DivModUnique(y.val, x.space.n, 0, y.val);
    ModInjective(x.val, y.val, x.space.n);
  }

  /** `enter(a)`: `redc(a * r_squared)`. The product is the REDC input, so
      it must stay below `n * R`. */
  function Enter(sp: Space, a: nat): (x: Elt)
    requires Valid(sp) && a * sp.rSquared < sp.n * R
    ensures x.space == sp && x.val < sp.n
    ensures Exit(x) == a % sp.n
  {
    var x := Elt(Redc(sp, a * sp.rSquared), sp);
    EnterRepresents(sp, a, x.val);
    ExitOfRepresentative(x, a);
    x
  }

  lemma EnterRepresents(sp: Space, a: nat, v: nat)
    requires Valid(sp) && (v * R) % sp.n == (a * sp.rSquared) % sp.n
    ensures v % sp.n == (a * R) % sp.n
  {
    ModMul(a, R * R, sp.n);
    ModMul(a, sp.rSquared, sp.n);
    ModOfMod(R * R, sp.n);
    assert a * (R * R) == (a * R) * R;
    CancelR(sp, v, a * R);
  }

  /** Entering accepts every `a < R`. */
  lemma EnterBound(sp: Space, a: nat)
    requires Valid(sp) && a < R
    ensures a * sp.rSquared < sp.n * R
  {
    MulLe(sp.rSquared, sp.n - 1, a);
    MulStrict(a, R, sp.n);
  }

  /** The Montgomery-form round trip: `exit(enter(a)) == a mod n`. */
  lemma ExitEnter(sp: Space, a: nat)
    requires Valid(sp) && a < R
    ensures a * sp.rSquared < sp.n * R && Exit(Enter(sp, a)) == a % sp.n
  {
    EnterBound(sp, a);
  }
}

=== FILE: prime.dfy ===
/** `src/math/prime.rs`: the Miller-Rabin test over twelve fixed bases and
    the segmented sieve. */
module Prime {
  import opened Arith
  import opened MathKernel
  import opened Selection

  /** `MR_BASES`: the twelve witnesses every odd candidate is tried with. */
  const MrBases: seq<nat> := [2, 3, 5, 7, 11, 13, 17, 19, 23, 29, 31, 37]

  /** Primality as a definition: at least 2 and no divisor strictly between
      1 and itself. */
  predicate IsPrimeNat(m: nat)
  {
    2 <= m && forall k :: 2 <= k < m ==> !Divides(k, m)
  }

  // ---------------------------------------------------------------------
  // Miller-Rabin
  // ---------------------------------------------------------------------

  /** The loop that shifts `d` right while it is even, counting the shifts:
      `d` splits into an odd part and a power of two. */
  function TwoAdic(d: nat): (res: (nat, nat))
    requires 0 < d
    ensures res.0 % 2 == 1 && d == res.0 * Pow(2, res.1)
    decreases d
  {
    if d % 2 == 1 then (d, 0)
    else
      var (e, r) := TwoAdic(d / 2);
      DoubleFactor(e, Pow(2, r));
      (e, r + 1)
  }

  lemma DoubleFactor(e: int, q: int)
    ensures e * (2 * q) == 2 * (e * q)
  {
  }

  /** The split is the only one: an odd `e` times `2^r` is split back into
      `e` and `r`. */
  lemma {:induction false} TwoAdicUnique(e: nat, r: nat)
    requires e % 2 == 1
    ensures e * Pow(2, r) > 0 && TwoAdic(e * Pow(2, r)) == (e, r)
    decreases r
  {
    PowPositive(2, r);
    MulAtLeast(e, Pow(2, r));
    if r == 0 {
      assert e * Pow(2, 0) == e;
    } else {
      var h := e * Pow(2, r - 1);
      assert e * Pow(2, r) == 2 * h;
      TwoAdicUnique(e, r - 1);
      DivModUnique(2 * h, 2, h, 0);
    }
  }

  /** `d * 2^j`, the exponent after `j` squarings of `a^d`. */
  function Exponent(d: nat, j: nat): (e: nat)
    ensures e == d * Pow(2, j)
    decreases j
  {
    if j == 0 then d
    else
      assert d * Pow(2, j) == 2 * (d * Pow(2, j - 1));
      2 * Exponent(d, j - 1)
  }

  /** `a^(d * 2^j) mod n`: the value `check_composite` holds after `j`
      squarings. */
  function Chain(a: nat, d: nat, j: nat, n: nat): (x: int)
    requires 0 < n
  {
    Pow(a, Exponent(d, j)) % n
  }

  /** Squaring the value after `j - 1` steps gives the value after `j`. */
  lemma ChainStep(a: nat, d: nat, j: nat, n: nat)
    requires 1 < n <= I128 && 1 <= j
    ensures 0 <= Chain(a, d, j - 1, n) && ModExp(Chain(a, d, j - 1, n), 2, n) == Chain(a, d, j, n)
  {
    var e := Exponent(d, j - 1);
    PowMod(Pow(a, e), 2, n);
    PowMul(a, e, 2);
    assert Exponent(d, j) == e * 2;
  }

  /** The `for _ in 1..s` loop of `check_composite`, from squaring number
      `j` on: false as soon as a square is `n - 1`. */
  function Squarings(x: nat, j: nat, s: nat, n: nat): bool
    requires 1 < n <= I128
    decreases s - j
  {
    if j >= s then true
    else
      var x' := ModExp(x, 2, n);
      if x' == n - 1 then false else Squarings(x', j + 1, s, n)
  }

  /** `check_composite(n, a, d, s)`: true when `a` proves the odd `n`
      composite. */
  function CheckComposite(n: nat, a: nat, d: nat, s: nat): bool
    requires 1 < n <= I128
  {
    var x := ModExp(a, d, n);
    if x == 1 || x == n - 1 then false else Squarings(x, 1, s, n)
  }

  /** The squarings from number `j` on find no `n - 1`. */
  lemma {:induction false} SquaringsMeaning(a: nat, d: nat, n: nat, j: nat, s: nat)
    requires 1 < n <= I128 && 1 <= j && 0 <= Chain(a, d, j - 1, n)
    ensures Squarings(Chain(a, d, j - 1, n), j, s, n) <==> forall i :: j <= i < s ==> Chain(a, d, i, n) != n - 1
    decreases s - j
  {
    if j < s {
      ChainStep(a, d, j, n);
      if Chain(a, d, j, n) != n - 1 {
        SquaringsMeaning(a, d, n, j + 1, s);
      }
    }
  }

  /** The Miller-Rabin witness condition: `a` proves `n` composite exactly
      when `a^d` is neither 1 nor `n - 1` and none of the squarings
      `a^(d * 2^i)`, `1 <= i < s`, is `n - 1`. */
  lemma CheckCompositeMeaning(n: nat, a: nat, d: nat, s: nat)
    requires 1 < n <= I128 && 0 < d
    ensures CheckComposite(n, a, d, s) <==>
              && Pow(a, d) % n != 1
              && Pow(a, d) % n != n - 1
              && forall i :: 1 <= i < s ==> Chain(a, d, i, n) != n - 1
  {
    assert Chain(a, d, 0, n) == Pow(a, d) % n;
    SquaringsMeaning(a, d, n, 1, s);
  }

  /** The `for &a in MR_BASES` loop from base number `i`: true at a base
      equal to `n` or past the last base, false at the first witness. */
  function BasesFrom(n: nat, d: nat, s: nat, i: nat): bool
    requires 1 < n <= I128 && i <= |MrBases|
    decreases |MrBases| - i
  {
    if i == |MrBases| then true
    else if MrBases[i] == n then true
    else if CheckComposite(n, MrBases[i], d, s) then false
    else BasesFrom(n, d, s, i + 1)
  }

  /** Base number `k` is tried on `n`: no base up to and including it
      equals `n`. */
  predicate Tried(n: nat, k: nat)
    requires k < |MrBases|
  {
    forall j :: 0 <= j <= k ==> MrBases[j] != n
  }

  /** The loop passes exactly when no tried base is a witness. */
  lemma {:induction false} BasesFromMeaning(n: nat, d: nat, s: nat, i: nat)
    requires 1 < n <= I128 && i <= |MrBases|
    requires forall j :: 0 <= j < i ==> MrBases[j] != n
    ensures BasesFrom(n, d, s, i) <==>
              forall k :: i <= k < |MrBases| && Tried(n, k) ==> !CheckComposite(n, MrBases[k], d, s)
    decreases |MrBases| - i
  {
    if i < |MrBases| && MrBases[i] != n {
      BasesFromMeaning(n, d, s, i + 1);
    }
  }

  /** `is_prime`. */
  function IsPrime(n: nat): (b: bool)
    requires n <= I128
    ensures n < 2 ==> !b
    ensures n == 2 ==> b
    ensures 2 < n && n % 2 == 0 ==> !b
  {
    if n < 2 then false
    else if n == 2 then true
    else if n % 2 == 0 then false
    else
      var ds := TwoAdic(n - 1);
      BasesFrom(n, ds.0, ds.1, 0)
  }

  /** For odd `n > 2`, with `n - 1 = d * 2^s` and `d` odd: `n` is declared
      prime exactly when no base tried (all twelve, or those before `n`
      when `n` is itself a base) is a Miller-Rabin witness. */
  lemma IsPrimeMeaning(n: nat, d: nat, s: nat)
    requires 2 < n <= I128 && n % 2 == 1
    requires d % 2 == 1 && n - 1 == d * Pow(2, s)
    ensures IsPrime(n) <==>
              forall k :: 0 <= k < |MrBases| && Tried(n, k) ==> !CheckComposite(n, MrBases[k], d, s)
  {
    TwoAdicUnique(d, s);
    BasesFromMeaning(n, d, s, 0);
  }

  /** 3 is declared prime: `2^1 = 3 - 1`, so the base 2 is no witness,
      and the loop stops at the base 3. */
  lemma ThreeIsPrime()
    ensures IsPrime(3)
  {
    assert TwoAdic(2) == (1, 1);
  }

  /** `2^7 mod 15 = 8`, neither 1 nor 14: the base 2 is a witness. */
  lemma TwoWitnessesFifteen()
    ensures CheckComposite(15, 2, 7, 1)
  {
    assert ModExp(2, 7, 15) == 8 by {
      assert Pow(2, 7) == 128;
    }
  }

  /** 15 is declared composite at the first base. */
  lemma FifteenIsComposite()
    ensures !IsPrime(15)
  {
    assert TwoAdic(14) == (7, 1);
    TwoWitnessesFifteen();
  }

  // ---------------------------------------------------------------------
  // The segmented sieve
  // ---------------------------------------------------------------------

  /** `m` is a multiple of some `q`, `2 <= q < p`, with `q * q <= m`: the
      sieve rounds before `p` cross it out. */
  predicate CrossedBelow(m: nat, p: nat)
    decreases p
  {
    p > 2 && (CrossedBelow(m, p - 1) || ((p - 1) * (p - 1) <= m && m % (p - 1) == 0))
  }

  /** Anything crossed out is composite. */
  lemma {:induction false} CrossedIsComposite(m: nat, p: nat)
    requires CrossedBelow(m, p)
    ensures 2 <= m && !IsPrimeNat(m)
    decreases p
  {
    if CrossedBelow(m, p - 1) {
      CrossedIsComposite(m, p - 1);
    } else {
      var q := p - 1;
      MulStrict(1, q, q);
      assert Divides(q, m);
    }
  }

  /** A divisor `q >= 2` with `q * q <= m` below `p` crosses `m` out. */
  lemma {:induction false} CrossedByDivisor(m: nat, p: nat, q: nat)
    requires 2 <= q < p && q * q <= m && m % q == 0
    ensures CrossedBelow(m, p)
    decreases p
  {
    if q < p - 1 {
      CrossedByDivisor(m, p - 1, q);
    }
  }

  /** Every composite below `p * p` has been crossed out by round `p`. */
  lemma CompositeIsCrossed(m: nat, p: nat)
    requires 2 <= m && !IsPrimeNat(m) && m < p * p
    ensures CrossedBelow(m, p)
  {
    var k :| 2 <= k < m && Divides(k, m);
    var c := m / k;
    assert m == k * c;
    assert c != 0 && c != 1;
    ModMultiple(k, c);
    var q := if k <= c then k else c;
    if k <= c {
      MulLe(k, c, k);
    } else {
      MulStrict(c, k, c);
    }
    assert q * q <= m && m % q == 0;
    if q >= p {
      MulLe(p, q, p);
      MulLe(p, q, q);
    }
    CrossedByDivisor(m, p, q);
  }

  /** Once `p * p > m`, crossed out means composite. */
  lemma CrossedMeansComposite(m: nat, p: nat)
    requires m < p * p
    ensures CrossedBelow(m, p) <==> 2 <= m && !IsPrimeNat(m)
  {
    if CrossedBelow(m, p) {
      CrossedIsComposite(m, p);
    } else if 2 <= m && !IsPrimeNat(m) {
      CompositeIsCrossed(m, p);
    }
  }

  /** `(low + p - 1) / p * p` is the least multiple of `p` at or above
      `low`. */
  lemma CeilMultiple(low: nat, p: nat, m: nat)
    requires 0 < p
    ensures low <= (low + p - 1) / p * p && ((low + p - 1) / p * p) % p == 0
    ensures low <= m && m % p == 0 ==> (low + p - 1) / p * p <= m
  {
    var q := (low + p - 1) / p;
    var rem := (low + p - 1) % p;
    assert q * p + rem == low + p - 1;
    assert rem < p;
    ModMultiple(q, p);
    if low <= m && m % p == 0 {
      var j := m / p;
      assert j * p + 0 == m;
      if j < q {
        MulLe(j + 1, q, p);
      }
    }
  }

  /** Two multiples of `p` closer than `p` are equal. */
  lemma NoMultipleBetween(i: nat, m: nat, p: nat)
    requires 0 < p && i % p == 0 && m % p == 0 && i <= m < i + p
    ensures m == i
  {
    var a, b := i / p, m / p;
    assert i == a * p && m == b * p;
    if a < b {
      MulLe(a + 1, b, p);
    } else if b < a {
      MulLe(b + 1, a, p);
    }
  }

  /** The inner loop for one `p`: from `start = max(p * p, the first
      multiple of p at or above low)` up to `high` in steps of `p`, clear
      the mark. What goes is exactly the multiples of `p` from `p * p`. */
  method CrossOutMultiples(low: nat, high: nat, p: nat, marks: seq<bool>) returns (marks': seq<bool>)
    requires 2 <= p && p * p <= high && low <= high && |marks| == high - low + 1
    ensures |marks'| == |marks|
    ensures forall k :: 0 <= k < |marks| ==>
              (marks'[k] <==> marks[k] && !(p * p <= low + k && (low + k) % p == 0))
  {
    var start := (low + p - 1) / p * p;
    CeilMultiple(low, p, 0);
    if start < p * p {
      start := p * p;
      ModMultiple(p, p);
    }
    var i := start;
    marks' := marks;
    while i <= high
      invariant low <= start <= i && i % p == 0
      invariant |marks'| == |marks|
      invariant forall k :: 0 <= k < |marks| ==>
                  (marks'[k] <==> marks[k] && !(start <= low + k < i && (low + k) % p == 0))
      decreases high + p - i
    {
      var prev := marks';
      marks' := marks'[i - low := false];
      forall k | 0 <= k < |marks|
        ensures marks'[k] <==> marks[k] && !(start <= low + k < i + p && (low + k) % p == 0)
      {
        if low + k != i && i <= low + k < i + p && (low + k) % p == 0 {
          NoMultipleBetween(i, low + k, p);
        }
      }
      ModAddMultiple(i, 1, p);
      i := i + p;
    }
    forall k | 0 <= k < |marks|
      ensures marks'[k] <==> marks[k] && !(p * p <= low + k && (low + k) % p == 0)
    {
      CeilMultiple(low, p, low + k);
    }
  }

  /** Lines 50-59: the rounds `p = 2, 3, ...` while `p * p <= high`. A mark
      survives exactly when it was set and its number is not composite. */
  method CrossOutComposites(low: nat, high: nat, marks: seq<bool>) returns (marks': seq<bool>)
    requires low <= high && |marks| == high - low + 1
    ensures |marks'| == |marks|
    ensures forall k :: 0 <= k < |marks| ==>
              (marks'[k] <==> marks[k] && (low + k < 2 || IsPrimeNat(low + k)))
  {
    var p := 2;
    marks' := marks;
    while p * p <= high
      invariant 2 <= p
      invariant |marks'| == |marks|
      invariant forall k :: 0 <= k < |marks| ==> (marks'[k] <==> marks[k] && !CrossedBelow(low + k, p))
      decreases high - p
    {
      MulAtLeast(p, p);
      marks' := CrossOutMultiples(low, high, p, marks');
      p := p + 1;
    }
    forall k | 0 <= k < |marks|
      ensures marks'[k] <==> marks[k] && (low + k < 2 || IsPrimeNat(low + k))
    {
      CrossedMeansComposite(low + k, p);
    }
  }

  /** Lines 61-65: push `i + low` for every index whose mark survived. */
  method Collect(low: nat, marks: seq<bool>) returns (primes: seq<nat>)
    ensures StrictlyAscending(primes)
    ensures forall m :: m in primes <==> low <= m < low + |marks| && marks[m - low]
  {
    primes := [];
    var i := 0;
    while i < |marks|
      invariant i <= |marks| && primes == Select(low, marks[..i], true)
    {
      assert marks[..i + 1][..i] == marks[..i];
      if marks[i] {
        primes := primes + [i + low];
      }
      i := i + 1;
    }
    assert marks[..i] == marks;
    SelectMembers(low, marks, true);
    SelectAscending(low, marks, true);
  }

  /** `segmented_seive(low, high)`: the numbers of `low..=high`, ascending,
      that are prime or below 2; every mark starts set, so 0 and 1 are
      never crossed out. */
  method SegmentedSieve(low: nat, high: nat) returns (primes: seq<nat>)
    requires low <= high < USIZE - 1
    ensures StrictlyAscending(primes)
    ensures forall m :: m in primes <==> low <= m <= high && (m < 2 || IsPrimeNat(m))
  {
    var marks := seq(high - low + 1, _ => true);
    marks := CrossOutComposites(low, high, marks);
    primes := Collect(low, marks);
    forall m | low <= m <= high
      ensures marks[m - low] <==> m < 2 || IsPrimeNat(m)
    {
      assert low + (m - low) == m;
    }
  }

  /** The sieve from 0 lists 0 and 1, neither of which is prime. */
  method SieveListsZeroAndOne() returns (primes: seq<nat>)
    ensures 0 in primes && 1 in primes
    ensures !IsPrimeNat(0) && !IsPrimeNat(1)
  {
    primes := SegmentedSieve(0, 1000);
  }

  /** The sieve with the marks of 0 and 1 cleared from the start: exactly
      the primes of `low..=high`, ascending. */
  method SegmentedSieveIntended(low: nat, high: nat) returns (primes: seq<nat>)
    requires low <= high < USIZE - 1
    ensures StrictlyAscending(primes)
    ensures forall m :: m in primes <==> low <= m <= high && IsPrimeNat(m)
  {
    var marks := seq(high - low + 1, k => low + k >= 2);
    marks := CrossOutComposites(low, high, marks);
    primes := Collect(low, marks);
    forall m | low <= m <= high
      ensures marks[m - low] <==> IsPrimeNat(m)
    {
      assert low + (m - low) == m;
    }
  }
}

=== FILE: report.dfy ===
/** `src/brocard/report.rs`: the append-only report of a span, its
    max-passed summary, and the text `write_to_file` writes, as a string.
    `Instant` and `Duration` are nanosecond counts supplied by the caller. */
module Report {
  import opened Text
  import opened Candidate

  datatype Report = Report(
    candidates: seq<BrocardCandidate>,
    primes: seq<nat>,
    startTime: nat,
    duration: nat)

  /** `BrocardReport::new(primes)`, with `Instant::now()` as `now`. */
  function New(primes: seq<nat>, now: nat): (r: Report)
    ensures |r.candidates| == 0 && r.primes == primes
    ensures r.startTime == now && r.duration == 0
  {
    Report([], primes, now, 0)
  }

  /** `push`: append one outcome. */
  function Push(r: Report, c: BrocardCandidate): (r': Report)
    ensures |r'.candidates| == |r.candidates| + 1 && r'.candidates[|r.candidates|] == c
    ensures r'.candidates[..|r.candidates|] == r.candidates
    ensures r'.primes == r.primes && r'.startTime == r.startTime && r'.duration == r.duration
  {
    r.(candidates := r.candidates + [c])
  }

  /** `finish`: the time since `start_time`. `Instant::duration_since`
      saturates at zero when `now` is earlier. */
  function Finish(r: Report, now: nat): (r': Report)
    ensures r'.candidates == r.candidates && r'.primes == r.primes && r'.startTime == r.startTime
    ensures r'.startTime + r'.duration == now || (now < r.startTime && r'.duration == 0)
  {
    r.(duration := if now >= r.startTime then now - r.startTime else 0)
  }

  /** Finishing again overwrites the duration: the last call wins. */
  lemma FinishLastWins(r: Report, t1: nat, t2: nat)
    ensures Finish(Finish(r, t1), t2) == Finish(r, t2)
  {
  }

  /** The `(max, max_passed)` pair `write_to_file` folds over the candidates. */
  datatype Summary = Summary(max: nat, maxPassed: nat)

  /** One iteration of that loop: only a strictly larger `passed` replaces
      the pair. */
  function SummaryStep(s: Summary, c: BrocardCandidate): Summary
  {
    match c
    case Solution(_) => s
    case Nonsolution(candidate, passed) =>
      if passed > s.maxPassed then Summary(candidate, passed) else s
  }

  /** The fold from `(0, 0)` in list order. `max_passed` bounds every
      `passed`, and is 0 (with `max` 0) when nothing beats the start. */
  function Summarize(cs: seq<BrocardCandidate>): (s: Summary)
    ensures forall i :: 0 <= i < |cs| && cs[i].Nonsolution? ==> cs[i].passed <= s.maxPassed
    ensures s.maxPassed == 0 ==> s.max == 0
    decreases |cs|
  {
    if |cs| == 0 then Summary(0, 0)
    else
      var prev := Summarize(cs[..|cs| - 1]);
      assert forall i :: 0 <= i < |cs| - 1 ==> cs[..|cs| - 1][i] == cs[i];
      SummaryStep(prev, cs[|cs| - 1])
  }

  /** Candidate `i` is the first `Nonsolution` reaching the summary's
      `max_passed`, and `max` is its number. */
  predicate FirstMaximum(cs: seq<BrocardCandidate>, i: nat, s: Summary)
  {
    && i < |cs|
    && cs[i] == Nonsolution(s.max, s.maxPassed)
    && (forall j :: 0 <= j < i && cs[j].Nonsolution? ==> cs[j].passed < s.maxPassed)
  }

  /** A positive `max_passed` is attained, and `max` belongs to the first
      candidate attaining it (the comparison is strict). */
  lemma {:induction false} SummarizeAttained(cs: seq<BrocardCandidate>)
    requires Summarize(cs).maxPassed > 0
    ensures exists i: nat :: FirstMaximum(cs, i, Summarize(cs))
    decreases |cs|
  {
    var k := |cs| - 1;
    var p := cs[..k];
    var prev := Summarize(p);
    var s := Summarize(cs);
    assert forall j :: 0 <= j < k ==> p[j] == cs[j];
    if s == prev {
      SummarizeAttained(p);
      var i: nat :| FirstMaximum(p, i, prev);
      assert FirstMaximum(cs, i, s);
    } else {
      assert FirstMaximum(cs, k, s);
    }
  }

  /** With no `Nonsolution` the summary is `(0, 0)`. */
  lemma {:induction false} SummarizeNoNonsolutions(cs: seq<BrocardCandidate>)
    requires forall i :: 0 <= i < |cs| ==> cs[i].Solution?
    ensures Summarize(cs) == Summary(0, 0)
    decreases |cs|
  {
    if |cs| > 0 {
      var p := cs[..|cs| - 1];
      assert forall j :: 0 <= j < |p| ==> p[j] == cs[j];
      SummarizeNoNonsolutions(p);
    }
  }

  /** The numbers of the `Solution`s, in list order. */
  function Solutions(cs: seq<BrocardCandidate>): seq<nat>
    decreases |cs|
  {
    if |cs| == 0 then []
    else (if cs[0].Solution? then [cs[0].n] else []) + Solutions(cs[1..])
  }

  /** The line written for the solution `n`. */
  function SolutionLine(n: nat): string
  {
    "S:" + Decimal(n)
  }

  /** The lines written for a list of solutions, one each, in order. */
  function SolutionLines(ns: seq<nat>): (lines: seq<string>)
    ensures |lines| == |ns|
    ensures forall k :: 0 <= k < |ns| ==> lines[k] == SolutionLine(ns[k])
    decreases |ns|
  {
    if |ns| == 0 then [] else [SolutionLine(ns[0])] + SolutionLines(ns[1..])
  }

  /** What the candidate loop writes: `S:{n}` and a newline per `Solution`,
      nothing for a `Nonsolution`. */
  function SolutionText(cs: seq<BrocardCandidate>): string
    decreases |cs|
  {
    if |cs| == 0 then []
    else
      (match cs[0]
       case Solution(n) => "S:" + Decimal(n) + "\n"
       case Nonsolution(_, _) => [])
      + SolutionText(cs[1..])
  }

  /** The `write!` loop over the primes: `{p},` for each. */
  function PrimeText(ps: seq<nat>): string
    decreases |ps|
  {
    if |ps| == 0 then [] else Decimal(ps[0]) + "," + PrimeText(ps[1..])
  }

  /** `N:{len},M:{max},{max_passed}`, where `len` counts every candidate. */
  function SummaryLine(r: Report): string
  {
    var s := Summarize(r.candidates);
    "N:" + Decimal(|r.candidates|) + ",M:" + Decimal(s.max) + "," + Decimal(s.maxPassed)
  }

  /** The text `write_to_file` writes, in the order it writes it. */
  function Render(r: Report): string
  {
    SolutionText(r.candidates) + "\n" + SummaryLine(r) + "\n" + "P:" + PrimeText(r.primes) + "\n"
  }

  /** The intended reading of the file: the solution lines, an empty line,
      the summary line and the prime line. */
  function RenderLines(r: Report): seq<string>
  {
    SolutionLines(Solutions(r.candidates)) + ["", SummaryLine(r), "P:" + PrimeText(r.primes)]
  }

  lemma {:induction false} SolutionTextIsLines(cs: seq<BrocardCandidate>)
    ensures SolutionText(cs) == JoinLines(SolutionLines(Solutions(cs)))
    decreases |cs|
  {
    if |cs| > 0 {
      SolutionTextIsLines(cs[1..]);
      var head := if cs[0].Solution? then [cs[0].n] else [];
      assert Solutions(cs) == head + Solutions(cs[1..]);
      SolutionLinesAppend(head, Solutions(cs[1..]));
      JoinLinesAppend(SolutionLines(head), SolutionLines(Solutions(cs[1..])));
      if cs[0].Solution? {
        assert JoinLines(SolutionLines(head)) == SolutionLine(cs[0].n) + "\n" + JoinLines([]);
      } else {
        assert SolutionLines(head) == [];
      }
    }
  }

  lemma SolutionLinesAppend(a: seq<nat>, b: seq<nat>)
    ensures SolutionLines(a + b) == SolutionLines(a) + SolutionLines(b)
  {
  }

  lemma {:induction false} PrimeTextHasNoNewline(ps: seq<nat>)
    ensures '\n' !in PrimeText(ps)
    decreases |ps|
  {
    if |ps| > 0 {
      DecimalHasNoNewline(ps[0]);
      PrimeTextHasNoNewline(ps[1..]);
    }
  }

  /** The text is exactly the intended lines, each newline-terminated. */
  lemma RenderIsJoinedLines(r: Report)
    ensures Render(r) == JoinLines(RenderLines(r))
  {
    SolutionTextIsLines(r.candidates);
    LayoutIsJoinedLines(SolutionLines(Solutions(r.candidates)), SummaryLine(r), PrimeText(r.primes));
  }

  /** The layout of `Render` for any solution lines, summary and primes. */
  lemma LayoutIsJoinedLines(sol: seq<string>, s: string, pt: string)
    ensures JoinLines(sol) + "\n" + s + "\n" + "P:" + pt + "\n" == JoinLines(sol + ["", s, "P:" + pt])
  {
    var a := JoinLines(sol);
    var pl := "P:" + pt;
    JoinLinesAppend(sol, ["", s, pl]);
    JoinThree("", s, pl);
    assert "" + "\n" == "\n";
    Associative(a + "\n" + s + "\n", "P:", pt);
    Associative(a + "\n" + s + "\n", pl, "\n");
    Associative(a + "\n" + s, "\n", pl + "\n");
    Associative(a + "\n", s, "\n" + (pl + "\n"));
    Associative(a, "\n", s + ("\n" + (pl + "\n")));
  }

  lemma RenderLinesHaveNoNewline(r: Report)
    ensures NoNewlines(RenderLines(r))
  {
    var sol := SolutionLines(Solutions(r.candidates));
    var s := Summarize(r.candidates);
    DecimalHasNoNewline(|r.candidates|);
    DecimalHasNoNewline(s.max);
    DecimalHasNoNewline(s.maxPassed);
    PrimeTextHasNoNewline(r.primes);
    forall k | 0 <= k < |sol|
      ensures '\n' !in sol[k]
    {
      DecimalHasNoNewline(Solutions(r.candidates)[k]);
    }
  }

  /** The rendered file reads back, line by line, as: one `S:` line per
      solution in list order, an empty line, the summary and the primes. */
  lemma RenderReadsBack(r: Report)
    ensures SplitLines(Render(r)) == RenderLines(r)
  {
    RenderIsJoinedLines(r);
    RenderLinesHaveNoNewline(r);
    SplitJoin(RenderLines(r));
  }

  /** Each solution line reads back as its number. */
  lemma SolutionLineReadsBack(n: nat)
    ensures |SolutionLine(n)| > 2 && SolutionLine(n)[..2] == "S:"
    ensures Canonical(SolutionLine(n)[2..]) && ParseDecimal(SolutionLine(n)[2..]) == n
  {
    assert SolutionLine(n)[2..] == Decimal(n);
    ParseDecimalOfDecimal(n);
  }

  /** A report without `Nonsolution`s summarises as `M:0,0`. */
  lemma SummaryWithoutNonsolutions(r: Report)
    requires forall i :: 0 <= i < |r.candidates| ==> r.candidates[i].Solution?
    ensures SummaryLine(r) == "N:" + Decimal(|r.candidates|) + ",M:0,0"
  {
    SummarizeNoNonsolutions(r.candidates);
    assert Decimal(0) == "0";
  }
}

=== FILE: selection.dfy ===
/** Picking, in order, the numbers of a range whose flag is set: the
    potentials and exclusions of `src/brocard/mod.rs` and the sieve output
    of `src/math/prime.rs` are both such lists. */
module Selection {
  /** The numbers `start + k` whose flag `fs[k]` is `want`, ascending. */
  function Select(start: nat, fs: seq<bool>, want: bool): seq<nat>
    decreases |fs|
  {
    if |fs| == 0 then []
    else
      var m := |fs| - 1;
      Select(start, fs[..m], want) + (if fs[m] == want then [start + m] else [])
  }

  predicate StrictlyAscending(xs: seq<nat>)
  {
    forall i, j :: 0 <= i < j < |xs| ==> xs[i] < xs[j]
  }

  /** `Select` keeps exactly the candidates whose flag is `want`. */
  lemma {:induction false} SelectMembers(start: nat, fs: seq<bool>, want: bool)
    ensures forall c :: c in Select(start, fs, want) <==> start <= c < start + |fs| && fs[c - start] == want
    decreases |fs|
  {
    if |fs| > 0 {
      var m := |fs| - 1;
      var p := fs[..m];
      SelectMembers(start, p, want);
      assert forall k :: 0 <= k < m ==> p[k] == fs[k];
    }
  }

  /** `Select` lists its candidates in ascending order. */
  lemma {:induction false} SelectAscending(start: nat, fs: seq<bool>, want: bool)
    ensures StrictlyAscending(Select(start, fs, want))
    decreases |fs|
  {
    if |fs| > 0 {
      var m := |fs| - 1;
      var p := fs[..m];
      var prev := Select(start, p, want);
      SelectAscending(start, p, want);
      SelectMembers(start, p, want);
      forall i | 0 <= i < |prev|
        ensures prev[i] < start + m
      {
        assert prev[i] in prev;
      }
    }
  }

  /** Selecting `want` and `!want` shares out the whole range. */
  lemma {:induction false} SelectLengths(start: nat, fs: seq<bool>, want: bool)
    ensures |Select(start, fs, want)| + |Select(start, fs, !want)| == |fs|
    decreases |fs|
  {
    if |fs| > 0 {
      SelectLengths(start, fs[..|fs| - 1], want);
    }
  }

  /** Appending one flag appends at most its candidate. */
  lemma SelectSnoc(start: nat, fs: seq<bool>, b: bool, want: bool)
    ensures Select(start, fs + [b], want) == Select(start, fs, want) + (if b == want then [start + |fs|] else [])
  {
    assert (fs + [b])[..|fs|] == fs;
  }
}

=== FILE: span.dfy ===
/** `src/brocard/span.rs`: the span solver. It keeps `v_i = c! mod p_i` in
    the Montgomery space of every prime `p_i`, tests `v_i + 1` with the fast
    Legendre symbol, and records one outcome per candidate `c` of
    `start..=start+span`. The definitions shared with the older solver of
    `src/brocard/mod.rs` live here too. */
module Span {
  import opened Arith
  import opened MontgomerySpace
  import opened MontgomeryElt
  import opened MontgomeryAlgorithms
  import Legendre
  import opened Candidate
  import opened Report

  /** A modulus the solvers can work in: odd, at least 3, and small enough
      (`4p < R`) that the unreduced `v + 1 < 2p` still squares below `p * R`,
      which the power in `legendre` needs. */
  predicate ModulusOk(p: nat)
  {
    p % 2 == 1 && 3 <= p && 4 * p < R
  }

  predicate PrimesOk(primes: seq<nat>)
  {
    forall i :: 0 <= i < |primes| ==> ModulusOk(primes[i])
  }

  /** A space as `Space::new` builds it for such a modulus. */
  predicate SpaceOk(sp: Space)
  {
    && Valid(sp)
    && ModulusOk(sp.n)
    && sp.rNLegendre == Legendre.NaiveLegendre(R, sp.n)
  }

  predicate SpacesOk(ss: seq<Space>)
  {
    forall i :: 0 <= i < |ss| ==> SpaceOk(ss[i])
  }

  /** `Space::new(p)`. */
  function SpaceOf(p: nat): (sp: Space)
    requires ModulusOk(p)
    ensures SpaceOk(sp) && sp.n == p
  {
    NewSpaceValid(p);
    NewSpace(p).value
  }

  /** Step 1: one space per prime, in the order of the primes. */
  function Spaces(primes: seq<nat>): (ss: seq<Space>)
    requires PrimesOk(primes)
    ensures |ss| == |primes| && SpacesOk(ss)
    ensures forall i :: 0 <= i < |ss| ==> ss[i].n == primes[i]
  {
    seq(|primes|, i requires 0 <= i < |primes| => SpaceOf(primes[i]))
  }

  /** Each `v_i` is a reduced element of the `i`-th space. */
  predicate Aligned(ss: seq<Space>, vs: seq<Elt>)
  {
    && |vs| == |ss|
    && (forall i :: 0 <= i < |ss| ==> SpaceOk(ss[i]) && vs[i].space == ss[i] && vs[i].val < ss[i].n)
  }

  /** Step 3, and the brute-force form of every later step: `factorial(c)`
      computed afresh in every space. */
  function Factorials(ss: seq<Space>, c: nat): (vs: seq<Elt>)
    requires SpacesOk(ss) && c < R
    ensures Aligned(ss, vs)
  {
    seq(|ss|, i requires 0 <= i < |ss| => Factorial(ss[i], c))
  }

  /** Every `v_i` represents `c!` in its space. */
  lemma FactorialsRepresent(ss: seq<Space>, c: nat)
    requires SpacesOk(ss) && c < R
    ensures forall i :: 0 <= i < |ss| ==>
              Factorials(ss, c)[i].val < ss[i].n * R && Exit(Factorials(ss, c)[i]) == Fact(c) % ss[i].n
  {
    var vs := Factorials(ss, c);
    forall i | 0 <= i < |ss|
      ensures vs[i].val < ss[i].n * R && Exit(vs[i]) == Fact(c) % ss[i].n
    {
      assert vs[i] == Factorial(ss[i], c);
    }
  }

  /** Step 4.5: `*v_i *= candidate` for every `i`. */
  function MulEach(ss: seq<Space>, vs: seq<Elt>, b: nat): (ws: seq<Elt>)
    requires Aligned(ss, vs) && b < R
    ensures Aligned(ss, ws)
    ensures forall i :: 0 <= i < |ss| ==> Exit(ws[i]) == (Exit(vs[i]) * b) % ss[i].n
  {
    seq(|vs|, i requires 0 <= i < |vs| && Valid(vs[i].space) && vs[i].val < vs[i].space.n => MulU128(vs[i], b))
  }

  /** The incremental update and the brute force agree exactly: multiplying
      every `factorial(c)` by `c + 1` gives every `factorial(c + 1)`. */
  lemma MulEachAdvancesFactorials(ss: seq<Space>, c: nat)
    requires SpacesOk(ss) && c + 1 < R
    ensures MulEach(ss, Factorials(ss, c), c + 1) == Factorials(ss, c + 1)
  {
    var vs := Factorials(ss, c);
    var ws := MulEach(ss, vs, c + 1);
    var fs := Factorials(ss, c + 1);
    forall i | 0 <= i < |ss|
      ensures ws[i] == fs[i]
    {
      var sp := ss[i];
      RedcInputFits(sp);
      EnterBound(sp, c + 1);
      var y := Enter(sp, c + 1);
      MulU128AgreesWithMul(vs[i], y, c + 1);
    }
  }

  /** A value below `2n` squares below `n * R` once `4n < R`. */
  lemma SumSquareFits(n: nat, a: nat)
    requires 4 * n < R && a < 2 * n
    ensures a * a < n * R
  {
    MulLe(a, 2 * n, a);
    MulLe(a, 2 * n, 2 * n);
    assert (2 * n) * (2 * n) == (4 * n) * n;
    MulStrict(4 * n, R, n);
  }

  /** The filter of step 4.1: `(v_i + 1).legendre()` is not `Nonresidue`,
      where `v_i + 1` is the unreduced `Add<u128>`. */
  function Passes(sp: Space, v: Elt): bool
    requires SpaceOk(sp) && v.space == sp && v.val < sp.n
  {
    var w := AddU128(v, 1);
    SumSquareFits(sp.n, w.val);
    SpaceLegendre(sp, w) != Legendre.Nonresidue
  }

  /** `x + 1` is a non-residue modulo `p`, up to the cached symbol of `R`
      (which is `Residue` for the primes the solver is given). */
  predicate SuccessorNonresidue(sp: Space, x: nat)
    requires SpaceOk(sp)
  {
    Legendre.Mul(Legendre.NaiveLegendre((x + 1) % sp.n, sp.n), sp.rNLegendre) == Legendre.Nonresidue
  }

  /** What the test means for the candidate `c`: `c! + 1` is a non-residue
      modulo `p`. */
  predicate RulesOut(sp: Space, c: nat)
    requires SpaceOk(sp)
  {
    SuccessorNonresidue(sp, Fact(c))
  }

  /** The filter fails on an element representing `x` exactly when `x + 1`
      is a non-residue. */
  lemma PassesRepresents(sp: Space, v: Elt, x: nat)
    requires SpaceOk(sp) && v.space == sp && v.val < sp.n
    requires v.val < sp.n * R && Exit(v) == x % sp.n
    ensures !Passes(sp, v) <==> SuccessorNonresidue(sp, x)
  {
    var w := AddU128(v, 1);
    ModAddReduced(x, 1, sp.n);
    SumSquareFits(sp.n, w.val);
  }

  /** The filter applied to `factorial(c)` fails exactly when `p` rules `c`
      out. */
  lemma PassesMeaning(sp: Space, c: nat)
    requires SpaceOk(sp) && c < R
    ensures !Passes(sp, Factorial(sp, c)) <==> RulesOut(sp, c)
  {
    PassesRepresents(sp, Factorial(sp, c), Fact(c));
  }

  /** The filter of step 4.1 over every prime, in order. */
  function PassFlags(ss: seq<Space>, vs: seq<Elt>): (bs: seq<bool>)
    requires Aligned(ss, vs)
    ensures |bs| == |ss|
  {
    seq(|ss|, i requires 0 <= i < |ss| && SpaceOk(ss[i]) && vs[i].space == ss[i] && vs[i].val < ss[i].n
                => Passes(ss[i], vs[i]))
  }

  /** The length of a `filter`: how many flags are set. */
  function CountTrue(bs: seq<bool>): (k: nat)
    ensures k <= |bs|
    decreases |bs|
  {
    if |bs| == 0 then 0
    else CountTrue(bs[..|bs| - 1]) + (if bs[|bs| - 1] then 1 else 0)
  }

  /** The count is 0 exactly when no flag is set, and the length exactly when
      every flag is. */
  lemma {:induction false} CountTrueExtremes(bs: seq<bool>)
    ensures CountTrue(bs) == 0 <==> forall i :: 0 <= i < |bs| ==> !bs[i]
    ensures CountTrue(bs) == |bs| <==> forall i :: 0 <= i < |bs| ==> bs[i]
    decreases |bs|
  {
    if |bs| > 0 {
      var m := |bs| - 1;
      assert forall i :: 0 <= i < m ==> bs[..m][i] == bs[i];
      CountTrueExtremes(bs[..m]);
    }
  }

  /** `test.len()`: how many primes pass the filter. Every prime is
      evaluated; there is no short circuit. */
  function PassCount(ss: seq<Space>, vs: seq<Elt>): (k: nat)
    requires Aligned(ss, vs)
    ensures k <= |ss|
  {
    CountTrue(PassFlags(ss, vs))
  }

  /** For each prime, in order: does it leave `c` standing? */
  function SurvivorFlags(ss: seq<Space>, c: nat): (bs: seq<bool>)
    requires SpacesOk(ss)
    ensures |bs| == |ss|
  {
    seq(|ss|, i requires 0 <= i < |ss| && SpaceOk(ss[i]) => !RulesOut(ss[i], c))
  }

  /** How many primes leave `c` standing. */
  function Survivors(ss: seq<Space>, c: nat): (k: nat)
    requires SpacesOk(ss)
    ensures k <= |ss|
  {
    CountTrue(SurvivorFlags(ss, c))
  }

  /** The count of step 4.1, taken on the incrementally kept factorials, is
      the number of primes that leave `c` standing. */
  lemma PassCountIsSurvivors(ss: seq<Space>, c: nat)
    requires SpacesOk(ss) && c < R
    ensures PassCount(ss, Factorials(ss, c)) == Survivors(ss, c)
  {
    var vs := Factorials(ss, c);
    var bs := PassFlags(ss, vs);
    var fs := SurvivorFlags(ss, c);
    forall i | 0 <= i < |ss|
      ensures bs[i] == fs[i]
    {
      PassesMeaning(ss[i], c);
    }
    assert bs == fs;
  }

  /** The number a candidate outcome is about. */
  function Number(o: BrocardCandidate): nat
  {
    match o
    case Solution(n) => n
    case Nonsolution(c, _) => c
  }

  /** Steps 4.2.1 and 4.2.2 as written: `Solution` when no prime passes,
      otherwise `Nonsolution` carrying the count. */
  function ClassifyAsWritten(c: nat, passed: nat): (o: BrocardCandidate)
  {
    if passed == 0 then Solution(c) else Nonsolution(c, passed)
  }

  /** The outcome span.rs records for the candidate `c`, stated with the
      symbols of `c! + 1` themselves (`PassCountIsSurvivors` ties it to the
      Montgomery computation). */
  function Outcome(ss: seq<Space>, c: nat): (o: BrocardCandidate)
    requires SpacesOk(ss)
    ensures Number(o) == c
    ensures o.Nonsolution? ==> 1 <= o.passed <= |ss|
    ensures |ss| == 0 ==> o == Solution(c)
  {
    ClassifyAsWritten(c, Survivors(ss, c))
  }

  /** As written, `c` is recorded a `Solution` exactly when EVERY prime rules
      it out, and otherwise `passed` is the count the filter of step 4.1
      keeps. */
  lemma OutcomeAsWritten(ss: seq<Space>, c: nat)
    requires SpacesOk(ss) && c < R
    ensures Outcome(ss, c).Solution? <==> forall i :: 0 <= i < |ss| ==> RulesOut(ss[i], c)
    ensures Outcome(ss, c).Nonsolution? ==>
              Outcome(ss, c).passed == PassCount(ss, Factorials(ss, c))
  {
    var fs := SurvivorFlags(ss, c);
    CountTrueExtremes(fs);
    assert forall i :: 0 <= i < |ss| ==> (fs[i] <==> !RulesOut(ss[i], c));
    PassCountIsSurvivors(ss, c);
  }

  /** The classification the comments of steps 4.2.1 and 4.2.2 describe, and
      the older solver implements: a potential `Solution` when every prime
      passes, a `Nonsolution` (with the count that passed) when some prime
      rules the candidate out. */
  function ClassifyIntended(c: nat, passed: nat, total: nat): (o: BrocardCandidate)
  {
    if passed == total then Solution(c) else Nonsolution(c, passed)
  }

  function OutcomeIntended(ss: seq<Space>, c: nat): (o: BrocardCandidate)
    requires SpacesOk(ss)
    ensures Number(o) == c
    ensures o.Nonsolution? ==> o.passed < |ss|
    ensures |ss| == 0 ==> o == Solution(c)
  {
    ClassifyIntended(c, Survivors(ss, c), |ss|)
  }

  /** With the intended classification `c` is a `Solution` exactly when NO
      prime rules it out. */
  lemma OutcomeIntendedMeaning(ss: seq<Space>, c: nat)
    requires SpacesOk(ss)
    ensures OutcomeIntended(ss, c).Solution? <==> forall i :: 0 <= i < |ss| ==> !RulesOut(ss[i], c)
  {
    var fs := SurvivorFlags(ss, c);
    CountTrueExtremes(fs);
    assert forall i :: 0 <= i < |ss| ==> (fs[i] <==> !RulesOut(ss[i], c));
  }

  /** `4! + 1 = 25 = 5^2`, so 4 is a Brocard solution, and modulo 7 the test
      passes (`25 = 4 (mod 7)` is a square). With the single prime 7 the code
      as written records `Nonsolution { candidate: 4, passed: 1 }`, while the
      intended classification records `Solution(4)`. */
  lemma ReversedClassificationWitness(sp: Space)
    requires SpaceOk(sp) && sp.n == 7
    ensures Fact(4) + 1 == 5 * 5
    ensures Outcome([sp], 4) == Nonsolution(4, 1)
    ensures OutcomeIntended([sp], 4) == Solution(4)
  {
    assert Fact(4) == 24;
    DivModUnique(25, 7, 3, 4);
    assert Pow(4, 3) == 64;
    CachedSymbolExamples();
    assert Legendre.NaiveLegendre(4, 7) == Legendre.Residue;
    assert !RulesOut(sp, 4);
    OutcomeAsWritten([sp], 4);
    OutcomeIntendedMeaning([sp], 4);
  }

  /** The outcomes of the candidates `start..end`, in ascending order. */
  function OutcomesUpTo(ss: seq<Space>, start: nat, end: nat): (os: seq<BrocardCandidate>)
    requires SpacesOk(ss)
    ensures |os| == if end <= start then 0 else end - start
    decreases end
  {
    if end <= start then [] else OutcomesUpTo(ss, start, end - 1) + [Outcome(ss, end - 1)]
  }

  /** The outcomes of `count` consecutive candidates from `start`. */
  function Outcomes(ss: seq<Space>, start: nat, count: nat): (os: seq<BrocardCandidate>)
    requires SpacesOk(ss)
    ensures |os| == count
  {
    OutcomesUpTo(ss, start, start + count)
  }

  lemma {:induction false} OutcomesUpToAt(ss: seq<Space>, start: nat, end: nat, k: nat)
    requires SpacesOk(ss) && start + k < end
    ensures OutcomesUpTo(ss, start, end)[k] == Outcome(ss, start + k)
    decreases end
  {
    if start + k < end - 1 {
      OutcomesUpToAt(ss, start, end - 1, k);
    } else {
      assert start + k == end - 1;
    }
  }

  /** The `k`-th outcome is the one of the candidate `start + k`, so the list
      is strictly ascending in candidate number, one per candidate of
      `start..start+count`. */
  lemma OutcomesAt(ss: seq<Space>, start: nat, count: nat)
    requires SpacesOk(ss)
    ensures forall k :: 0 <= k < count ==> Outcomes(ss, start, count)[k] == Outcome(ss, start + k)
    ensures forall k :: 0 <= k < count ==> Number(Outcomes(ss, start, count)[k]) == start + k
  {
    forall k | 0 <= k < count
      ensures Outcomes(ss, start, count)[k] == Outcome(ss, start + k)
    {
      OutcomesUpToAt(ss, start, start + count, k);
    }
  }

  /** Appending the outcome of the next candidate extends the list by one. */
  lemma OutcomesSnoc(ss: seq<Space>, start: nat, count: nat)
    requires SpacesOk(ss)
    ensures Outcomes(ss, start, count + 1) == Outcomes(ss, start, count) + [Outcome(ss, start + count)]
  {
    assert start + (count + 1) - 1 == start + count;
  }

  /** Step 4.5 after the increment of step 4.3: `*v_i *= candidate`. */
  method Advance(ss: seq<Space>, v: seq<Elt>, c: nat) returns (w: seq<Elt>)
    requires SpacesOk(ss) && 1 <= c < R && v == Factorials(ss, c - 1)
    ensures w == Factorials(ss, c)
  {
    MulEachAdvancesFactorials(ss, c - 1);
    w := MulEach(ss, v, c);
  }

  /** What holds at the top of the loop of `solve`: `v` holds `candidate!`
      in every space, and the report holds the outcomes of the candidates
      before `candidate`. */
  predicate SolveInv(ss: seq<Space>, primes: seq<nat>, start: nat, span: nat, t0: nat,
                     candidate: nat, v: seq<Elt>, result: Report)
  {
    && SpacesOk(ss) && start <= candidate <= start + span < R
    && v == Factorials(ss, candidate)
    && result == Report(Outcomes(ss, start, candidate - start), primes, t0, 0)
  }

  /** Steps 4.1 to 4.2: count the primes passing the filter, classify, and
      push the outcome of `candidate`. */
  method TestCandidate(ss: seq<Space>, primes: seq<nat>, start: nat, span: nat, t0: nat,
                       candidate: nat, v: seq<Elt>, result: Report) returns (result': Report)
    requires SolveInv(ss, primes, start, span, t0, candidate, v, result)
    ensures result' == Report(Outcomes(ss, start, candidate + 1 - start), primes, t0, 0)
  {
    var count := candidate - start;
    var passed := PassCount(ss, v);
    PassCountIsSurvivors(ss, candidate);
    var o := ClassifyAsWritten(candidate, passed);
    OutcomesSnoc(ss, start, count);
    assert candidate + 1 - start == count + 1;
    result' := Push(result, o);
  }

  /** One pass of the loop: steps 4.1 to 4.5. `done` is the `break` of step
      4.4, taken once `candidate` passes `start + span`. */
  method SolveStep(ss: seq<Space>, primes: seq<nat>, start: nat, span: nat, t0: nat,
                   candidate: nat, v: seq<Elt>, result: Report)
    returns (candidate': nat, v': seq<Elt>, result': Report, done: bool)
    requires SolveInv(ss, primes, start, span, t0, candidate, v, result)
    ensures done <==> candidate' > start + span
    ensures done ==> result' == Report(Outcomes(ss, start, span + 1), primes, t0, 0)
    ensures !done ==> SolveInv(ss, primes, start, span, t0, candidate', v', result')
    ensures candidate' == candidate + 1
  {
    result' := TestCandidate(ss, primes, start, span, t0, candidate, v, result);
    candidate' := candidate + 1;
    if candidate' > start + span {
      assert candidate' - start == span + 1;
      return candidate', v, result', true;
    }
    v' := Advance(ss, v, candidate');
    done := false;
  }

  /** `BrocardSpan::solve` as written, returning the report it sends: one
      outcome per candidate of `start..=start+span`, each the one a
      from-scratch factorial gives. `BrocardReport::empty()` is taken as
      `new(primes)` at `t0`, and `finish` happens at `t1`. */
  method Solve(start: nat, span: nat, primes: seq<nat>, t0: nat, t1: nat) returns (report: Report)
    requires PrimesOk(primes) && start + span < R
    ensures report == Finish(Report(Outcomes(Spaces(primes), start, span + 1), primes, t0, 0), t1)
  {
    var result := New(primes, t0);
    var ss := Spaces(primes);
    var candidate := start;
    var v := Factorials(ss, candidate);
    while true
      invariant SolveInv(ss, primes, start, span, t0, candidate, v, result)
      decreases start + span - candidate
    {
      var done;
      candidate, v, result, done := SolveStep(ss, primes, start, span, t0, candidate, v, result);
      if done {
        break;
      }
    }
    report := Finish(result, t1);
  }
}

=== FILE: span_partition.dfy ===
/** The older span solver of `src/brocard/mod.rs`: the same incremental
    factorials and the same filter, but each candidate goes to one of two
    lists, `potentials` when EVERY prime passes the filter and `exclusions`
    otherwise. */
module SpanPartition {
  import opened Arith
  import opened MontgomerySpace
  import opened MontgomeryElt
  import opened MontgomeryAlgorithms
  import opened Span
  import opened Selection

  /** `v.par_iter().all(...)`: every prime passes the filter. The parallel
      `all` may stop at the first failure; its value is the same. */
  predicate AllPass(ss: seq<Space>, vs: seq<Elt>)
    requires Aligned(ss, vs)
  {
    forall i :: 0 <= i < |ss| ==> Passes(ss[i], vs[i])
  }

  /** No prime rules `c` out: `c! + 1` is not a non-residue for any of
      them. */
  predicate Potential(ss: seq<Space>, c: nat)
    requires SpacesOk(ss)
  {
    forall i :: 0 <= i < |ss| ==> !RulesOut(ss[i], c)
  }

  /** The test on the incrementally kept factorials decides `Potential`. */
  lemma AllPassIsPotential(ss: seq<Space>, c: nat)
    requires SpacesOk(ss) && c < R
    ensures AllPass(ss, Factorials(ss, c)) <==> Potential(ss, c)
  {
    var vs := Factorials(ss, c);
    forall i | 0 <= i < |ss|
      ensures Passes(ss[i], vs[i]) <==> !RulesOut(ss[i], c)
    {
      PassesMeaning(ss[i], c);
    }
  }

  /** A potential is exactly what the intended classification of span.rs
      records as a `Solution`. */
  lemma PotentialIsIntendedSolution(ss: seq<Space>, c: nat)
    requires SpacesOk(ss)
    ensures Potential(ss, c) <==> OutcomeIntended(ss, c).Solution?
  {
    OutcomeIntendedMeaning(ss, c);
  }

  /** For each candidate of `start..start+count`, in order: is it a
      potential? */
  function PotentialFlags(ss: seq<Space>, start: nat, count: nat): (fs: seq<bool>)
    requires SpacesOk(ss)
    ensures |fs| == count
  {
    seq(count, k requires 0 <= k < count => Potential(ss, start + k))
  }

  lemma PotentialFlagsSnoc(ss: seq<Space>, start: nat, count: nat)
    requires SpacesOk(ss)
    ensures PotentialFlags(ss, start, count + 1) == PotentialFlags(ss, start, count) + [Potential(ss, start + count)]
  {
  }

  /** The potentials among the `count` candidates from `start`. */
  function Potentials(ss: seq<Space>, start: nat, count: nat): seq<nat>
    requires SpacesOk(ss)
  {
    Select(start, PotentialFlags(ss, start, count), true)
  }

  /** The exclusions among the `count` candidates from `start`. */
  function Exclusions(ss: seq<Space>, start: nat, count: nat): seq<nat>
    requires SpacesOk(ss)
  {
    Select(start, PotentialFlags(ss, start, count), false)
  }

  /** Every candidate of `start..start+count` lands in exactly one list: the
      potentials are exactly the candidates no prime rules out (the
      `Solution`s of the intended classification), the exclusions exactly
      the others; both are ascending and together as long as the range. */
  lemma Partition(ss: seq<Space>, start: nat, count: nat)
    requires SpacesOk(ss)
    ensures forall c :: c in Potentials(ss, start, count) <==> start <= c < start + count && Potential(ss, c)
    ensures forall c :: c in Exclusions(ss, start, count) <==> start <= c < start + count && !Potential(ss, c)
    ensures StrictlyAscending(Potentials(ss, start, count)) && StrictlyAscending(Exclusions(ss, start, count))
    ensures |Potentials(ss, start, count)| + |Exclusions(ss, start, count)| == count
  {
    var fs := PotentialFlags(ss, start, count);
    SelectMembers(start, fs, true);
    SelectMembers(start, fs, false);
    SelectAscending(start, fs, true);
    SelectAscending(start, fs, false);
    SelectLengths(start, fs, true);
    forall c | start <= c < start + count
      ensures fs[c - start] == Potential(ss, c)
    {
      assert start + (c - start) == c;
    }
  }

  /** Appending the next candidate to the list it belongs in. */
  lemma PartitionSnoc(ss: seq<Space>, start: nat, count: nat)
    requires SpacesOk(ss)
    ensures Potentials(ss, start, count + 1) ==
              Potentials(ss, start, count) + (if Potential(ss, start + count) then [start + count] else [])
    ensures Exclusions(ss, start, count + 1) ==
              Exclusions(ss, start, count) + (if Potential(ss, start + count) then [] else [start + count])
  {
    var fs := PotentialFlags(ss, start, count);
    var b := Potential(ss, start + count);
    PotentialFlagsSnoc(ss, start, count);
    SelectSnoc(start, fs, b, true);
    SelectSnoc(start, fs, b, false);
  }

  /** Step 4.1: every prime passes the filter on the incrementally kept
      factorials exactly when `c` is a potential. */
  method TestAll(ss: seq<Space>, v: seq<Elt>, c: nat) returns (test: bool)
    requires SpacesOk(ss) && c < R && v == Factorials(ss, c)
    ensures test == Potential(ss, c)
  {
    test := AllPass(ss, v);
    AllPassIsPotential(ss, c);
  }

  /** What holds at the top of the loop: `v` holds `candidate!` in every
      space, and the lists hold the candidates before `candidate`. */
  predicate PartitionInv(ss: seq<Space>, start: nat, span: nat, candidate: nat, v: seq<Elt>,
                         potentials: seq<nat>, exclusions: seq<nat>)
  {
    && SpacesOk(ss) && start <= candidate <= start + span < R
    && v == Factorials(ss, candidate)
    && potentials == Potentials(ss, start, candidate - start)
    && exclusions == Exclusions(ss, start, candidate - start)
  }

  /** Steps 4.1 and 4.2: test `candidate` and push it to the list the test
      picks. */
  method Record(ss: seq<Space>, start: nat, span: nat, candidate: nat, v: seq<Elt>,
                potentials: seq<nat>, exclusions: seq<nat>)
    returns (potentials': seq<nat>, exclusions': seq<nat>)
    requires PartitionInv(ss, start, span, candidate, v, potentials, exclusions)
    ensures potentials' == Potentials(ss, start, candidate + 1 - start)
    ensures exclusions' == Exclusions(ss, start, candidate + 1 - start)
  {
    var count := candidate - start;
    var test := TestAll(ss, v, candidate);
    PartitionSnoc(ss, start, count);
    assert candidate + 1 - start == count + 1;
    if test {
      potentials', exclusions' := potentials + [candidate], exclusions;
    } else {
      potentials', exclusions' := potentials, exclusions + [candidate];
    }
  }

  /** One pass of the loop: the `all` test of step 4.1, the push of step
      4.2, the increment, the `break` check (`done`) and the
      multiplication of step 4.5. */
  method PartitionStep(ss: seq<Space>, start: nat, span: nat, candidate: nat, v: seq<Elt>,
                       potentials: seq<nat>, exclusions: seq<nat>)
    returns (candidate': nat, v': seq<Elt>, potentials': seq<nat>, exclusions': seq<nat>, done: bool)
    requires PartitionInv(ss, start, span, candidate, v, potentials, exclusions)
    ensures candidate' == candidate + 1
    ensures done <==> candidate' > start + span
    ensures done ==> potentials' == Potentials(ss, start, span + 1)
    ensures done ==> exclusions' == Exclusions(ss, start, span + 1)
    ensures !done ==> PartitionInv(ss, start, span, candidate', v', potentials', exclusions')
  {
    potentials', exclusions' := Record(ss, start, span, candidate, v, potentials, exclusions);
    candidate' := candidate + 1;
    if candidate' > start + span {
      assert candidate' - start == span + 1;
      return candidate', v, potentials', exclusions', true;
    }
    v' := Advance(ss, v, candidate');
    done := false;
  }

  /** `BrocardSpan::solve` of mod.rs: the potentials and the exclusions of
      `start..=start+span`. */
  method SolvePartition(start: nat, span: nat, primes: seq<nat>)
    returns (potentials: seq<nat>, exclusions: seq<nat>)
    requires PrimesOk(primes) && start + span < R
    ensures potentials == Potentials(Spaces(primes), start, span + 1)
    ensures exclusions == Exclusions(Spaces(primes), start, span + 1)
  {
    var ss := Spaces(primes);
    var candidate := start;
    var v := Factorials(ss, candidate);
    potentials, exclusions := [], [];
    while true
      invariant PartitionInv(ss, start, span, candidate, v, potentials, exclusions)
      decreases start + span - candidate
    {
      var done;
      candidate, v, potentials, exclusions, done :=
        PartitionStep(ss, start, span, candidate, v, potentials, exclusions);
      if done {
        break;
      }
    }
  }
}

=== FILE: text.dfy ===
/** Text helpers for the report format of `src/brocard/report.rs`: the
    decimal rendering `{}` gives unsigned integers, and newline-terminated
    lines, each with the reading it is meant to support. */
module Text {
  predicate IsDigit(c: char)
  {
    '0' <= c <= '9'
  }

  function DigitChar(d: nat): (c: char)
    requires d < 10
    ensures IsDigit(c)
  {
    ['0', '1', '2', '3', '4', '5', '6', '7', '8', '9'][d]
  }

  function DigitValue(c: char): (d: nat)
    requires IsDigit(c)
    ensures d < 10 && DigitChar(d) == c
  {
    (c as int - '0' as int)
  }

  /** How `{}` prints an unsigned integer: its decimal digits, most
      significant first, with no leading zero. */
  predicate Canonical(s: string)
  {
    && 0 < |s|
    && (forall i :: 0 <= i < |s| ==> IsDigit(s[i]))
    && (s[0] == '0' ==> |s| == 1)
  }

  /** `format!("{}", n)` for an unsigned `n`. */
  function Decimal(n: nat): (s: string)
    ensures Canonical(s)
    ensures n < 10 <==> |s| == 1
    decreases n
  {
    if n < 10 then [DigitChar(n)]
    else
      var s := Decimal(n / 10) + [DigitChar(n % 10)];
      assert s[0] == Decimal(n / 10)[0];
      s
  }

  /** The value of a string of decimal digits. */
  function ParseDecimal(s: string): nat
    requires forall i :: 0 <= i < |s| ==> IsDigit(s[i])
    decreases |s|
  {
    if |s| == 0 then 0
    else ParseDecimal(s[..|s| - 1]) * 10 + DigitValue(s[|s| - 1])
  }

  /** Reading the digits back gives the number printed. */
  lemma {:induction false} ParseDecimalOfDecimal(n: nat)
    ensures ParseDecimal(Decimal(n)) == n
    decreases n
  {
    var s := Decimal(n);
    if n < 10 {
      DigitRoundTrip(n);
      assert ParseDecimal(s) == ParseDecimal(s[..0]) * 10 + DigitValue(s[0]);
    } else {
      var p, d := Decimal(n / 10), n % 10;
      assert s == p + [DigitChar(d)];
      assert s[..|s| - 1] == p;
      DigitRoundTrip(d);
      ParseDecimalOfDecimal(n / 10);
      assert ParseDecimal(s) == ParseDecimal(p) * 10 + d;
    }
  }

  /** Reading a digit back gives the digit printed. */
  lemma DigitRoundTrip(d: nat)
    requires d < 10
    ensures DigitValue(DigitChar(d)) == d
  {
    var ds := ['0', '1', '2', '3', '4', '5', '6', '7', '8', '9'];
    assert forall k :: 0 <= k < 10 ==> ds[k] as int == '0' as int + k;
  }

  /** Printing the value of a canonical digit string gives it back, so
      `Decimal` is a bijection onto the canonical strings. */
  lemma {:induction false} DecimalOfParseDecimal(s: string)
    requires Canonical(s)
    ensures Decimal(ParseDecimal(s)) == s
    decreases |s|
  {
    var k := |s| - 1;
    var d := DigitValue(s[k]);
    if k == 0 {
      assert ParseDecimal(s) == ParseDecimal(s[..0]) * 10 + d;
      assert s == [s[k]];
    } else {
      var p := s[..k];
      assert p[0] == s[0];
      assert Canonical(p);
      DecimalOfParseDecimal(p);
      ParseDecimalAtLeast(p);
      var v := ParseDecimal(p);
      assert ParseDecimal(s) == v * 10 + d;
      assert (v * 10 + d) / 10 == v && (v * 10 + d) % 10 == d;
      assert s == p + [s[k]];
    }
  }

  /** A canonical string of two or more digits is worth at least 10 once the
      last digit is dropped and put back, i.e. its prefix is positive. */
  lemma {:induction false} ParseDecimalAtLeast(s: string)
    requires Canonical(s) && s[0] != '0'
    ensures 1 <= ParseDecimal(s)
    decreases |s|
  {
    var k := |s| - 1;
    if k == 0 {
      assert ParseDecimal(s) == ParseDecimal(s[..0]) * 10 + DigitValue(s[0]);
    } else {
      var p := s[..k];
      assert p[0] == s[0];
      ParseDecimalAtLeast(p);
    }
  }

  /** `Decimal` never emits a newline. */
  lemma DecimalHasNoNewline(n: nat)
    ensures '\n' !in Decimal(n)
  {
  }

  /** Newline-terminated lines, as a sequence of `writeln!` calls writes
      them. */
  function JoinLines(lines: seq<string>): string
    decreases |lines|
  {
    if |lines| == 0 then [] else lines[0] + "\n" + JoinLines(lines[1..])
  }

  /** Index of the first newline of `s`, or `|s|` if there is none. */
  function FirstNewline(s: string): (i: nat)
    ensures i <= |s|
    ensures forall j :: 0 <= j < i ==> s[j] != '\n'
    ensures i < |s| ==> s[i] == '\n'
    decreases |s|
  {
    if |s| == 0 then 0
    else if s[0] == '\n' then 0
    else 1 + FirstNewline(s[1..])
  }

  /** Reading text back as lines: everything up to each newline, and an
      unterminated tail as a last line. */
  function SplitLines(s: string): seq<string>
    decreases |s|
  {
    if |s| == 0 then []
    else
      var i := FirstNewline(s);
      if i == |s| then [s] else [s[..i]] + SplitLines(s[i + 1..])
  }

  predicate NoNewlines(lines: seq<string>)
  {
    forall k :: 0 <= k < |lines| ==> '\n' !in lines[k]
  }

  /** Text written as newline-free lines reads back as exactly those lines. */
  lemma {:induction false} SplitJoin(lines: seq<string>)
    requires NoNewlines(lines)
    ensures SplitLines(JoinLines(lines)) == lines
    decreases |lines|
  {
    if |lines| > 0 {
      var l := lines[0];
      var s := JoinLines(lines);
      var rest := JoinLines(lines[1..]);
      assert s == l + "\n" + rest;
      var i := FirstNewline(s);
      assert '\n' !in l;
      forall j | 0 <= j < |l|
        ensures s[j] != '\n'
      {
        assert s[j] == l[j];
        assert l[j] in l;
      }
      assert s[|l|] == '\n';
      assert i == |l|;
      assert s[..i] == l;
      assert s[i + 1..] == rest;
      assert NoNewlines(lines[1..]) by {
        forall k | 0 <= k < |lines[1..]|
          ensures '\n' !in lines[1..][k]
        {
          assert lines[1..][k] == lines[k + 1];
        }
      }
      SplitJoin(lines[1..]);
    }
  }

  lemma Associative<T>(a: seq<T>, b: seq<T>, c: seq<T>)
    ensures a + b + c == a + (b + c)
  {
  }

  /** Joining three lines. */
  lemma JoinThree(a: string, b: string, c: string)
    ensures JoinLines([a, b, c]) == a + "\n" + (b + "\n" + (c + "\n"))
  {
    assert [a, b, c][1..] == [b, c];
    assert [b, c][1..] == [c];
    assert [c][1..] == [];
    assert JoinLines([c]) == c + "\n" + [];
    assert c + "\n" + [] == c + "\n";
  }

  /** Concatenation distributes over joining. */
  lemma {:induction false} JoinLinesAppend(a: seq<string>, b: seq<string>)
    ensures JoinLines(a + b) == JoinLines(a) + JoinLines(b)
    decreases |a|
  {
    if |a| > 0 {
      assert (a + b)[1..] == a[1..] + b;
      JoinLinesAppend(a[1..], b);
    } else {
      assert a + b == b;
    }
  }
}

=== FILE: wrappers.dfy ===
/** The optional and fallible results used by the model: `Option` stands for
    Rust's `Option`, `Result` for an operation that the source aborts with a
    `panic!` or an `unwrap()` on `None`. */
module Wrappers {

  datatype Option<+T> = None | Some(value: T)

  datatype Result<+T, +E> = Ok(value: T) | Err(error: E)
}
